=== FILE: README.md ===
# Araneid pipeline core in Dafny

Araneid is an asynchronous crawling framework. Its core moves work units (requests and their responses) through a pipeline of scheduling, downloading and parsing, and tracks completion so that the whole crawler can tell when it is quiescent and shut down cleanly. This project models that core as immutable state plus pure transition functions, and proves properties of it with the Dafny verifier.

- **Streams** (`stream.dfy`) are FIFO queues with a closed flag and an end-of-stream sentinel. They count unfinished tasks, can run in confirm-ack mode, and apply a list of map transforms to what a reader takes out.
- **Work units and state flags** (`workunit.dfy`, `state.dfy`, `flags.dfy`) cover three things: the monotone per-unit flag set, the one-shot "completed" guard, and the slot a unit is bound to.
- **Countdown latches** (`latch.dfy`) count readers and signal when the count reaches zero.
- **Slots and the slot manager** (`slot.dfy`, `slotmanager.dfy`):
  - A slot has a spider lane and a middleware lane for requests and for responses.
  - It has bind, open and close transitions and idempotent completion.
  - Its idle rule combines the idle flags of its lanes.
  - The manager keeps a map of slots and is idle when every slot is idle.
- **Schedulers, the schedule manager, the download manager and the engine** (`scheduler.dfy`, `schedulemanager.dfy`, `downloadmanager.dfy`, `engine.dfy`) cover idle composition, the routing of units between managers, permit accounting, downloader selection and the order in which components close.
- **Middleware chains** (`middleware.dfy`) fold a request, a response or a spider's output through the registered hooks.
- **Pure components**:
  - dotted-key statistics (`stats.dfy`);
  - the recursive settings merge (`setting.dfy`);
  - the first-match route table and local spider router (`route.dfy`);
  - items and fields (`item.dfy`);
  - validation rules, rule groups and schemas (`is.dfy`, `rule.dfy`, `schema.dfy`);
  - the dict helpers `Dict` and `MIDict` (`dict.dfy`).
  - `pyvalue.dfy` and `odict.dfy` give just enough of Python's values, equality, truthiness and insertion-ordered dicts to state these.

Every `await` of the original becomes either a precondition (the data to read is there, the readers have left, a permit is free, the queue is join-ready) or an explicit state change. Random choices become a `draw` parameter. Type assertions on arguments become Dafny types. An assertion that callers can trip at run time becomes an `Err` result, for example `Engine.idle` given the SLOT flag.

Two behaviours of the code are worth noting:

- A stream ignores `ack` once it is closed, and its `join` returns at once on a closed stream (araneid/core/stream.py:106-123).
- Nine places where the code evidently does not do what its authors meant are listed under Findings. In each case the model keeps the as-written behaviour beside the corrected one, and proves both the discrepancy and the intended property. Where the code itself calls a member with a finding, the model calls the as-written one: `Dicts.FromEntries` and `Dicts.AssignAll` use `Dicts.SetItemAsWritten`, and the schema examples build their rule with `Rules.OrAsWritten`. The one exception is `DownloadManagers.Download`, which selects through the corrected `DownloadManagers.SelectDownloader`. There both selection errors end the same way, with the request completed and nothing fetched. The other corrected members (`Slots.Unbind`, `Slots.Join`, `Middlewares.ProcessRequest`, `Middlewares.ProcessSpiderOutput`, `Items.Copy`, `Dicts.SetItem`, `Rules.Or`) appear only in the lemmas that compare them with the code as written. `Stats.Contains` also appears in the contracts of `Stats.Del` and `Stats.ClearValue`, as the definition of a stored key.

## Model

| member | source | states |
|---|---|---|
| Latches.NewLatch | araneid/util/_async.py:113-116 | a new countdown latch counts zero with its event clear, and can be waited on at once |
| Latches.Increment | araneid/util/_async.py:118-121 | one more party to wait for: the count rises by one and a waiter now blocks |
| Latches.Decrement | araneid/util/_async.py:123-128 | the count, required positive, falls by one and the event is set when it reaches zero; on a valid latch the event is set exactly at zero |
| Latches.ValidPreserved | araneid/util/_async.py:118-128 | increments and decrements keep the event set only while the count is zero |
| Latches.ReadyIffZero | araneid/util/_async.py:130-133 | on a valid latch `wait` returns exactly when the count is zero |
| Latches.WaitReady | araneid/util/_async.py:130-133 | `wait` returns at once at count zero and otherwise once the event is set (Latches.ReadyIffZero) |
| Latches.IncrementsCount | araneid/util/_async.py:118-121 | n increments raise the count by n and leave the event clear |
| Latches.DecrementsCount | araneid/util/_async.py:123-128 | any run of decrements keeps the latch valid |
| Latches.BalancedReleases | araneid/util/_async.py:118-133 | a reader count that goes up n times and down n times releases every waiter |
| Latches.NewBounded | araneid/util/_async.py:139-142 | a bounded latch starts at its count with the event clear, so a waiter blocks |
| Latches.BoundedDecrement | araneid/util/_async.py:144-149 | the count falls by one and the event is set when it reaches zero, and not changed before |
| Latches.BoundedReleasesAfterCount | araneid/util/_async.py:139-152 | a bounded latch releases its waiters after exactly its count of decrements, and one created at zero never does |
| States.NewState | araneid/state.py:18-21 | a new state holds every member of its enum with no flag set |
| States.SetState | araneid/state.py:37-41 | setting a flag sets it, leaves every other flag as it was, and on a set flag changes nothing |
| States.InState | araneid/state.py:23-26 | `in_state` asks whether one of the tracked flags is set; an untracked flag fails the source's assertion, which the precondition keeps out (States.SetState) |
| States.ResetState | araneid/state.py:43-47 | resetting a flag clears it and leaves every other flag as it was |
| States.ClearStates | araneid/state.py:49-52 | clearing leaves every flag of the enum unset |
| States.SetIdempotent | araneid/state.py:37-47 | setting twice is setting once, and resetting a freshly set flag restores the state |
| Units.Members | araneid/core/request.py:72-78 | a request goes through start, slot, schedule, download, parse and complete; a response has every phase but download |
| Units.NewUnit | araneid/core/request.py:143-170 | a fresh request or response is unbound, not completed, in no phase, and keeps its downloader argument |
| Units.SetPhase | araneid/state.py:37-41 | setting a phase of a unit sets it and leaves its other phases and its fields alone |
| Units.InPhase | araneid/state.py:23-26 | whether a unit is in one of the phases its kind tracks (Units.SetPhase) |
| Units.MarkComplete | araneid/core/__init__.py:60-61 | `complete` marks the unit completed and changes nothing else |
| Units.SetCompleted | araneid/core/__init__.py:56-58 | `set_completed` stores the given flag and changes nothing else |
| Units.Bind | araneid/core/__init__.py:66-70 | binding fails with a slot error exactly when the unit is already bound and the bind is not forced; otherwise the unit records the slot |
| Units.BindOnce | araneid/core/__init__.py:66-70 | a first bind succeeds, a second unforced bind fails, and a forced one rebinds |
| Flags.EngineDefault | araneid/core/engine.py:90 | the engine's default idle check covers every component flag except the per-slot one |
| Choice.RandInt | araneid/core/schedulemanager.py:78 | a random choice lies in the closed range from the low to the high end |
| Choice.RandIntCovers | araneid/core/schedulemanager.py:78 | every value of the closed range is the choice of some draw |
| Streams.New | araneid/core/stream.py:16-32 | a created stream is open, empty, with no transform, no exception and no outstanding task, so it is idle |
| Streams.Write | araneid/core/stream.py:90-93 | a write to a closed stream is dropped; otherwise the item joins the back of the queue as one more unfinished task and the stream stops being idle |
| Streams.WriteAll | araneid/core/stream.py:90-93 | consecutive writes to an open stream queue the items in order and add one task each; a closed stream is left alone |
| Streams.Map | araneid/core/stream.py:95-97 | a transform is appended after those already installed; the queue, task count, closed flag, readers, stored exception and ack mode are unchanged |
| Streams.ApplyOpsSnoc | araneid/core/stream.py:125-129 | a transform installed later runs on the output of every earlier one |
| Streams.AutoAck | araneid/core/stream.py:99-104 | a read always finishes the sentinel's task, finishes an item's task only without confirm-ack, and never drives the count below zero |
| Streams.Ack | araneid/core/stream.py:106-113 | an explicit ack finishes one task only on an open confirm-ack stream with a task outstanding, and is a no-op otherwise |
| Streams.JoinReadyIsIdle | araneid/core/stream.py:115-123 | `join` can return exactly when `idle` says true |
| Streams.Idle | araneid/core/stream.py:115-118 | a stream is idle when it is closed or its queue has no unfinished task (Streams.BalancedIdle) |
| Streams.JoinReady | araneid/core/stream.py:120-123 | `join` returns at once on a closed stream and otherwise once no task is unfinished (Streams.JoinReadyIsIdle) |
| Streams.Next | araneid/core/stream.py:64-81 | a read takes the head of the queue: an item comes back transformed; the sentinel is put back and the read stops or raises the stored exception; a closed empty stream stops without touching the queue |
| Streams.Enter | araneid/core/stream.py:50-54 | entering registers one more reader and changes nothing else |
| Streams.Exit | araneid/core/stream.py:59-61 | leaving deregisters one reader and changes nothing else |
| Streams.Get | araneid/core/stream.py:83-88 | `get` on a closed stream returns None; otherwise it returns the head item through the transforms, and the reader count is back where it was |
| Streams.GetPlain | araneid/core/stream.py:83-88 | without transforms `get` returns the head item itself and removes it from the queue |
| Streams.CloseBegin | araneid/core/stream.py:145-149 | closing an open stream marks it closed and queues exactly one sentinel as one more task; closing a closed stream does nothing |
| Streams.ClearBuff | araneid/core/stream.py:131-143 | clearing the buffer, when it does not fail, leaves no more unfinished tasks than queued entries |
| Streams.FinishClose | araneid/core/stream.py:151-153 | once the readers are gone, close clears the buffer and drops every transform |
| Streams.Close | araneid/core/stream.py:145-153 | closing a closed stream changes nothing; a successful close leaves it closed with its mode, exception and readers, and with no reader registered it finishes at once |
| Streams.SetException | araneid/core/stream.py:35-39 | once joined, storing an exception closes the stream with that exception recorded |
| Streams.DrainCounts | araneid/core/stream.py:131-138 | the clearing loop finishes one task per item ahead of the first sentinel and stops at it, keeping it queued |
| Streams.ClearBuffSucceeds | araneid/core/stream.py:131-143 | clearing never fails when every item ahead of the sentinel is still an unfinished task |
| Streams.CloseDiscardsItems | araneid/core/stream.py:131-153 | closing a stream with unread items and no reader discards them all, leaving the sentinel alone with its one task |
| Streams.LateReaderStops | araneid/core/stream.py:64-76 | a reader of a closed stream holding only the sentinel puts it back and stops, or raises the stored exception |
| Streams.BalancedPreserved | araneid/core/stream.py:90-153 | without confirm-ack every operation keeps the unfinished-task count equal to the queue length |
| Streams.BalancedCloseSucceeds | araneid/core/stream.py:131-153 | without confirm-ack close never fails and keeps that balance |
| Streams.BalancedIdle | araneid/core/stream.py:115-118 | without confirm-ack the stream is idle exactly when it is closed or its queue is empty |
| Streams.ReadNFifo | araneid/core/stream.py:64-78 | a single reader receives the queued items in FIFO order, each passed through the transforms |
| Streams.SingleReaderSeesWritesInOrder | araneid/core/stream.py:64-153 | items written to a fresh stream are read back in order, after which the stream joins and closes and a further read stops |
| Streams.FreshWrites | araneid/core/stream.py:90-93 | writes to a fresh stream without confirm-ack are all queued, one task each |
| Streams.ReaderDrainsAll | araneid/core/stream.py:64-78 | a lone reader reads every queued item in order, after which the stream joins and closes |
| Streams.DrainedStreamCloses | araneid/core/stream.py:115-153 | an open drained stream without confirm-ack joins at once, closes without error, and a later read stops |
| Streams.ReadNBalanced | araneid/core/stream.py:64-104 | reading keeps the unfinished-task count balanced and leaves the mode, readers and exception alone |
| Streams.ConfirmAckHoldsJoin | araneid/core/stream.py:99-123 | in confirm-ack mode a read does not mark its queue task done, so `join` waits until `ack` is called |
| Streams.AutoAckWithoutConfirm | araneid/core/stream.py:99-113 | without confirm-ack the read itself marks its queue task done and `ack` changes nothing |
| Slots.WithLane | araneid/core/slot.py:181-190 | each of the four lanes is addressed by direction and spider flag, and replacing one leaves the other three and the slot's fields alone |
| Slots.Create | araneid/core/slot.py:28-47 | a created slot is unbound, neither open nor closed, and holds four empty confirm-ack lanes |
| Slots.Bind | araneid/core/slot.py:50-63 | bind records the scraper and the engine it is given and keeps the old ones where it is given none |
| Slots.UnbindAsWritten | araneid/core/slot.py:65-69 | as written, unbinding the scraper clears the engine instead and the scraper stays bound |
| Slots.Unbind | araneid/core/slot.py:65-69 | corrected, each flag clears its own binding and any unbind leaves the slot unbound |
| Slots.UnbindScraperDiscrepancy | araneid/core/slot.py:65-69 | unbinding only the scraper keeps the scraper and drops the engine as written, while the corrected version drops the scraper, keeps the engine, and a rebind restores the slot |
| Slots.Open | araneid/core/slot.py:76-88 | `open` raises SlotUnbound exactly on an unbound slot and otherwise returns what the open waiter was resolved with |
| Slots.SetOpen | araneid/core/slot.py:90-96 | `set_open` raises SlotUnbound exactly on an unbound slot, resolves the open waiter with true and marks the slot open, and does nothing a second time |
| Slots.WaitClose | araneid/core/slot.py:98-102 | `wait_close` raises SlotUnbound exactly on an unbound slot and otherwise returns the slot's id once it is closed |
| Slots.ReadLane | araneid/core/slot.py:143-150 | an explicit spider flag picks its lane and no flag picks one of the two at random |
| Slots.PutUnit | araneid/core/slot.py:160-179 | putting a unit of the wrong kind fails the assertion and into an unbound slot raises SlotUnbound; otherwise the unit reaches the slot phase, is bound, and on an open slot is written to the lane its spider flag names, and no other unit changes |
| Slots.CompleteUnit | araneid/core/slot.py:235-255 | completing a unit fails on the wrong kind or an unbound slot; it reports false and changes nothing for a completed unit, and otherwise marks it complete and acks its lane |
| Slots.GetUnit | araneid/core/slot.py:136-157 | reading raises SlotUnbound when unbound and returns nothing when closed; otherwise it takes the head of the chosen lane and, unless completion is delayed, completes that unit |
| Slots.Idle | araneid/core/slot.py:293-302 | `idle` raises SlotUnbound when unbound; a bound slot passes its other flags to the engine, whose exception propagates even when the lanes are busy; otherwise it is true exactly when the lanes are idle (if SLOT is asked) and the engine is idle (if other flags are asked) |
| Slots.IdleIgnoresMiddlewareLanes | araneid/core/slot.py:304-312 | only the two spider lanes decide the slot's own idleness; the middleware lanes never do |
| Slots.WaitIdle | araneid/core/slot.py:104-133 | `wait_idle` raises SlotUnbound exactly when unbound, and waiting on the slot flag consumes the idle event |
| Slots.JoinAsWritten | araneid/core/slot.py:314-318 | as written, `join` always raises: SlotUnbound when unbound, and otherwise an AttributeError because it calls `join` on a list of lanes |
| Slots.Join | araneid/core/slot.py:314-318 | corrected, `join` joins each lane and fails only on an unbound slot |
| Slots.Close | araneid/core/slot.py:325-338 | closing raises SlotUnbound when unbound and does nothing when closed; otherwise the slot is marked closed and not open, resolves its close waiter with its id, sets its idle event and closes its four lanes |
| Slots.UnboundRejects | araneid/core/slot.py:85-327 | every public operation on an unbound slot raises SlotUnbound |
| Slots.CloseIdempotent | araneid/core/slot.py:325-329 | closing a closed slot changes nothing |
| Slots.ClosedSlotTakesNothing | araneid/core/slot.py:140-166 | a closed slot neither queues what is put nor hands anything out |
| Slots.CloseLane | araneid/core/stream.py:145-153 | closing a lane whose tasks cover its queue succeeds and leaves a well-formed closed lane |
| Slots.CloseKeepsValid | araneid/core/slot.py:325-337 | closing a valid open slot succeeds and leaves it valid |
| Slots.WithLaneValid | araneid/core/slot.py:39-44 | replacing a lane by a well-formed one keeps the slot valid |
| Slots.PutKeepsValid | araneid/core/slot.py:160-179 | putting a unit keeps the slot valid |
| Slots.CompleteKeepsValid | araneid/core/slot.py:235-255 | completing a unit keeps the slot valid |
| Slots.PutIntoEmptyLane | araneid/core/slot.py:160-179 | a unit put into an empty lane becomes the lane's only entry and only task |
| Slots.CompleteAcksLane | araneid/core/slot.py:235-255 | completing the only outstanding unit of a lane finishes the lane's last task |
| Slots.GetCompletesOnlyUnit | araneid/core/slot.py:136-157 | reading the only unit of a lane hands it out, completes it, and lets the lane be joined |
| SlotManagers.Create | araneid/core/slotmanager.py:27-43 | a new registry holds no slot, is open, and its four channels are plain empty streams |
| SlotManagers.AddSlot | araneid/core/slotmanager.py:109-115 | adding a slot registers it under its id and writes it once to each of the opening, processing and closing channels |
| SlotManagers.GetSlot | araneid/core/slotmanager.py:128-133 | a lookup finds exactly the registered slots and returns None for any other id |
| SlotManagers.Remove | araneid/core/slotmanager.py:125 | removing an id from the registration order keeps every other id and no duplicate |
| SlotManagers.CloseSlot | araneid/core/slotmanager.py:120-126 | closing an unknown slot does nothing; closing a known one succeeds exactly when the slot's own close does, and then deregisters it |
| SlotManagers.TargetSlot | araneid/core/slotmanager.py:147-149 | an explicit slot id wins, and otherwise the unit's own binding is used |
| SlotManagers.PutUnit | araneid/core/slotmanager.py:137-155 | a unit that resolves to no slot raises SlotError, one whose slot is no longer registered is dropped, and otherwise the slot's own put decides and only that slot changes |
| SlotManagers.PutKeepsValid | araneid/core/slotmanager.py:137-155 | putting a unit keeps the registry well formed |
| SlotManagers.TakeRequest | araneid/core/slotmanager.py:157-179 | one step of the per-slot reader: an unknown or closed slot yields nothing, an unbound one raises SlotUnbound, and the units are never completed by it |
| SlotManagers.TakenRequestForwarded | araneid/core/slotmanager.py:165-173 | a request taken from an open slot is written to the output channel and stays unfinished on its lane, so the slot is not idle before the request has been handled |
| SlotManagers.IdleOverMeaning | araneid/core/slotmanager.py:196-201 | the idle fold raises SlotUnbound exactly when some slot is unbound, and otherwise is true exactly when every slot's spider lanes are idle |
| SlotManagers.IdleOver | araneid/core/slotmanager.py:196-201 | the loop that ANDs each registered slot's idleness in registration order, raising at an unbound slot (SlotManagers.IdleOverMeaning) |
| SlotManagers.Idle | araneid/core/slotmanager.py:196-201 | the registry is idle exactly when every registered slot is (SlotManagers.IdleMeaning) |
| SlotManagers.IdleMeaning | araneid/core/slotmanager.py:196-201 | the registry is idle exactly when every registered slot is, and checking raises SlotUnbound when one is unbound |
| SlotManagers.AddBusySlot | araneid/core/slotmanager.py:109-201 | an empty registry is idle, and adding a busy slot makes it not idle |
| SlotManagers.Join | araneid/core/slotmanager.py:208-215 | `join` fails with SlotUnbound exactly when an unbound slot is registered, closed or not, since that slot's close future fails at once (slot.py:98-100); with every slot bound and closed it deregisters them all |
| SlotManagers.CloseAll | araneid/core/slotmanager.py:251-252 | closing every registered slot succeeds exactly when each slot's own close does |
| SlotManagers.Close | araneid/core/slotmanager.py:246-257 | closing a closed registry does nothing; a successful close closed every slot, empties the registry, sets the idle event and closes the four channels |
| SlotManagers.CloseIdempotent | araneid/core/slotmanager.py:246-248 | closing twice is closing once |
| SlotManagers.CloseAfterJoin | araneid/core/slotmanager.py:208-257 | a registry emptied by `join` always closes without error |
| Schedulers.Create | araneid/scheduler/default.py:30-40 | a new scheduler is open and idle, with empty request and response streams |
| Schedulers.Idle | araneid/scheduler/default.py:43-44 | a scheduler is idle when both its request stream and its response stream are (Schedulers.CloseSucceeds, Schedulers.AddRequestThenRun) |
| Schedulers.AddRequest | araneid/scheduler/default.py:52-55 | only a request is accepted, and it is queued on the request stream alone |
| Schedulers.AddResponse | araneid/scheduler/default.py:57-60 | only a response is accepted, and it is queued on the response stream alone |
| Schedulers.Take | araneid/scheduler/default.py:62-72 | a read returns the head unit and removes it; on an ended stream it returns None, or raises the exception the stream was closed with; it keeps the stream's task count balanced |
| Schedulers.RunStep | araneid/scheduler/default.py:79-92 | one turn of `run` writes the unit read first to the output channel, writes None there when that read found the stream ended, propagates a read's exception, and leaves the other stream alone |
| Schedulers.Close | araneid/scheduler/default.py:96-101 | closing a closed scheduler does nothing; otherwise it is marked closed and both streams are closed |
| Schedulers.CloseSucceeds | araneid/scheduler/default.py:96-101 | closing a well-formed scheduler never fails, leaves it idle, and a second close changes nothing |
| Schedulers.AddRequestThenRun | araneid/scheduler/default.py:43-92 | a request added to an empty scheduler makes it busy, the next turn hands that request on, and the scheduler is as idle as before |
| ScheduleManagers.Create | araneid/core/schedulemanager.py:33-40 | creation fails with SchedulerError exactly when no scheduler was loaded, and otherwise keeps the loaded schedulers in order with an empty channel |
| ScheduleManagers.IdleOverAll | araneid/core/schedulemanager.py:66-70 | the manager is idle exactly when every scheduler is |
| ScheduleManagers.IdleOver | araneid/core/schedulemanager.py:66-70 | the loop that ANDs the idleness of the loaded schedulers (ScheduleManagers.IdleOverAll) |
| ScheduleManagers.Idle | araneid/core/schedulemanager.py:66-70 | the manager is idle exactly when every loaded scheduler is (ScheduleManagers.IdleOverAll) |
| ScheduleManagers.Select | araneid/core/schedulemanager.py:76-79 | the chosen scheduler is always one of the loaded ones |
| ScheduleManagers.SelectCovers | araneid/core/schedulemanager.py:76-79 | every loaded scheduler can be chosen |
| ScheduleManagers.AddRequest | araneid/core/schedulemanager.py:81-83 | a request goes to the chosen scheduler and every other scheduler is left alone |
| ScheduleManagers.AddResponse | araneid/core/schedulemanager.py:85-87 | a response goes to the chosen scheduler and every other scheduler is left alone |
| ScheduleManagers.BufferedUpdate | araneid/core/schedulemanager.py:81-83 | replacing one scheduler changes the total of queued requests by exactly that scheduler's difference |
| ScheduleManagers.AddRequestEnqueuesOnce | araneid/core/schedulemanager.py:81-83 | whichever scheduler is chosen, an added request is queued exactly once across all of them |
| ScheduleManagers.CloseOrLog | araneid/core/schedulemanager.py:121-127 | a scheduler whose close raises is still recorded as closed, the exception only being logged |
| ScheduleManagers.Close | araneid/core/schedulemanager.py:114-127 | closing a closed manager does nothing; otherwise the idle event is set, the channel is closed and then every scheduler |
| ScheduleManagers.CloseIdempotent | araneid/core/schedulemanager.py:114-116 | closing twice is closing once |
| ScheduleManagers.CloseLeavesIdle | araneid/core/schedulemanager.py:114-127 | closing well-formed schedulers never fails and leaves the manager idle |
| DownloadManagers.NewPermits | araneid/core/downloadmanager.py:50-53 | a pipeline semaphore exists exactly when the configured maximum is positive, and then starts with all of its permits free |
| DownloadManagers.Acquire | araneid/core/downloadmanager.py:93-97 | without a semaphore acquiring does nothing; with one it takes one free permit |
| DownloadManagers.Release | araneid/core/downloadmanager.py:99-102 | without a semaphore releasing does nothing; with one it returns a permit, and raises ValueError exactly when every permit is already free |
| DownloadManagers.AcquireReleaseRoundTrip | araneid/core/downloadmanager.py:93-102 | acquiring and then releasing a permit gives back the semaphore as it was |
| DownloadManagers.ReleaseKeepsValid | araneid/core/downloadmanager.py:99-102 | a release keeps the free permits within the bound, and fails exactly when all permits are free |
| DownloadManagers.SelectDownloaderAsWritten | araneid/core/downloadmanager.py:76-84 | as written, a falsy argument selects 'Http', a non-empty list raises TypeError in the lookup, a missing name raises DownloaderNotFound, and a miss on a None or empty-list argument raises TypeError while building the error message |
| DownloadManagers.SelectDownloader | araneid/core/downloadmanager.py:76-84 | corrected, the named downloader, or 'Http' for a falsy argument, is selected exactly when it is loaded, and every miss raises DownloaderNotFound; a non-empty list still raises TypeError in the lookup |
| DownloadManagers.SelectDownloaderDiscrepancy | araneid/core/downloadmanager.py:76-84 | the two differ exactly when the argument is None or the empty list and no 'Http' downloader is loaded, as for a request created with the default downloader list |
| DownloadManagers.ListDownloaderCompletes | araneid/core/downloadmanager.py:132-148 | a request whose downloader argument is a non-empty list is never downloaded: the lookup raises and `download` completes the original request |
| DownloadManagers.Create | araneid/core/downloadmanager.py:39-58 | a new manager holds the semaphore its configured maximum calls for, is open and idle, and has completed nothing |
| DownloadManagers.Idle | araneid/core/downloadmanager.py:86-87 | the download manager is idle when its output channel is (DownloadManagers.CloseIdempotent) |
| DownloadManagers.ProcessDownload | araneid/core/downloadmanager.py:104-117 | forking a download takes a permit and queues the pipeline on the download channel, changing nothing else |
| DownloadManagers.PipelineDone | araneid/core/downloadmanager.py:105-107 | a finished pipeline returns its permit |
| DownloadManagers.ForkedPipelineReleases | araneid/core/downloadmanager.py:104-117 | a forked pipeline, once done, gives back exactly the permit it took |
| DownloadManagers.CompleteRequest | araneid/core/downloadmanager.py:127-130 | completing hands the request back to its scraper and sets the idle event when the manager is idle |
| DownloadManagers.Download | araneid/core/downloadmanager.py:132-148 | a response from the middleware goes to the channel, a request is downloaded by the downloader it names, and anything else, an exception or a missing downloader completes the original request |
| DownloadManagers.DownloadSettlesOnce | araneid/core/downloadmanager.py:132-145 | each call settles the request exactly once: one emitted unit, one started download, or one completion, and the permits, pipelines and closed flag do not change |
| DownloadManagers.Close | araneid/core/downloadmanager.py:225-233 | closing a closed manager does nothing; otherwise the idle event is set and both channels are joined and closed |
| DownloadManagers.CloseIdempotent | araneid/core/downloadmanager.py:225-227 | closing twice is closing once, and a closed manager is idle |
| DownloadManagers.JoinedManagerCloses | araneid/core/downloadmanager.py:225-233 | once both plain channels have been joined, close never fails |
| Engines.Create | araneid/core/engine.py:48-74 | creating an engine fails exactly when the schedule manager loads no scheduler, and otherwise yields a running engine with its schedulers and no slot |
| Engines.FlagOrderComplete | araneid/core/flags.py:3-8 | the loop over the idle flags visits every flag |
| Engines.IdleOverMeaning | araneid/core/engine.py:101-107 | the idle loop raises exactly when a selected component's check raises, and is otherwise true exactly when every selected component is idle |
| Engines.IdleOver | araneid/core/engine.py:101-107 | the loop over every flag in declaration order that ANDs the idleness of the selected components and propagates a component's exception (Engines.IdleOverMeaning) |
| Engines.Idle | araneid/core/engine.py:90-107 | `idle(flag)`: AssertionFailed when SLOT is asked for, otherwise the selected components' idleness (Engines.IdleMeaning, Engines.DefaultIdle) |
| Engines.IdleMeaning | araneid/core/engine.py:90-107 | `idle` fails its assertion exactly for a flag set holding SLOT, raises SlotUnbound only through the slot manager, and otherwise is true exactly when every selected component is idle |
| Engines.DefaultIdle | araneid/core/engine.py:90 | with the default flags the engine is idle exactly when the download, slot, signal and schedule managers all are |
| Engines.WaitIdle | araneid/core/engine.py:109-124 | `wait_idle` fails its assertion exactly for a flag set holding SLOT; otherwise it returns once the selected download, slot and schedule managers' idle events are set, clearing each, and once the signal manager, if selected, is idle (channels idle or closed, signal.py:386-393), consuming nothing there; a wait on the signal manager alone changes nothing |
| Engines.WaitIdleConsumesEvents | araneid/core/engine.py:109-124 | after a wait that selects a manager with an idle event, a second wait on the same flags is no longer ready |
| Engines.SignalWaitRepeats | araneid/core/signal.py:386-393 | waiting on the signal manager alone returns the engine unchanged, so a second wait returns at once too |
| Engines.SlotIdleRaisesThroughEngine | araneid/core/slot.py:300-301 | a bound slot's `idle` with the SLOTMANAGER flag asks this engine, so a slot manager holding an unbound slot makes it raise |
| Engines.Reschedule | araneid/core/engine.py:164-172 | the slot manager's receiver drops a unit that has already been scheduled, and otherwise adds a response or a request to the schedule manager, changing nothing else |
| Engines.ScheduleReceiver | araneid/core/engine.py:149-156 | the schedule manager's receiver marks the unit scheduled; a request is then forked for download with the downloader it names, and a response is put back into its slot |
| Engines.ScheduledRequestNotRescheduled | araneid/core/engine.py:149-172 | a request the schedule manager has released is dropped if it comes back, so it is never scheduled twice |
| Engines.FreshRequestScheduledOnce | araneid/core/engine.py:170-172 | a fresh request coming out of a slot is queued by exactly one scheduler |
| Engines.AddSlot | araneid/core/engine.py:127-134 | adding a slot binds it to this engine and registers it, so a slot with a scraper becomes bound |
| Engines.Close | araneid/core/engine.py:242-256 | closing a stopped engine does nothing; otherwise it stops and closes the slot, schedule, download and signal managers in that order, an exception halting the sequence where it was raised |
| Middlewares.RequestFold | araneid/core/middlewaremanager.py:336-349 | the request loop hands on each request a hook returns, ends at the first non-request result, and on an exception names a hook of the list that raised |
| Middlewares.ShiftRequest | araneid/core/middlewaremanager.py:344 | moving an exception exit along the list moves only its position |
| Middlewares.ProcessRequestAsWritten | araneid/core/middlewaremanager.py:332-349 | as written, an exception exit carries the raising hook's position within the slice after `start_from`, not within the whole list |
| Middlewares.ProcessRequest | araneid/core/middlewaremanager.py:332-349 | corrected, an exception exit names the raising hook's own position in the whole list, at or after `start_from`, and a call past the end returns the request unchanged |
| Middlewares.RequestFoldAppend | araneid/core/middlewaremanager.py:336-349 | the hooks of a later middleware see the request the earlier ones left, and a non-request result or an exception ends the call before them |
| Middlewares.RequestFoldShift | araneid/core/middlewaremanager.py:334 | running from a position past a prefix is running the rest of the list alone, with positions shifted by the prefix |
| Middlewares.NoHooksKeepRequest | araneid/core/middlewaremanager.py:338-339 | middlewares without a request hook leave the request as it was |
| Middlewares.NonRequestEndsChain | araneid/core/middlewaremanager.py:346-348 | once a hook returns something other than a request, later middlewares change nothing |
| Middlewares.StartFromSkipsPrefix | araneid/core/middlewaremanager.py:334 | starting from `start_from` is running the slice after it, with the exception position counted in the whole list for the corrected call and in the slice for the call as written |
| Middlewares.ProcessRequestDiscrepancy | araneid/core/middlewaremanager.py:344 | the two readings differ exactly when a hook raises in a call started past the first middleware; with two middlewares, `start_from` 1 and a raising second hook, exception handling restarts at the first |
| Middlewares.ResponseFold | araneid/core/middlewaremanager.py:354-381 | the response loop continues on None and on a returned response, stops at a returned request, hands an exception to the errback, keeps the response on IgnoreRequest without one, and otherwise propagates it |
| Middlewares.ProcessResponse | araneid/core/middlewaremanager.py:351-381 | a finished or ignored call ends with a response, and a call past the end returns the response unchanged |
| Middlewares.ResponseFoldAppend | araneid/core/middlewaremanager.py:354-381 | the hooks of a later middleware see the response the earlier ones settled on, and any other exit of the earlier ones is the call's exit |
| Middlewares.ResponseFoldShift | araneid/core/middlewaremanager.py:353 | running from a position past a prefix is running the rest of the list alone |
| Middlewares.NoneResultsKeepResponse | araneid/core/middlewaremanager.py:374-375 | hooks that only return None leave the response as it came |
| Middlewares.ReturnedResponseReplaces | araneid/core/middlewaremanager.py:378-380 | a hook that returns a response replaces the current one for the rest of the chain |
| Middlewares.OutputFold | araneid/core/middlewaremanager.py:113-134 | the output loop stops on a falsy result, replaces the result only by a list, and on an exception (including a non-list result) names a hook of the list that raised |
| Middlewares.ShiftOutput | araneid/core/middlewaremanager.py:132 | moving an exception exit along the list moves only its position |
| Middlewares.ProcessSpiderOutputAsWritten | araneid/core/middlewaremanager.py:110-134 | as written, an exception exit restarts the exception chain at the first middleware and passes the raising hook's position as the scraper argument |
| Middlewares.ProcessSpiderOutput | araneid/core/middlewaremanager.py:110-134 | corrected, an exception exit passes the scraper on and starts the exception chain just after the middleware that raised; a call past the end returns the result unchanged |
| Middlewares.FalsyResultStops | araneid/core/middlewaremanager.py:117-118 | an empty or falsy result stops the chain before any hook is called |
| Middlewares.OutputFoldAppend | araneid/core/middlewaremanager.py:113-134 | the hooks of a later middleware see the list the earlier ones produced, and an exception in the earlier ones ends the call |
| Middlewares.OutputFoldShift | araneid/core/middlewaremanager.py:112 | running from a position past a prefix is running the rest of the list alone, with positions shifted by the prefix |
| Middlewares.SpiderOutputDiscrepancy | araneid/core/middlewaremanager.py:132 | the two readings take the exception path on the same inputs and always differ on it, and agree everywhere else |
| Middlewares.InputFold | araneid/core/middlewaremanager.py:138-166 | the input loop continues while hooks return None and stops at the first other result, returning the response either way; a raised exception goes to the errback, whose result goes to the output chain and whose own exception, or the hook's without an errback, goes to the exception chain |
| Middlewares.ProcessSpiderInput | araneid/core/middlewaremanager.py:136-166 | a call that passes or is accepted returns the response it was given, and a call past the end passes it unchanged |
| Middlewares.NoRaiseReturnsResponse | araneid/core/middlewaremanager.py:163-166 | when no hook raises, the call returns the response it was given |
| Middlewares.InputFoldAppend | araneid/core/middlewaremanager.py:138-166 | the hooks of a later middleware run only when every earlier hook returned None |
| Middlewares.InputFoldShift | araneid/core/middlewaremanager.py:138 | running from a position past a prefix is running the rest of the list alone |
| Stats.Split | araneid/stats.py:26 | splitting a key on a one-character separator gives at least one part, none of which holds the separator |
| Stats.SplitPrefix | araneid/stats.py:26 | a leading piece free of the separator sticks to the first part of what follows |
| Stats.SplitJoin | araneid/stats.py:26 | splitting a key joined from separator-free parts gives back the parts |
| Stats.JoinSplit | araneid/stats.py:26 | joining the parts of a split key gives back the key |
| Stats.GetIn | araneid/stats.py:40-43 | the read walk succeeds exactly when every dict it passes through is a dict or missing (`Walkable`); it then returns the value stored at the path, or the default where the path is missing, and otherwise raises AttributeError |
| Stats.Get | araneid/stats.py:18-19 | `get` succeeds exactly when the dotted key's walk meets no value other than a dict; it returns the value stored under the key and the default when there is none, in particular when the first part is not stored |
| Stats.Nest | araneid/stats.py:61-65 | the chain of fresh dicts built on the way holds the value at the end of the path |
| Stats.NotADict | araneid/stats.py:62-64 | walking into a value that is not a dict fails with TypeError or AttributeError |
| Stats.SetIn | araneid/stats.py:60-65 | the write walk succeeds exactly when every dict it passes through is a dict or missing; it then stores the value at the path, creating missing dicts, adds only the path's first key and keeps every other top-level key |
| Stats.Set | araneid/stats.py:21-22 | `set` succeeds exactly when the dotted key's walk meets no value other than a dict; the key then reads as the value and every other top-level key is unchanged |
| Stats.SetThenGet | araneid/stats.py:18-65 | on a walkable key `set` succeeds; the key then reads as the value, its parent as the dict holding it, every path that parts from it as before, and the key stays walkable |
| Stats.LookupPrefix | araneid/stats.py:41-43 | a path one key longer is that key looked up in the dict the shorter path reaches |
| Stats.SetKeepsOtherPaths | araneid/stats.py:55-65 | `set` changes nothing off its path: every path that parts from it reads as before |
| Stats.EmptyLooksUpNothing | araneid/stats.py:8-9 | an empty store holds no path |
| Stats.WalkableCons | araneid/stats.py:41-42 | a path can be walked from a dict exactly when its tail can be walked from the entry under its first key, or from the fresh dict standing in for a missing one |
| Stats.LookupWalkable | araneid/stats.py:41-43 | a path that reaches a stored value can be walked |
| Stats.ContainsAsWritten | araneid/stats.py:24-33 | as written, `in` holds exactly when every part of the dotted key is a top-level key |
| Stats.AllTopLevel | araneid/stats.py:31-32 | the loop of `__contains__` holds exactly when every part is a top-level key |
| Stats.Contains | araneid/stats.py:24-33 | corrected, `in` holds exactly when the dotted key names a stored value, which `get` then returns for any default |
| Stats.ContainsPath | araneid/stats.py:24-33 | the path check holds exactly when the path reaches a stored value |
| Stats.ContainsAgreeUndotted | araneid/stats.py:24-33 | on a key without a separator both readings hold exactly when the key is stored at the top level |
| Stats.ContainsMissesNested | araneid/stats.py:24-33 | with a value set under `a.b` (say `dict.key1`), the code as written reports the key missing while the corrected check finds it |
| Stats.ContainsInventsFlat | araneid/stats.py:24-33 | with `a` and `b` stored side by side, the code as written reports `a.b` present while the corrected check does not |
| Stats.DelIn | araneid/stats.py:50-53 | the delete walk succeeds exactly when the path is stored, removes it, and keeps every other top-level key |
| Stats.Del | araneid/stats.py:45-53 | `del` succeeds exactly on a stored key, which is then no longer contained |
| Stats.ClearedStoreIsEmpty | araneid/stats.py:67-68 | after `clear` nothing is contained and every read gives its default |
| Stats.NatToString | araneid/stats.py:111 | a number is written as at least one decimal digit |
| Stats.Digit | araneid/stats.py:111 | each digit is written as a decimal digit character |
| Stats.NatToStringInjective | araneid/stats.py:111 | different numbers are written differently |
| Stats.DigitInjective | araneid/stats.py:111 | different digits are written differently |
| Stats.SpiderKey | araneid/stats.py:111 | a spider's key starts with `spider_` and holds more than that prefix |
| Stats.SpiderKeyAvoids | araneid/stats.py:111 | a separator other than a digit, an underscore or a letter of `spider` never occurs in a spider key |
| Stats.ScopedSplit | araneid/stats.py:111 | with such a separator a spider's dotted key splits into the spider key followed by the parts of the key |
| Stats.GetValue | araneid/stats.py:108-114 | `get_value` succeeds exactly when the scoped key can be walked; without a spider it reads the global store, with one it reads the spider store under `spider_<id>` + sep + key, which, with a separator that cannot occur in the spider key, is the key read inside that spider's statistics, or the default when it has none |
| Stats.SetValue | araneid/stats.py:123-129 | `set_value` succeeds exactly when the scoped key can be walked, leaves the other scope untouched and every path off the key's path in its own scope reading as before, and the key then reads as the value there |
| Stats.SpidersApart | araneid/stats.py:123-129 | setting a value for one spider leaves every key of another spider reading as before |
| Stats.IncValue | araneid/stats.py:139-145 | `inc_value` succeeds exactly when the scoped key can be walked and reads a number (`start` when not stored); it stores that number plus `count` and changes nothing else in either scope, and raises TypeError on a stored value that is not a number |
| Stats.MaxValue | araneid/stats.py:148-154 | `max_value` succeeds exactly when the scoped key can be walked and reads a number (the value when not stored); it stores the larger of the two and changes nothing else in either scope, and raises TypeError on a stored value that is not a number |
| Stats.MinValue | araneid/stats.py:157-163 | `min_value` succeeds exactly when the scoped key can be walked and reads a number (the value when not stored); it stores the smaller of the two and changes nothing else in either scope, and raises TypeError on a stored value that is not a number |
| Stats.IncValueAccumulates | araneid/stats.py:139-145 | two `inc_value` calls on a walkable key holding a number, or nothing, both succeed and add both counts to it, whatever the second start |
| Stats.IncValueFromEmpty | araneid/stats.py:139-145 | on a fresh collector `inc_value(key, 1, start=0)` then `inc_value(key, 2)` leave any key, global or a spider's, dotted or not, reading 3 |
| Stats.MaxValueTwice | araneid/stats.py:148-154 | two `max_value` calls both succeed and leave the largest of the stored number and both values |
| Stats.MinValueTwice | araneid/stats.py:157-163 | two `min_value` calls both succeed and leave the smallest of the stored number and both values |
| Stats.SetValueOverwrites | araneid/stats.py:123-129 | setting a walkable key twice succeeds both times and the second value is what it reads |
| Stats.StoredReadIgnoresDefault | araneid/stats.py:108-114 | a key that reads something other than None is stored, so any default reads the same |
| Stats.ClearValue | araneid/stats.py:165-171 | `clear_value` succeeds exactly on a key of its scope stored along its '.'-separated path, whatever `sep` is, removes it, and leaves the other scope alone |
| Stats.ClearValueSplitsOnDot | araneid/stats.py:165-171 | with `sep='/'`, `clear_value('a.b')` deletes the nested `b` and keeps a flat `a.b` entry, and `clear_value('a/b')` raises KeyError on `{'a': {'b': 1}}` |
| Stats.ClearStats | araneid/stats.py:173-177 | without a spider `clear_stats` empties the global store; with one it removes that spider's statistics, raising KeyError when it has none |
| Stats.GetStats | araneid/stats.py:116-121 | `get_stats` returns the global store, or a spider's statistics, or an empty dict for a spider with none |
| Stats.SetStats | araneid/stats.py:131-136 | after `set_stats` the scope's statistics are the given ones and the other scope is untouched |
| Stats.SpiderValueInSpiderStats | araneid/stats.py:108-121 | a spider's `get_value` reads inside the dict its `get_stats` returns |
| Settings.Merge | araneid/setting.py:7-21 | the merge holds the keys of both sides; a key only in the first keeps its value, and a key of the second wins unless both values are dicts |
| Settings.MergedLeavesComeFromB | araneid/setting.py:7-21 | every leaf of the second settings is the merged leaf at the same path |
| Settings.MergeKeepsA | araneid/setting.py:7-21 | where the second settings say nothing, on the way or at the path, the merge reads as the first |
| Settings.LeafLooksUpNothing | araneid/setting.py:12 | a path cannot continue past a value that is not a dict |
| Settings.MergeSelf | araneid/setting.py:14-15 | merging settings into themselves changes nothing |
| Settings.MergeTwice | araneid/setting.py:7-21 | merging the same settings a second time changes nothing |
| Settings.MergeEmpty | araneid/setting.py:7-21 | merging nothing, or into nothing, gives the other side |
| Settings.New | araneid/setting.py:33-35 | a new registry holds no plugin and no setting |
| Settings.LoadFromModule | araneid/setting.py:37-39 | a plugin contributes exactly its attributes whose names hold no double underscore and are not `order`, with their values |
| Settings.AddSettingPlugin | araneid/setting.py:47-53 | adding a plugin records its name, adds its settings' keys, and its leaf settings win over earlier ones |
| Settings.Get | araneid/setting.py:58-59 | `get` returns the stored value, or the default when the key is absent |
| Settings.GetItem | araneid/setting.py:55-56 | indexing returns a value exactly when the key is stored, and that value is what `get` returns |
| Settings.ReloadChangesNothing | araneid/setting.py:47-53 | adding the same plugin twice leaves the registry as adding it once |
| Routes.IndexOf | araneid/spider/route.py:16 | the position of a rule object in the table's dict, absent exactly when no entry holds that rule |
| Routes.SetItem | araneid/spider/route.py:13-16 | storing a target under a new rule appends it at the end of the insertion order; under a rule already present it replaces that entry's target in place and keeps the order |
| Routes.FirstMatch | araneid/spider/route.py:20-22 | the first entry at or after a position whose rule matches the key, with no matching entry before it; absent when no later rule matches |
| Routes.GetItem | araneid/spider/route.py:18-26 | `__getitem__` and `get`: the target of the first rule in insertion order that matches the key, and None exactly when no rule matches |
| Routes.AppendKeepsEarlierRoutes | araneid/spider/route.py:18-23 | rules added later never shadow a key that already resolves; a key that did not resolve resolves through the added rules |
| Routes.FirstMatchAt | araneid/spider/route.py:20-22 | a key whose first matching rule is at a position resolves to that entry's target |
| Routes.UniformTargetResolves | araneid/spider/route.py:18-23 | in a table whose entries all lead to one target, any matching key resolves to that target |
| Routes.New | araneid/spider/routes/LocalSpiderRouter.py:43-45 | a new router has an empty route table |
| Routes.AddRule | araneid/spider/routes/LocalSpiderRouter.py:52-53 | registering a freshly made rule object appends it, with its target, after every existing route |
| Routes.AddRules | araneid/spider/routes/LocalSpiderRouter.py:61-68 | registering a list of rules keeps the existing routes as a prefix and appends one route per rule, in order, each leading to the target |
| Routes.UrlRules | araneid/spider/routes/LocalSpiderRouter.py:61-63 | one URL rule per URL of the parser, in order |
| Routes.RegexRules | araneid/spider/routes/LocalSpiderRouter.py:66-68 | one regex rule per regex of the parser, in order |
| Routes.AddStarterRoute | araneid/spider/routes/LocalSpiderRouter.py:51-53 | `add_starter_route` appends exactly one route, the name rule 'starter.' + rule, to the starter |
| Routes.ParserRuleKinds | araneid/spider/routes/LocalSpiderRouter.py:55-68 | a parser route is the name rule 'parser.' + rule, then a URL rule per URL, then a regex rule per regex; a starter registered as parser gets only the name rule |
| Routes.AddParserRoute | araneid/spider/routes/LocalSpiderRouter.py:55-68 | `add_parser_route` keeps the existing routes and appends the parser's rules, every one leading to the target |
| Routes.ParserRuleFor | araneid/spider/routes/LocalSpiderRouter.py:57-63 | the parser's name key and each of its URLs has a name or URL rule among the rules registered for it |
| Routes.ParserRouteResolves | araneid/spider/routes/LocalSpiderRouter.py:55-63 | after `add_parser_route`, 'parser.' + rule and every URL of the parser resolve to the parser unless an earlier route already claimed that key |
| Routes.AppendUniformRoutes | araneid/spider/route.py:18-23 | appended rules that all lead to one target make a key one of them names resolve to that target unless it already resolved |
| Routes.StarterRouteResolves | araneid/spider/routes/LocalSpiderRouter.py:51-53 | after `add_starter_route`, 'starter.' + rule resolves to the starter unless an earlier route already claimed that key |
| Routes.RouteFirst | araneid/spider/routes/LocalSpiderRouter.py:70-90 | `starter_route`/`parser_route`: the target of the first key in the list that resolves, every earlier key resolving to nothing; None exactly when the list is empty or no key resolves |
| PyValues.PyEqReflexive | araneid/data/item.py:33 | the value comparison inside `Field.__eq__` holds between a value and itself, lists and dicts included |
| PyValues.PyEqSymmetric | araneid/data/item.py:33 | the value comparison inside `Field.__eq__` does not depend on which side a value is on |
| PyValues.TrueIsOne | araneid/data/item.py:33 | `True` and `1` compare equal though they are different values, as Python's booleans are integers |
| OrderedDicts.Get | araneid/data/item.py:77-80 | a dict lookup is absent exactly when no entry has the key, and otherwise gives the value stored under it |
| OrderedDicts.Put | araneid/data/item.py:73-75 | assigning to a present key replaces its value in place and keeps the length; a new key goes last; keys stay distinct |
| OrderedDicts.Update | araneid/data/item.py:85-86 | assigning a run of entries in turn keeps the keys distinct; afterwards a key of the run reads its last value there and every other key reads as before |
| OrderedDicts.PutThenGetAll | araneid/data/item.py:86 | after one assignment the assigned key reads the value and every other key reads as before |
| OrderedDicts.Keys | araneid/data/item.py:111 | the keys of a dict in insertion order |
| OrderedDicts.Values | araneid/data/item.py:71 | the values of a dict in insertion order |
| OrderedDicts.PutThenGet | araneid/data/item.py:73-80 | after assigning a value to a key, that key reads the value and every other key reads as before |
| OrderedDicts.PutPresent | araneid/data/item.py:75 | assigning a key the value it already holds leaves the dict unchanged |
| OrderedDicts.PutSmall | araneid/data/item.py:75 | assigning into an empty dict, and into a one-entry dict under the same or another key, gives the expected entries in order |
| OrderedDicts.PutSecond | araneid/data/item.py:75 | assigning to the second key of a two-entry dict replaces its value and keeps the order |
| Items.DefaultField | araneid/data/item.py:25-30 | a field built with the defaults is an unnamed, not required TEXT field with no value and no description |
| Items.FieldEqIgnoresDesc | araneid/data/item.py:32-33 | field equality is reflexive and symmetric and ignores the description |
| Items.FieldEq | araneid/data/item.py:32-33 | two fields are equal when their names, types, require flags and values are, whatever their descriptions (Items.FieldEqIgnoresDesc) |
| Items.Construct | araneid/data/item.py:25-30 | the constructor builds a field exactly when the type, require and name arguments are of their parameters' kinds, with each attribute taken from its own parameter |
| Items.CopyMisbindsArguments | araneid/data/item.py:38-40 | `copy` as written passes the name where the type belongs, so it never builds a well-formed field |
| Items.Copy | araneid/data/item.py:38-40 | a copy equals the original field, description aside |
| Items.DefineFields | araneid/data/item.py:46-57 | the metaclass collects the field attributes, at most one per attribute, each named after the attribute it is bound to |
| Items.DefineFieldsOrigin | araneid/data/item.py:46-57 | each collected field is the field bound to some attribute, renamed after that attribute, with its type, value, require flag and description unchanged |
| Items.DefineFieldsAppend | araneid/data/item.py:49-53 | the fields of a class body come in attribute order: those of earlier attributes precede those of later ones |
| Items.DefineFieldsOne | araneid/data/item.py:49-53 | one attribute contributes its field renamed after it when it is bound to a field, and nothing otherwise |
| Items.DefineFieldsKeys | araneid/data/item.py:49-57 | an item class has a field under exactly the names bound to fields, and one field per name |
| Items.DefineFieldsHasKey | araneid/data/item.py:49-57 | a name has a field exactly when some attribute of that name is bound to a field |
| Items.DefineFieldsDistinct | araneid/data/item.py:49-57 | distinct attribute names give distinct field names |
| Items.NewItem | araneid/data/item.py:63-67 | a new item holds the class's fields and is named after its class unless given a non-empty name |
| Items.AddField | araneid/data/item.py:73-75 | `add_field` stores the field under its own name, and every other name reads as before |
| Items.GetValue | araneid/data/item.py:77-80 | `get` gives the value of the field under the key, or the default when there is no such field |
| Items.GetItem | araneid/data/item.py:88-92 | `item[key]` raises FieldNotFound exactly when no field has the key, and otherwise gives the field, whose value `get` reads |
| Items.SetItem | araneid/data/item.py:94-100 | `item[key] = x` raises FieldNotFound exactly when the key is unknown; a plain value becomes the field's value, a field replaces the field, and the other fields and the key order are unchanged |
| Items.UpdateItem | araneid/data/item.py:82-86 | `update` fails its assertion exactly when the other item is neither of the item's class nor of a class derived from it; otherwise it stores the other item's fields in order and keeps the item's class, name and distinct keys |
| Items.UpdateItemReads | araneid/data/item.py:82-86 | after `update` with an instance of the item's class, a name none of the other item's fields carries reads as before, and a name they carry reads the last field carrying it |
| Items.StoreAll | araneid/data/item.py:85-86 | storing fields one by one under their names keeps the keys distinct |
| Items.StoreAllReads | araneid/data/item.py:84-86 | after `update`, a name none of the other item's fields carries reads as before, and a name reads the last field carrying it |
| Items.StoreAllIsUpdate | araneid/data/item.py:84-86 | storing the other item's fields one by one is the dict's own update with each field under its name |
| Items.ToDict | araneid/data/item.py:109-113 | `to_dict` has the item's keys, in order, each mapped to its field's value |
| Items.ToDictAgreesWithGet | araneid/data/item.py:109-113 | reading the exported dict gives what `get` gives, default included |
| Items.AssignThenRead | araneid/data/item.py:88-100 | assigning a plain value to a known key and reading it back gives that value |
| Is.ClassNameInjective | araneid/data/check/Is.py:6-82 | the stock rule classes have distinct class names, so a rule group keys each of them apart |
| Is.Check | araneid/data/check/Is.py:6-82 | a non-field passes every rule; NotEmpty fails exactly on None, Int exactly on a non-integer (booleans are integers), Dict on a non-dict, String on a non-str, Text on anything but str, bytes or bytearray; Url and File never fail; an error reads '<field name>: <the rule's message>' |
| Is.TypeRulesImplyNotEmpty | araneid/data/check/Is.py:6-76 | a value any of the type rules accepts also passes NotEmpty |
| Is.TextWidensString | araneid/data/check/Is.py:50-76 | a value the String rule accepts also passes the Text rule |
| Rules.EqualityIsOneSided | araneid/data/check/rule.py:44-79 | a rule equals the group holding just that rule (same name) but the group does not equal the rule, because a group compares only with groups |
| Rules.RuleEq | araneid/data/check/rule.py:44-79 | `==` runs the left operand's `__eq__`: a rule equals any rule of the same name, a group only a group of the same name, so equality is one-sided (Rules.EqualityIsOneSided) |
| Rules.FirstError | araneid/data/check/rule.py:69-76 | the first error among check results: absent exactly when every result is absent, otherwise a result preceded only by passes |
| Rules.Check | araneid/data/check/rule.py:69-76 | a single rule applies its class's `isinstance` test and message; a group runs its rules in insertion order and reports the first error, or None when all pass, as Rules.GroupCheck states |
| Rules.GroupCheck | araneid/data/check/rule.py:69-76 | a group passes exactly when each of its rules passes, and otherwise reports the error of the first rule that fails, in insertion order |
| Rules.FirstRuleFails | araneid/data/check/rule.py:71-75 | when a group's first rule fails, the group reports that rule's error |
| Rules.GroupOrAsWritten | araneid/data/check/rule.py:60-67 | `RuleGroup.__or__` as written stores every operand, group or not, under its class name, keeping the keys distinct |
| Rules.OrAsWritten | araneid/data/check/rule.py:39-67 | combining two rules with `__or__` as written yields a group in which the right operand sits under its class name |
| Rules.OrAsWrittenTwice | araneid/data/check/rule.py:60-67 | adding the same rule twice with the as-written `__or__` changes nothing |
| Rules.PairAsWritten | araneid/data/check/rule.py:39-42 | two different single rules combine into a group holding both under their class names, left one first |
| Rules.SecondGroupReplacesFirst | araneid/data/check/rule.py:60-63 | with the as-written `__or__`, a second group operand replaces the first under the key 'RuleGroup' |
| Rules.IntDictRejectsString | araneid/data/check/rule.py:39-76 | the group of Int and Dict rejects a string value |
| Rules.SecondGroupName | araneid/data/check/rule.py:51-54 | the name of NotEmpty combined with a group g1 and then a group g2 is NotEmptyRule and RuleGroup joined by a bar |
| Rules.StringTextAcceptsString | araneid/data/check/rule.py:60-76 | NotEmpty combined with any group g1 and then the group of String and Text accepts a string |
| Rules.OrDropsGroup | araneid/data/check/rule.py:60-67 | NotEmpty combined with the group of Int and Dict and then the group of String and Text, as written, loses the Int and Dict group: a string it rejects passes the combined rule |
| Rules.GroupOr | araneid/data/check/rule.py:60-67 | the corrected `RuleGroup.__or__` merges a group operand's rules in and stores any other rule under its class name, keeping the group flat |
| Rules.GroupOrPasses | araneid/data/check/rule.py:60-67 | after the corrected `__or__`, the group's rules pass exactly when the old ones and the added rule or group pass |
| Rules.PutRule | araneid/data/check/rule.py:63 | storing a single rule under its class name keeps the group flat |
| Rules.PutRulePasses | araneid/data/check/rule.py:63 | after storing a rule, the group's rules pass exactly when the old ones and the new one pass |
| Rules.UpdateFlat | araneid/data/check/rule.py:64-66 | merging another flat group's rules in keeps the group flat |
| Rules.UpdateFlatPasses | araneid/data/check/rule.py:64-66 | after merging, the rules pass exactly when the rules of both groups pass |
| Rules.Or | araneid/data/check/rule.py:39-67 | the corrected `__or__` yields a flat group of single rules, each under its class name |
| Rules.OrChecksBoth | araneid/data/check/rule.py:39-76 | the corrected combination of two rules passes exactly when both operands pass: no rule of either side is lost |
| Rules.PutRuleKeys | araneid/data/check/rule.py:63 | storing a rule whose class is already present changes nothing, and the keys afterwards are the old keys plus the rule's class name |
| Rules.UpdateFlatKeys | araneid/data/check/rule.py:64-66 | every key of either group is a key of the merged group |
| Rules.UpdateFlatPresent | araneid/data/check/rule.py:64-66 | merging a group whose keys are all present already changes nothing |
| Rules.OrTwice | araneid/data/check/rule.py:39-67 | with the corrected `__or__`, combining with the same rule or group a second time changes nothing |
| Rules.PairCorrected | araneid/data/check/rule.py:39-42 | two single rules combine into a group holding each distinct rule once, left one first |
| Rules.PairName | araneid/data/check/rule.py:51-54 | the name of two single rules combined is both class names joined with a bar, or the one name when the rule is repeated |
| Rules.Name | araneid/data/check/rule.py:23-54 | a rule is named after its class, and a group by its keys joined with '|', as Rules.PairName and Rules.SecondGroupName state |
| Schemas.Somes | araneid/data/check/schema.py:33-36 | the errors among check results, never more than the results, and none exactly when every check passed |
| Schemas.SomesAppend | araneid/data/check/schema.py:29-36 | the errors of two runs of fields are the errors of each, in order |
| Schemas.FieldErrors | araneid/data/check/schema.py:29-35 | one check result per field, the rule bound to the field's name applied to it, and a pass for a field without a rule |
| Schemas.Errors | araneid/data/check/schema.py:29-36 | at most one error per field, and none exactly when every field with a rule passes it |
| Schemas.CheckItem | araneid/data/check/schema.py:25-40 | checking an item passes exactly when every field with a rule passes, and otherwise reports '<item class> { e1, e2 }' with the errors in field order |
| Schemas.FieldErrorsAppend | araneid/data/check/schema.py:29-35 | the results for two runs of fields are the results of each, in order |
| Schemas.UnruledFieldSkipped | araneid/data/check/schema.py:30-32 | a field whose name has no rule adds no error |
| Schemas.NonEmptyStringEitherOr | araneid/data/check/rule.py:60-67 | for NotEmpty and String the `__or__` as written and the corrected one build the same two-rule group |
| Schemas.NonEmptyStringRejectsNone | araneid/data/check/rule.py:69-76 | NotEmpty combined with String rejects a missing value with the NotEmpty error alone, as the group stops at its first failing rule |
| Schemas.EmptyNameFails | araneid/data/check/schema.py:25-40 | an item whose only field, ruled by NotEmpty combined with String, holds None fails with '<class> { <name>: must be not empty }' |
| Schemas.StringNamePasses | araneid/data/check/schema.py:25-40 | the same item passes once the field holds a string |
| Dicts.DictGet | araneid/util/dict.py:14-20 | `Dict.get` returns the stored value (a dict wrapped) when it is truthy or a dict, and otherwise the wrapped default; the result is truthy or the default itself |
| Dicts.FalsyValuesGiveWay | araneid/util/dict.py:14-20 | a stored empty dict comes back wrapped, while a stored zero or empty string gives way to the default |
| Dicts.Empty | araneid/util/dict.py:25-27 | a new MIDict has no aliases and no entries |
| Dicts.GetItem | araneid/util/dict.py:31-35 | a key reads its own entry, else the entry of the primary key it aliases; KeyError otherwise, which for a consistent MIDict happens exactly when the key is neither stored nor an alias |
| Dicts.StoreNew | araneid/util/dict.py:40-49 | a fresh key stores the value; a tuple key stores it under its first element and makes the others aliases of it; the empty tuple is a ValueError |
| Dicts.AliasAll | araneid/util/dict.py:48-49 | each listed key becomes an alias of the target and every other alias is kept |
| Dicts.SetItemAsWritten | araneid/util/dict.py:37-49 | `__setitem__` as written writes an alias key through to its primary key even when the key has an entry of its own, and stores any other key as fresh; the value always lands in the primary key, the tuple's first element or the key itself |
| Dicts.AssignmentLost | araneid/util/dict.py:31-49 | `m['a'] = 1; m[('c', 'a')] = 3; m['a'] = 5` leaves `m['a']` reading 1, the 5 going to 'c' |
| Dicts.SetItem | araneid/util/dict.py:31-49 | the corrected `__setitem__` resolves the key as `__getitem__` does: its own entry, else its primary key, else a fresh store; ValueError only for the empty tuple |
| Dicts.SetThenGet | araneid/util/dict.py:31-49 | with the corrected `__setitem__`, a key reads back the value just assigned, and every other stored key that it does not alias keeps its value |
| Dicts.TupleKeyAliases | araneid/util/dict.py:41-49 | after assigning under a fresh tuple, its first element and every other element without an entry of its own read the value |
| Dicts.Contains | araneid/util/dict.py:51-56 | `in` holds exactly when the key is stored or an alias |
| Dicts.GetOr | araneid/util/dict.py:78-86 | `get` gives the value when `__getitem__` finds one, else the `default` keyword argument, else the KeyError again |
| Dicts.AddKeys | araneid/util/dict.py:88-92 | `add_keys` raises KeyError exactly when the target is neither stored nor an alias, and never changes the stored entries |
| Dicts.AddedKeysReadTarget | araneid/util/dict.py:88-92 | after `add_keys`, each new key without an entry of its own reads the target's value |
| Dicts.FromEntries | araneid/util/dict.py:94-99 | building a MIDict from entries leaves every alias leading to an entry, raises only ValueError and only when some key is the empty tuple, and succeeds whenever no key is |
| Dicts.AssignAll | araneid/util/dict.py:97-98 | the assignment loop keeps every alias leading to an entry, never removes an entry, and fails with ValueError only on an empty-tuple key |
| Dicts.AssignAllSnoc | araneid/util/dict.py:97-98 | assigning one more entry is one more `__setitem__`, as written, on the MIDict built so far |
| Dicts.LastAssignmentLands | araneid/util/dict.py:37-49 | after the loop, the last entry's value is what the entry its key writes to reads, with the aliases as they stood before that assignment |
| Dicts.PlainKeysLastWins | araneid/util/dict.py:25-29 | with plain keys, as in `MIDict(**kwargs)`, every key reads the value of its last assignment, untouched entries keep theirs, and no alias appears |
| Dicts.FromEntriesWritesThroughAlias | araneid/util/dict.py:94-99 | `from_dict` over `(('a','x'),1), (('c','a'),2), ('a',3)` leaves `a` reading 1 and `c` reading 3, because the last assignment writes through the alias |

## Left out

- The signal manager (araneid/core/signal.py) is fire-and-forget task fan-out. It appears only as two flags, whether its three notification channels are idle and whether it is closed. These are what its `idle` and `wait_idle` read (signal.py:376-393). Closing it is a step in the engine's close order.
- The scraper, the concrete HTTP, WebSocket and socket downloaders, and all network I/O are left out. A download appears only as the result it hands back to the middleware chain.
- The reader loops and background tasks (`run` of the scheduler, the receivers' loops, `fork` of the download manager) are modelled one step at a time, as transitions. Their interleaving under the event loop is not modelled.
- Each `await` is a precondition saying the wait is over. The model does not describe a wait that never ends, such as a join on a stream whose items are never acknowledged.
- Logging, the loading of plugins, settings modules, schedulers and downloaders by name, and class reflection are left out. Loaded components are given as sets or maps.
- When an exception leaves an operation half done, the model returns the error and drops the partial state changes. Where the source's tests depend on what happens, the error path is modelled.
- `process_exception`, `process_spider_exception`, `process_start_requests`, `add_middleware` and `close` of the middleware managers are not modelled. Neither is stamping a request's context inside `process_spider_output`. A chain that raises ends in a value naming the exception handler and the index it would start from.
- `ChainStats`, stats keys that are not strings, and separators longer than one character are not modelled.
- Floating-point statistics, such as timings, are not modelled as numbers. A statistic that is neither a number, a string, None nor a dict, such as a spider state or a countdown latch, is an `Other` value. `inc_value`, `max_value` and `min_value` raise TypeError on it, as Python's `+`, `max` and `min` do when mixing such an object with an int. A stored float would behave the same way in the model, although Python would compute with it.
- Regular-expression matching in routes is a parameter. The model does not compute `re.match`.
- `ItemFieldSchemaCheckerMeta` is modelled only through its result, a map from field name to rule. The `order`, `support` and `register` of schema checkers belong to the checker plugin manager and are left out.
- `MIDict.__str__` and `MIDict.iter` only format text and are left out.
- Python object identity is left out. Rules are values, and a route rule's identity is a serial number. Aliasing of mutable rule groups, where one group object is shared by two combinations, is not modelled.
- A value of a class the model does not list carries only its truthiness, and compares equal only to itself.
- Slots.Join: the wait on the four lanes is the precondition that every lane is join-ready. The contract says only when the call fails, not how long it waits.
- Streams.Next: a read from an empty, open stream would wait. The precondition excludes that case, and the model does not describe the waiting reader.
- Streams.SetException: the wait for the queue to drain is the precondition that the stream is join-ready.

## Findings

| source | as written | input that shows it | evidently intended | confidence | as-written member | corrected member |
|---|---|---|---|---|---|---|
| araneid/core/slot.py:65-69 | both branches of `unbind` clear the engine; the scraper binding is never released | a bound slot, `unbind(scraper=True, engine=False)`: the scraper stays bound and the engine is dropped | `scraper=True` releases the scraper | not executed | Slots.UnbindAsWritten | Slots.Unbind |
| araneid/core/slot.py:314-318 | `join` awaits `join()` on the lists that hold the two request lanes and the two response lanes | any bound slot: a list has no `join`, so the call raises AttributeError | each lane of both lists is joined | not executed | Slots.JoinAsWritten | Slots.Join |
| araneid/core/downloadmanager.py:76-84 | the error message is built as `'Downloader ' + downloader + ...` | a request with the default downloader `[]` (or None) and no 'Http' downloader loaded: TypeError instead of DownloaderNotFound | DownloaderNotFound for every missing downloader | not executed | DownloadManagers.SelectDownloaderAsWritten | DownloadManagers.SelectDownloader |
| araneid/core/middlewaremanager.py:344 | `process_exception` is started at `index`, a position in the slice that begins at `start_from` | two middlewares, `start_from=1`, the second hook raising: exception handling starts at middleware 0, whose request hook never ran | start at `start_from + index` | not executed | Middlewares.ProcessRequestAsWritten | Middlewares.ProcessRequest |
| araneid/core/middlewaremanager.py:132 | `process_spider_exception(response, e, spider, index+1)` binds `index+1` to the `scraper` parameter, so `start_from` keeps its default 0 | any hook of the chain raising: the exception chain restarts at the first middleware and receives a number as the scraper | pass the scraper and start the exception chain after the raising middleware | not executed | Middlewares.ProcessSpiderOutputAsWritten | Middlewares.ProcessSpiderOutput |
| araneid/stats.py:24-33 | `__contains__` tests every segment of the dotted key against the top-level dict | stats `{'dict': {'key1': 20}}` and key 'dict.key1' report False; stats `{'a': 1, 'b': 2}` and key 'a.b' report True | descend one level per segment, as `get` does | not executed | Stats.ContainsAsWritten | Stats.Contains |
| araneid/data/check/rule.py:60-67 | a `RuleGroup` is itself a `Rule`, so the group branch is never taken and a group operand is stored under the key 'RuleGroup' | NotEmpty combined with the group of Int and Dict and then with the group of String and Text: the second group replaces the first, so a string value passes though Int rejects it | merge a group operand's rules into the group | not executed | Rules.OrDropsGroup | Rules.OrChecksBoth |
| araneid/data/item.py:38-40 | `copy` passes name, value, type and require positionally to `(type, default, require, name)` | any field: its name lands in `type` and its type in `require` | pass each attribute to its own parameter | not executed | Items.CopyMisbindsArguments | Items.Copy |
| araneid/util/dict.py:37-49 | `__setitem__` resolves an alias before the key's own entry, while `__getitem__` resolves the own entry first | `m['a'] = 1; m[('c', 'a')] = 3; m['a'] = 5`: `m['a']` still reads 1 and 'c' reads 5 | write where `__getitem__` reads | not executed | Dicts.AssignmentLost | Dicts.SetThenGet |

=== FILE: choice.dfy ===
/** Python's `random.randint(lo, hi)`, with the randomness passed in: the
    caller supplies an arbitrary draw and the choice is a function of it. */
module Choice {

  function RandInt(lo: int, hi: int, draw: nat): (r: int)
    requires lo <= hi
    ensures lo <= r <= hi
  {
    lo + draw % (hi - lo + 1)
  }

  /** Every value of the closed range is some draw's choice, so a property
      proved for every draw holds whatever the generator returns. */
  lemma RandIntCovers(lo: int, hi: int, v: int)
    requires lo <= v <= hi
    ensures RandInt(lo, hi, (v - lo) as nat) == v
  {
  }
}

=== FILE: dict.dfy ===
/** The dict helpers of araneid/util/dict.py: `Dict`, a read-only wrapper
    whose `get` falls back on the default for falsy values, and `MIDict`, a
    dict whose entries can be reached through alias keys. */
module Dicts {
  import opened Wrappers
  import opened PyValues

  /** `Dict.get`'s wrapping: a plain dict comes back as a `Dict`. */
  function Wrap(v: PyValue): PyValue {
    if v.DictV? then DictWrapper(v.entries) else v
  }

  /** `Dict.get`: the stored value (a dict wrapped) when it is truthy or a
      dict, since a wrapped dict is always truthy, otherwise the default
      (wrapped). */
  function DictGet(d: map<string, PyValue>, key: string, default: PyValue): (r: PyValue)
    ensures key in d && (Truthy(d[key]) || d[key].DictV?) ==> r == Wrap(d[key])
    ensures key in d && !Truthy(d[key]) && !d[key].DictV? ==> r == Wrap(default)
    ensures key !in d ==> r == Wrap(default)
    ensures Truthy(r) || r == default
  {
    var got := Wrap(if key in d then d[key] else default);
    if Truthy(got) then got else Wrap(default)
  }

  /** A stored empty dict is returned, wrapped, where a stored zero or empty
      string gives way to the default. */
  lemma FalsyValuesGiveWay(default: PyValue)
    ensures DictGet(map["k" := DictV(map[])], "k", default) == DictWrapper(map[])
    ensures DictGet(map["k" := IntV(0)], "k", default) == Wrap(default)
    ensures DictGet(map["k" := StrV("")], "k", default) == Wrap(default)
  {
  }

  /** A key of a `MIDict`: a plain hashable value, or a tuple of keys. */
  datatype Key = Atom(name: string) | Tuple(elems: seq<Key>)

  /** `_keys` maps each alias to its primary key; `_data` maps primary keys
      to values. */
  datatype MIDict<V> = MIDict(aliases: map<Key, Key>, data: map<Key, V>)

  /** Every alias leads to a stored entry. */
  predicate Valid<V>(m: MIDict<V>) {
    forall a :: a in m.aliases ==> m.aliases[a] in m.data
  }

  function Empty<V>(): (m: MIDict<V>)
    ensures Valid(m) && m.aliases == map[] && m.data == map[]
  {
    MIDict(map[], map[])
  }

  /** `__getitem__`: the entry stored under the key itself, else the entry
      of the primary key it aliases, else KeyError. */
  function GetItem<V>(m: MIDict<V>, key: Key): (r: Result<V>)
    ensures key in m.data ==> r == Ok(m.data[key])
    ensures key !in m.data && key in m.aliases && m.aliases[key] in m.data ==> r == Ok(m.data[m.aliases[key]])
    ensures r.Err? ==> r.error == KeyError
    ensures Valid(m) ==> (r.Err? <==> key !in m.data && key !in m.aliases)
  {
    if key in m.data then Ok(m.data[key])
    else if key in m.aliases && m.aliases[key] in m.data then Ok(m.data[m.aliases[key]])
    else Err(KeyError)
  }

  /** The fresh-key branch of `__setitem__`: a tuple stores the value under
      its first element and makes the rest aliases of it; the empty tuple
      is a ValueError; any other key stores the value under itself. */
  function StoreNew<V>(m: MIDict<V>, key: Key, v: V): (r: Result<MIDict<V>>)
    ensures r.Err? <==> key == Tuple([])
    ensures r.Err? ==> r.error == ValueError
    ensures r.Ok? && key.Atom? ==> r.value == m.(data := m.data[key := v])
    ensures r.Ok? && key.Tuple? ==> r.value.data == m.data[key.elems[0] := v]
    ensures r.Ok? && key.Tuple? ==> forall a :: a in r.value.aliases <==> a in m.aliases || a in key.elems[1..]
    ensures r.Ok? && key.Tuple? ==> forall a :: a in key.elems[1..] ==> r.value.aliases[a] == key.elems[0]
    ensures r.Ok? && key.Tuple? ==> forall a :: a in m.aliases && a !in key.elems[1..] ==> r.value.aliases[a] == m.aliases[a]
    ensures Valid(m) && r.Ok? ==> Valid(r.value)
  {
    if key.Tuple? then
      if |key.elems| == 0 then Err(ValueError)
      else
        var primary := key.elems[0];
        Ok(MIDict(AliasAll(m.aliases, key.elems[1..], primary), m.data[primary := v]))
    else Ok(m.(data := m.data[key := v]))
  }

  /** Each of the keys made an alias of the target, in order. */
  function AliasAll(aliases: map<Key, Key>, keys: seq<Key>, target: Key): (r: map<Key, Key>)
    ensures forall a :: a in r <==> a in aliases || a in keys
    ensures forall a :: a in keys ==> r[a] == target
    ensures forall a :: a in aliases && a !in keys ==> r[a] == aliases[a]
    decreases |keys|
  {
    if |keys| == 0 then aliases else AliasAll(aliases[keys[0] := target], keys[1..], target)
  }

  /** The entry `__setitem__` as written stores into: the primary key of
      an alias, else a tuple's first element, else the key itself. */
  function WriteTarget<V>(m: MIDict<V>, key: Key): Key {
    if key in m.aliases then m.aliases[key]
    else if key.Tuple? && |key.elems| > 0 then key.elems[0]
    else key
  }

  /** `__setitem__` as written: a key that is an alias writes through to
      its primary key, even when the key also has an entry of its own;
      otherwise the fresh-key branch. */
  function SetItemAsWritten<V>(m: MIDict<V>, key: Key, v: V): (r: Result<MIDict<V>>)
    ensures key in m.aliases ==> r == Ok(m.(data := m.data[m.aliases[key] := v]))
    ensures key !in m.aliases ==> r == StoreNew(m, key, v)
    ensures r.Err? <==> key == Tuple([]) && key !in m.aliases
    ensures r.Ok? ==> r.value.data == m.data[WriteTarget(m, key) := v]
    ensures Valid(m) && r.Ok? ==> Valid(r.value)
  {
    if key in m.aliases then Ok(m.(data := m.data[m.aliases[key] := v])) else StoreNew(m, key, v)
  }

  /** `m["a"] = 1; m[("c", "a")] = 3; m["a"] = 5`: the last assignment
      goes to "c", so `m["a"]` still reads 1. */
  lemma AssignmentLost()
    ensures var m1 := SetItemAsWritten(Empty<int>(), Atom("a"), 1).value;
            var m2 := SetItemAsWritten(m1, Tuple([Atom("c"), Atom("a")]), 3).value;
            var m3 := SetItemAsWritten(m2, Atom("a"), 5).value;
            GetItem(m3, Atom("a")) == Ok(1) && GetItem(m3, Atom("c")) == Ok(5)
  {
    var m1 := SetItemAsWritten(Empty<int>(), Atom("a"), 1).value;
    assert m1.data == map[Atom("a") := 1] && m1.aliases == map[];
    var m2 := SetItemAsWritten(m1, Tuple([Atom("c"), Atom("a")]), 3).value;
    assert [Atom("c"), Atom("a")][1..] == [Atom("a")];
    assert m2.aliases[Atom("a")] == Atom("c");
    assert Atom("a") in m2.data;
    var m3 := SetItemAsWritten(m2, Atom("a"), 5).value;
    assert m3.data == m2.data[Atom("c") := 5];
  }

  /** `__setitem__` resolving the key the way `__getitem__` does: a key
      with an entry of its own is written in place, an alias writes
      through to its primary key, and a fresh key takes the fresh-key
      branch. */
  function SetItem<V>(m: MIDict<V>, key: Key, v: V): (r: Result<MIDict<V>>)
    ensures key in m.data ==> r == Ok(m.(data := m.data[key := v]))
    ensures key !in m.data && key in m.aliases ==> r == Ok(m.(data := m.data[m.aliases[key] := v]))
    ensures key !in m.data && key !in m.aliases ==> r == StoreNew(m, key, v)
    ensures r.Err? <==> key == Tuple([]) && key !in m.data && key !in m.aliases
    ensures r.Err? ==> r.error == ValueError
    ensures Valid(m) && r.Ok? ==> Valid(r.value)
  {
    if key in m.data then Ok(m.(data := m.data[key := v])) else SetItemAsWritten(m, key, v)
  }

  /** With the corrected `__setitem__`, reading a key back gives the value
      just assigned to it, and every other key that has an entry of its
      own keeps it. */
  lemma SetThenGet<V>(m: MIDict<V>, key: Key, v: V, other: Key)
    requires Valid(m) && key.Atom?
    ensures SetItem(m, key, v).Ok?
    ensures GetItem(SetItem(m, key, v).value, key) == Ok(v)
    ensures other in m.data && other != key && (key in m.data || key !in m.aliases || m.aliases[key] != other) ==>
      GetItem(SetItem(m, key, v).value, other) == GetItem(m, other)
  {
  }

  /** A tuple key: its first element reads the value, and so does every
      other element that has no entry of its own. */
  lemma TupleKeyAliases<V>(m: MIDict<V>, elems: seq<Key>, v: V)
    requires Valid(m) && |elems| > 0 && Tuple(elems) !in m.data && Tuple(elems) !in m.aliases
    ensures SetItem(m, Tuple(elems), v).Ok?
    ensures GetItem(SetItem(m, Tuple(elems), v).value, elems[0]) == Ok(v)
    ensures forall a :: a in elems[1..] && a !in m.data && a != elems[0] ==>
      GetItem(SetItem(m, Tuple(elems), v).value, a) == Ok(v)
  {
  }

  /** `__contains__`: whether `__getitem__` finds the key. */
  function Contains<V>(m: MIDict<V>, key: Key): (b: bool)
    ensures Valid(m) ==> (b <==> key in m.data || key in m.aliases)
  {
    GetItem(m, key).Ok?
  }

  /** `get`: the value, else the `default` keyword argument when one is
      given, else the KeyError again. */
  function GetOr<V>(m: MIDict<V>, key: Key, default: Option<V>): (r: Result<V>)
    ensures GetItem(m, key).Ok? ==> r == GetItem(m, key)
    ensures GetItem(m, key).Err? && default.Some? ==> r == Ok(default.value)
    ensures GetItem(m, key).Err? && default.None? ==> r == Err(KeyError)
  {
    match GetItem(m, key)
    case Ok(v) => Ok(v)
    case Err(e) => if default.Some? then Ok(default.value) else Err(e)
  }

  /** `add_keys`: the new keys become aliases of the target's primary key;
      a target that is neither stored nor an alias is a KeyError. */
  function AddKeys<V>(m: MIDict<V>, toKey: Key, newKeys: seq<Key>): (r: Result<MIDict<V>>)
    ensures r.Err? <==> toKey !in m.data && toKey !in m.aliases
    ensures r.Err? ==> r.error == KeyError
    ensures r.Ok? ==> r.value.data == m.data
    ensures Valid(m) && r.Ok? ==> Valid(r.value)
  {
    if toKey in m.data then Ok(m.(aliases := AliasAll(m.aliases, newKeys, toKey)))
    else if toKey in m.aliases then Ok(m.(aliases := AliasAll(m.aliases, newKeys, m.aliases[toKey])))
    else Err(KeyError)
  }

  /** After `add_keys`, each new key without an entry of its own reads the
      target's value. */
  lemma AddedKeysReadTarget<V>(m: MIDict<V>, toKey: Key, newKeys: seq<Key>, k: Key)
    requires Valid(m) && AddKeys(m, toKey, newKeys).Ok?
    requires k in newKeys && k !in m.data
    ensures GetItem(AddKeys(m, toKey, newKeys).value, k) == GetItem(m, toKey)
  {
  }

  /** `__init__(**kwargs)` and `from_dict`: every entry assigned in order
      with `__setitem__` as written. */
  function FromEntries<V>(entries: seq<(Key, V)>): (r: Result<MIDict<V>>)
    ensures r.Ok? ==> Valid(r.value)
    ensures r.Err? ==> r.error == ValueError && exists i :: 0 <= i < |entries| && entries[i].0 == Tuple([])
    ensures (forall i :: 0 <= i < |entries| ==> entries[i].0 != Tuple([])) ==> r.Ok?
  {
    AssignAll(Empty(), entries)
  }

  /** The loop of `from_dict`: each entry assigned in turn, stopping at the
      first ValueError; no entry is ever removed. */
  function AssignAll<V>(m: MIDict<V>, entries: seq<(Key, V)>): (r: Result<MIDict<V>>)
    requires Valid(m)
    ensures r.Ok? ==> Valid(r.value) && m.data.Keys <= r.value.data.Keys
    ensures r.Err? ==> r.error == ValueError && exists i :: 0 <= i < |entries| && entries[i].0 == Tuple([])
    ensures (forall i :: 0 <= i < |entries| ==> entries[i].0 != Tuple([])) ==> r.Ok?
    decreases |entries|
  {
    if |entries| == 0 then Ok(m)
    else
      match SetItemAsWritten(m, entries[0].0, entries[0].1)
      case Err(e) => Err(e)
      case Ok(m') => AssignAll(m', entries[1..])
  }

  /** Assigning one more entry is one more `__setitem__` on the result. */
  lemma {:induction false} AssignAllSnoc<V>(m: MIDict<V>, entries: seq<(Key, V)>, x: (Key, V))
    requires Valid(m)
    ensures AssignAll(m, entries + [x]) ==
      match AssignAll(m, entries)
      case Err(e) => Err(e)
      case Ok(m') => SetItemAsWritten(m', x.0, x.1)
    decreases |entries|
  {
    if |entries| == 0 {
      assert entries + [x] == [x];
      assert [x][1..] == [];
    } else {
      assert (entries + [x])[0] == entries[0];
      assert (entries + [x])[1..] == entries[1..] + [x];
      match SetItemAsWritten(m, entries[0].0, entries[0].1)
      case Err(e) =>
      case Ok(m') => AssignAllSnoc(m', entries[1..], x);
    }
  }

  /** The last entry's value lands in the entry its key writes to, as the
      aliases stood just before that assignment. */
  lemma {:induction false} LastAssignmentLands<V>(m: MIDict<V>, entries: seq<(Key, V)>)
    requires Valid(m) && |entries| > 0 && AssignAll(m, entries).Ok?
    ensures var before := AssignAll(m, entries[..|entries| - 1]);
            var last := entries[|entries| - 1];
            before.Ok? && GetItem(AssignAll(m, entries).value, WriteTarget(before.value, last.0)) == Ok(last.1)
  {
    var n := |entries| - 1;
    assert entries == entries[..n] + [entries[n]];
    AssignAllSnoc(m, entries[..n], entries[n]);
  }

  /** With plain keys and no aliases, as in `MIDict(**kwargs)`, every key
      reads the value of its last assignment, and no alias appears. */
  lemma {:induction false} PlainKeysLastWins<V>(m: MIDict<V>, entries: seq<(Key, V)>)
    requires m.aliases == map[] && forall i :: 0 <= i < |entries| ==> entries[i].0.Atom?
    ensures AssignAll(m, entries).Ok? && AssignAll(m, entries).value.aliases == map[]
    ensures forall i :: 0 <= i < |entries| && (forall j :: i < j < |entries| ==> entries[j].0 != entries[i].0) ==>
      GetItem(AssignAll(m, entries).value, entries[i].0) == Ok(entries[i].1)
    ensures forall k :: k in m.data && (forall i :: 0 <= i < |entries| ==> entries[i].0 != k) ==>
      GetItem(AssignAll(m, entries).value, k) == Ok(m.data[k])
    decreases |entries|
  {
    if |entries| > 0 {
      var m' := m.(data := m.data[entries[0].0 := entries[0].1]);
      assert SetItemAsWritten(m, entries[0].0, entries[0].1) == Ok(m');
      PlainKeysLastWins(m', entries[1..]);
      var r := AssignAll(m, entries).value;
      forall i | 0 <= i < |entries| && (forall j :: i < j < |entries| ==> entries[j].0 != entries[i].0)
        ensures GetItem(r, entries[i].0) == Ok(entries[i].1)
      {
        if i > 0 {
          assert entries[i] == entries[1..][i - 1];
          forall j | i - 1 < j < |entries| - 1 ensures entries[1..][j].0 != entries[1..][i - 1].0 {
            assert entries[1..][j] == entries[j + 1];
          }
        } else {
          forall j | 0 <= j < |entries| - 1 ensures entries[1..][j].0 != entries[0].0 {
            assert entries[1..][j] == entries[j + 1];
          }
        }
      }
      forall k | k in m.data && (forall i :: 0 <= i < |entries| ==> entries[i].0 != k)
        ensures GetItem(r, k) == Ok(m.data[k])
      {
        forall i | 0 <= i < |entries| - 1 ensures entries[1..][i].0 != k {
          assert entries[1..][i] == entries[i + 1];
        }
      }
    }
  }

  /** `from_dict` over an alias entry, then a tuple that makes `a` an alias,
      then `a` again: the last assignment goes to `c`, so `a` keeps 1 and
      `c` reads 3. */
  lemma FromEntriesWritesThroughAlias()
    ensures var r := FromEntries([(Tuple([Atom("a"), Atom("x")]), 1), (Tuple([Atom("c"), Atom("a")]), 2), (Atom("a"), 3)]);
            r.Ok? && GetItem(r.value, Atom("a")) == Ok(1) && GetItem(r.value, Atom("c")) == Ok(3)
  {
    var es: seq<(Key, int)> := [(Tuple([Atom("a"), Atom("x")]), 1), (Tuple([Atom("c"), Atom("a")]), 2), (Atom("a"), 3)];
    var m1 := SetItemAsWritten(Empty<int>(), es[0].0, 1).value;
    assert [Atom("a"), Atom("x")][1..] == [Atom("x")];
    assert m1.data == map[Atom("a") := 1] && m1.aliases == map[Atom("x") := Atom("a")];
    var m2 := SetItemAsWritten(m1, es[1].0, 2).value;
    assert [Atom("c"), Atom("a")][1..] == [Atom("a")];
    assert m2.aliases[Atom("a")] == Atom("c");
    assert m2.data == map[Atom("a") := 1, Atom("c") := 2];
    var m3 := SetItemAsWritten(m2, es[2].0, 3).value;
    assert m3.data == map[Atom("a") := 1, Atom("c") := 3];
    var tail: seq<(Key, int)> := [es[2]];
    assert es[1..][1..] == tail && tail[1..] == [];
    assert AssignAll(m2, [es[2]]) == Ok(m3);
    assert AssignAll(m1, es[1..]) == Ok(m3);
  }
}

=== FILE: downloadmanager.dfy ===
/** The `DownloadManager` (araneid/core/downloadmanager.py): a permit pool
    bounding the number of download pipelines in flight, the choice of a
    loaded downloader by name, the routing of what the downloader middleware
    returns, and the output channel whose idleness is the manager's. */
module DownloadManagers {
  import opened Wrappers
  import Streams
  import Units

  // ------------------------------------------------------------------ permits

  /** The optional `BoundedSemaphore` of MAX_DOWNLOADER_PROCESSES permits. */
  datatype Permits = NoPool | Pool(bound: nat, available: nat)

  predicate PermitsValid(p: Permits) {
    p.Pool? ==> 0 < p.bound && p.available <= p.bound
  }

  /** A pool exists exactly when the setting is positive; the setting
      defaults to -1. */
  function NewPermits(maxProcesses: int): (p: Permits)
    ensures p.Pool? <==> maxProcesses > 0
    ensures p.Pool? ==> p.bound == maxProcesses && p.available == maxProcesses
    ensures PermitsValid(p)
  {
    if maxProcesses > 0 then Pool(maxProcesses, maxProcesses) else NoPool
  }

  /** `acquire_pipeline_semaphor` can only complete while a permit is free;
      without a pool it does nothing. */
  predicate CanAcquire(p: Permits) {
    p.NoPool? || p.available > 0
  }

  function Acquire(p: Permits): (r: Permits)
    requires CanAcquire(p)
    ensures p.NoPool? ==> r == p
    ensures p.Pool? ==> r == p.(available := p.available - 1)
  {
    if p.NoPool? then p else p.(available := p.available - 1)
  }

  /** `release_pipeline_semaphor`: a bounded semaphore raises ValueError when
      released above its bound. */
  function Release(p: Permits): (r: Result<Permits>)
    ensures p.NoPool? ==> r == Ok(p)
    ensures p.Pool? ==> (r.Err? <==> p.available >= p.bound)
    ensures r.Err? ==> r.error == ValueError
    ensures p.Pool? && r.Ok? ==> r.value == p.(available := p.available + 1)
  {
    match p
    case NoPool => Ok(p)
    case Pool(b, a) => if a >= b then Err(ValueError) else Ok(Pool(b, a + 1))
  }

  /** Releasing the permit a pipeline acquired restores the pool, and a valid
      pool stays valid in between. */
  lemma AcquireReleaseRoundTrip(p: Permits)
    requires PermitsValid(p) && CanAcquire(p)
    ensures PermitsValid(Acquire(p))
    ensures Release(Acquire(p)) == Ok(p)
  {
  }

  /** Permits in use never exceed the bound: a release with no permit in use
      is the only failure, and it leaves a valid pool unchanged otherwise. */
  lemma ReleaseKeepsValid(p: Permits)
    requires PermitsValid(p)
    ensures Release(p).Ok? ==> PermitsValid(Release(p).value)
    ensures Release(p).Err? <==> p.Pool? && p.available == p.bound
  {
  }

  // ------------------------------------------------------ selecting downloaders

  /** Python truthiness of the downloader argument. */
  predicate Truthy(arg: Units.DownloaderArg) {
    (arg.ArgName? && |arg.name| > 0) || (arg.ArgList? && |arg.names| > 0)
  }

  /** A non-empty list reaches `dict.get` as a key, and a list is not
      hashable. */
  predicate Unhashable(arg: Units.DownloaderArg) {
    arg.ArgList? && |arg.names| > 0
  }

  /** The downloader looked up: the name given, or 'Http' for a falsy
      argument. */
  function Wanted(arg: Units.DownloaderArg): string
    requires !Unhashable(arg)
  {
    if Truthy(arg) then arg.name else "Http"
  }

  /** `__select_downloader` as written: a falsy argument selects 'Http'; a
      non-empty list raises TypeError in the lookup; a missing downloader
      raises DownloaderNotFound, except that the message is built by
      `'Downloader ' + downloader + ...`, which raises TypeError first when
      the argument is None or a list. */
  function SelectDownloaderAsWritten(loaded: set<string>, arg: Units.DownloaderArg): (r: Result<string>)
    ensures Unhashable(arg) ==> r == Err(TypeError)
    ensures r.Ok? ==> r.value in loaded && r.value == Wanted(arg)
    ensures arg.ArgName? ==> (r.Ok? <==> Wanted(arg) in loaded) && (r.Err? ==> r.error == DownloaderNotFound)
    ensures !arg.ArgName? && "Http" !in loaded ==> r == Err(TypeError)
  {
    if Unhashable(arg) then Err(TypeError)
    else
      var name := Wanted(arg);
      if name in loaded then Ok(name)
      else if arg.ArgName? then Err(DownloaderNotFound)
      else Err(TypeError)
  }

  /** `__select_downloader` as intended: every miss raises
      DownloaderNotFound; the lookup of a non-empty list still raises
      TypeError. */
  function SelectDownloader(loaded: set<string>, arg: Units.DownloaderArg): (r: Result<string>)
    ensures Unhashable(arg) ==> r == Err(TypeError)
    ensures !Unhashable(arg) ==> (r.Ok? <==> Wanted(arg) in loaded)
    ensures !Unhashable(arg) && r.Ok? ==> r.value == Wanted(arg)
    ensures !Unhashable(arg) && r.Err? ==> r.error == DownloaderNotFound
  {
    if Unhashable(arg) then Err(TypeError)
    else
      var name := Wanted(arg);
      if name in loaded then Ok(name) else Err(DownloaderNotFound)
  }

  /** The two agree except on a request created with the default `[]` (or
      None) when no 'Http' downloader is loaded. */
  lemma SelectDownloaderDiscrepancy(loaded: set<string>, arg: Units.DownloaderArg)
    ensures SelectDownloaderAsWritten(loaded, arg) != SelectDownloader(loaded, arg)
        <==> !arg.ArgName? && !Unhashable(arg) && "Http" !in loaded
    ensures SelectDownloaderAsWritten({}, Units.ArgList([])) == Err(TypeError)
    ensures SelectDownloader({}, Units.ArgList([])) == Err(DownloaderNotFound)
  {
  }

  // ----------------------------------------------------------------- manager

  /** A download pipeline waiting on the download channel. */
  datatype Pipeline = Pipeline(request: nat, downloader: Units.DownloaderArg)

  datatype Manager = Manager(
    permits: Permits,
    loaded: set<string>,
    channel: Streams.Stream<nat>,
    downloads: Streams.Stream<Pipeline>,
    completed: seq<nat>,        // requests handed back to their scraper for completion
    idleEvent: bool,
    closed: bool)

  /** `create`, with the names of the loaded downloaders given. */
  function Create(maxProcesses: int, loaded: set<string>): (m: Manager)
    ensures m.permits == NewPermits(maxProcesses) && m.loaded == loaded
    ensures Idle(m) && !m.closed && m.completed == []
  {
    Manager(NewPermits(maxProcesses), loaded, Streams.New(false), Streams.New(false), [], false, false)
  }

  /** `idle`: the output channel is idle. */
  predicate Idle(m: Manager) {
    Streams.Idle(m.channel)
  }

  /** `process_download`: take a permit and queue a pipeline for the
      request. */
  function ProcessDownload(m: Manager, request: nat, downloader: Units.DownloaderArg): (r: Manager)
    requires CanAcquire(m.permits)
    ensures r.permits == Acquire(m.permits)
    ensures r.downloads == Streams.Write(m.downloads, Pipeline(request, downloader))
    ensures r == m.(permits := r.permits, downloads := r.downloads)
  {
    m.(permits := Acquire(m.permits),
       downloads := Streams.Write(m.downloads, Pipeline(request, downloader)))
  }

  /** The done-callback of a pipeline: give its permit back. */
  function PipelineDone(m: Manager): (r: Result<Manager>)
    ensures r.Ok? <==> Release(m.permits).Ok?
    ensures r.Ok? ==> r.value == m.(permits := Release(m.permits).value)
  {
    var p :- Release(m.permits);
    Ok(m.(permits := p))
  }

  /** A pipeline forked and finished leaves the permits as they were. */
  lemma ForkedPipelineReleases(m: Manager, request: nat, downloader: Units.DownloaderArg)
    requires PermitsValid(m.permits) && CanAcquire(m.permits)
    ensures PipelineDone(ProcessDownload(m, request, downloader)).Ok?
    ensures PipelineDone(ProcessDownload(m, request, downloader)).value.permits == m.permits
  {
    AcquireReleaseRoundTrip(m.permits);
  }

  /** `complete_request`: hand the request back to its scraper, and set the
      idle event when the manager is idle. */
  function CompleteRequest(m: Manager, request: nat): (r: Manager)
    ensures r.completed == m.completed + [request]
    ensures r.idleEvent == (m.idleEvent || Idle(m))
    ensures r == m.(completed := r.completed, idleEvent := r.idleEvent)
  {
    m.(completed := m.completed + [request], idleEvent := m.idleEvent || Idle(m))
  }

  /** What the downloader middleware's `process_request` produced: a unit of
      the store, nothing at all, or an exception. */
  datatype MiddlewareOut = Produced(id: nat) | Nothing | Failed(exc: string)

  /** What `download` does with it. */
  datatype Route = Emit(id: nat) | Fetch(id: nat, downloader: string) | Completed

  /** `download`: a response goes to the channel, a request is downloaded by
      the downloader it names, anything else completes the original request;
      so does any exception, including a missing downloader. */
  function Download(m: Manager, units: map<nat, Units.Unit>, request: nat, out: MiddlewareOut)
    : (r: (Manager, Route))
    requires out.Produced? ==> out.id in units
    ensures out.Produced? && units[out.id].kind == Units.ResponseKind ==>
      r.1 == Emit(out.id) && r.0 == m.(channel := Streams.Write(m.channel, out.id))
    ensures out.Produced? && units[out.id].kind == Units.RequestKind &&
            SelectDownloader(m.loaded, units[out.id].downloader).Ok? ==>
      r.1 == Fetch(out.id, SelectDownloader(m.loaded, units[out.id].downloader).value) && r.0 == m
    ensures r.1 == Completed <==> r.0 == CompleteRequest(m, request)
    ensures r.1 == Completed <==>
      (!out.Produced? ||
       (units[out.id].kind == Units.RequestKind && SelectDownloader(m.loaded, units[out.id].downloader).Err?))
  {
    match out
    case Produced(id) =>
      if units[id].kind == Units.ResponseKind then
        (m.(channel := Streams.Write(m.channel, id)), Emit(id))
      else
        var selected := SelectDownloader(m.loaded, units[id].downloader);
        if selected.Ok? then (m, Fetch(id, selected.value))
        else
          assert units[out.id].kind == Units.RequestKind;
          (CompleteRequest(m, request), Completed)
    case _ => (CompleteRequest(m, request), Completed)
  }

  /** A request naming its downloaders in a non-empty list is never
      downloaded: the lookup raises, and `download` completes the original
      request instead. */
  lemma ListDownloaderCompletes(m: Manager, units: map<nat, Units.Unit>, request: nat, id: nat)
    requires id in units && units[id].kind == Units.RequestKind && Unhashable(units[id].downloader)
    ensures Download(m, units, request, Produced(id)) == (CompleteRequest(m, request), Completed)
  {
  }

  /** Every call of `download` settles the request exactly once: it emits one
      unit, starts one download, or completes the request, and nothing else
      of the manager changes. */
  lemma DownloadSettlesOnce(m: Manager, units: map<nat, Units.Unit>, request: nat, out: MiddlewareOut)
    requires out.Produced? ==> out.id in units
    ensures var (r, route) := Download(m, units, request, out);
            && r.permits == m.permits && r.downloads == m.downloads && r.closed == m.closed
            && (route.Completed? ==> r.completed == m.completed + [request] && r.channel == m.channel)
            && (route.Emit? ==> r.completed == m.completed && |r.channel.buffer| <= |m.channel.buffer| + 1)
            && (route.Fetch? ==> r == m)
  {
  }

  /** `close`: a second close returns at once. The first sets the idle event,
      and, once each of them has been joined, closes the output channel and
      then the download channel. */
  function Close(m: Manager): (r: Result<Manager>)
    requires Streams.JoinReady(m.channel) && Streams.JoinReady(m.downloads)
    ensures m.closed ==> r == Ok(m)
    ensures r.Ok? ==> r.value.closed && r.value.permits == m.permits && r.value.completed == m.completed
    ensures r.Ok? && !m.closed ==> r.value.idleEvent && r.value.channel.closed && r.value.downloads.closed
  {
    if m.closed then Ok(m)
    else
      var channel :- Streams.Close(m.channel);
      var downloads :- Streams.Close(m.downloads);
      Ok(m.(channel := channel, downloads := downloads, idleEvent := true, closed := true))
  }

  /** Closing twice is closing once, and a closed manager is idle. */
  lemma CloseIdempotent(m: Manager)
    requires Streams.JoinReady(m.channel) && Streams.JoinReady(m.downloads) && Close(m).Ok?
    ensures Close(Close(m).value) == Close(m)
    ensures Idle(Close(m).value) || m.closed
  {
  }

  /** Joined channels have nothing unfinished, so a manager with plain
      channels always closes. */
  lemma JoinedManagerCloses(m: Manager)
    requires !m.channel.confirmAck && Streams.Balanced(m.channel) && Streams.JoinReady(m.channel)
    requires !m.downloads.confirmAck && Streams.Balanced(m.downloads) && Streams.JoinReady(m.downloads)
    ensures Close(m).Ok?
  {
    Streams.BalancedCloseSucceeds(m.channel);
    Streams.BalancedCloseSucceeds(m.downloads);
  }
}

=== FILE: engine.dfy ===
/** The `Engine` (araneid/core/engine.py): it owns the slot, schedule and
    download managers and the signal manager, answers idle queries over a
    chosen set of them, routes units between them through the managers'
    channel receivers, and closes them in a fixed order. The signal manager
    is outside the model: only whether its three notification channels are
    idle and whether it is closed are kept. */
module Engines {
  import opened Wrappers
  import Flags
  import Streams
  import Units
  import Slots
  import SlotManagers
  import Schedulers
  import ScheduleManagers
  import DownloadManagers

  datatype Engine = Engine(
    id: nat,
    slots: SlotManagers.Manager,
    schedules: ScheduleManagers.Manager,
    downloads: DownloadManagers.Manager,
    signalChannelsIdle: bool,
    signalClosed: bool,
    stopped: bool)

  ghost predicate Valid(e: Engine) {
    SlotManagers.Valid(e.slots) && |e.schedules.schedulers| > 0
  }

  /** `create`: the schedule manager (which raises when no scheduler loads),
      the download manager and the slot manager, in that order. */
  function Create(id: nat, schedulers: seq<Schedulers.Scheduler>, maxProcesses: int, downloaders: set<string>)
    : (r: Result<Engine>)
    ensures r.Err? <==> |schedulers| == 0
    ensures r.Ok? ==> Valid(r.value) && !r.value.stopped && r.value.id == id
    ensures r.Ok? ==> r.value.schedules.schedulers == schedulers && r.value.slots.slots == map[]
  {
    var schedules :- ScheduleManagers.Create(schedulers);
    Ok(Engine(id, SlotManagers.Create(), schedules, DownloadManagers.Create(maxProcesses, downloaders),
              true, false, false))
  }

  /** The signal manager's `idle`: its three channels are idle, or it is
      closed. Its `wait_idle` returns on a closed manager, and otherwise
      joins the three channels, which return exactly when they are idle. */
  predicate SignalIdle(e: Engine) {
    e.signalChannelsIdle || e.signalClosed
  }

  // ---------------------------------------------------------------- idleness

  /** The members of the `Idle` flag enum in declaration order, the order in
      which `idle` and `wait_idle` visit them. */
  function FlagOrder(): seq<Flags.IdleFlag> {
    [Flags.SlotFlag, Flags.DownloaderManagerFlag, Flags.SlotManagerFlag, Flags.SignalManagerFlag,
     Flags.ScheduleManagerFlag]
  }

  /** The idle check each flag other than SLOT stands for. */
  function ComponentIdle(e: Engine, f: Flags.IdleFlag): (r: Result<bool>)
    requires Valid(e) && f != Flags.SlotFlag
    ensures r.Err? ==> f == Flags.SlotManagerFlag
  {
    match f
    case DownloaderManagerFlag => Ok(DownloadManagers.Idle(e.downloads))
    case SlotManagerFlag => SlotManagers.Idle(e.slots)
    case SignalManagerFlag => Ok(SignalIdle(e))
    case ScheduleManagerFlag => Ok(ScheduleManagers.Idle(e.schedules))
  }

  /** The loop of `idle`: `is_idle &= check()` for every selected flag. */
  function IdleOver(e: Engine, flags: set<Flags.IdleFlag>, fs: seq<Flags.IdleFlag>): Result<bool>
    requires Valid(e) && Flags.SlotFlag !in flags
    decreases |fs|
  {
    if |fs| == 0 then Ok(true)
    else if fs[0] !in flags then IdleOver(e, flags, fs[1..])
    else
      var here :- ComponentIdle(e, fs[0]);
      var rest :- IdleOver(e, flags, fs[1..]);
      Ok(here && rest)
  }

  /** `idle(flag)`: the SLOT flag is refused by assertion; otherwise the
      conjunction of the selected components' idle checks. */
  function Idle(e: Engine, flags: set<Flags.IdleFlag>): Result<bool>
    requires Valid(e)
  {
    if Flags.SlotFlag in flags then Err(AssertionFailed)
    else IdleOver(e, flags, FlagOrder())
  }

  lemma FlagOrderComplete(f: Flags.IdleFlag)
    ensures f in FlagOrder()
  {
    match f
    case SlotFlag => assert FlagOrder()[0] == f;
    case DownloaderManagerFlag => assert FlagOrder()[1] == f;
    case SlotManagerFlag => assert FlagOrder()[2] == f;
    case SignalManagerFlag => assert FlagOrder()[3] == f;
    case ScheduleManagerFlag => assert FlagOrder()[4] == f;
  }

  lemma {:induction false} IdleOverMeaning(e: Engine, flags: set<Flags.IdleFlag>, fs: seq<Flags.IdleFlag>)
    requires Valid(e) && Flags.SlotFlag !in flags
    ensures IdleOver(e, flags, fs).Err? <==> exists f :: f in fs && f in flags && ComponentIdle(e, f).Err?
    ensures IdleOver(e, flags, fs).Ok? ==>
      (IdleOver(e, flags, fs).value <==> forall f :: f in fs && f in flags ==> ComponentIdle(e, f) == Ok(true))
    decreases |fs|
  {
    if |fs| > 0 {
      IdleOverMeaning(e, flags, fs[1..]);
      assert forall f :: f in fs <==> f == fs[0] || f in fs[1..];
    }
  }

  /** `idle` raises AssertionError exactly for a flag set holding SLOT, and
      SlotUnbound when the slot manager is selected and holds an unbound
      slot; otherwise it holds exactly when every selected component is
      idle. */
  lemma IdleMeaning(e: Engine, flags: set<Flags.IdleFlag>)
    requires Valid(e)
    ensures Flags.SlotFlag in flags ==> Idle(e, flags) == Err(AssertionFailed)
    ensures Flags.SlotFlag !in flags ==>
      (Idle(e, flags).Err? <==> Flags.SlotManagerFlag in flags && SlotManagers.Idle(e.slots).Err?)
    ensures Flags.SlotFlag !in flags && Idle(e, flags).Ok? ==>
      (Idle(e, flags).value <==> forall f :: f in flags ==> ComponentIdle(e, f) == Ok(true))
  {
    if Flags.SlotFlag !in flags {
      IdleOverMeaning(e, flags, FlagOrder());
      forall f | f in flags ensures f in FlagOrder() { FlagOrderComplete(f); }
      if Flags.SlotManagerFlag in flags && SlotManagers.Idle(e.slots).Err? {
        assert ComponentIdle(e, Flags.SlotManagerFlag).Err?;
      }
    }
  }

  /** A bound slot's `idle` hands its non-SLOT flags to this engine, so a
      slot manager holding an unbound slot makes the slot's own idle check
      raise, even for a slot whose lanes are busy. */
  lemma SlotIdleRaisesThroughEngine(e: Engine, s: Slots.Slot, flags: set<Flags.IdleFlag>)
    requires Valid(e) && Slots.IsBound(s) && Flags.SlotManagerFlag in flags
    requires SlotManagers.Idle(e.slots).Err?
    ensures Slots.Idle(s, flags, f => if Valid(e) then Idle(e, f) else Ok(true)) == Idle(e, flags - {Flags.SlotFlag})
    ensures Slots.Idle(s, flags, f => if Valid(e) then Idle(e, f) else Ok(true)).Err?
  {
    IdleMeaning(e, flags - {Flags.SlotFlag});
  }

  /** With the default flags the engine is idle exactly when the download,
      slot, signal and schedule managers all are. */
  lemma DefaultIdle(e: Engine)
    requires Valid(e) && SlotManagers.Idle(e.slots).Ok?
    ensures Idle(e, Flags.EngineDefault()).Ok?
    ensures Idle(e, Flags.EngineDefault()).value <==>
      && DownloadManagers.Idle(e.downloads) && SlotManagers.Idle(e.slots).value
      && SignalIdle(e) && ScheduleManagers.Idle(e.schedules)
  {
    var fs := Flags.EngineDefault();
    IdleMeaning(e, fs);
    assert Flags.DownloaderManagerFlag in fs && Flags.SlotManagerFlag in fs;
    assert Flags.SignalManagerFlag in fs && Flags.ScheduleManagerFlag in fs;
  }

  /** The idle events `wait_idle` waits on: every selected manager that
      keeps one must have it set. The signal manager keeps none. */
  predicate EventsSet(e: Engine, flags: set<Flags.IdleFlag>) {
    && (Flags.DownloaderManagerFlag in flags ==> e.downloads.idleEvent)
    && (Flags.SlotManagerFlag in flags ==> e.slots.idleEvent)
    && (Flags.ScheduleManagerFlag in flags ==> e.schedules.idleEvent)
  }

  /** Every selected wait can return: the managers' events are set, and the
      signal manager, when selected, is idle. */
  predicate WaitReady(e: Engine, flags: set<Flags.IdleFlag>) {
    EventsSet(e, flags) && (Flags.SignalManagerFlag in flags ==> SignalIdle(e))
  }

  /** The managers whose `wait_idle` clears an event after waiting for it. */
  function EventFlags(): set<Flags.IdleFlag> {
    {Flags.DownloaderManagerFlag, Flags.SlotManagerFlag, Flags.ScheduleManagerFlag}
  }

  /** `wait_idle(flag)`: the SLOT flag is refused by assertion; otherwise it
      returns once every selected wait returns. The download, slot and
      schedule managers each wait for their idle event and clear it; the
      signal manager joins its channels and consumes nothing. */
  function WaitIdle(e: Engine, flags: set<Flags.IdleFlag>): (r: Result<Engine>)
    requires Flags.SlotFlag !in flags ==> WaitReady(e, flags)
    ensures r.Err? <==> Flags.SlotFlag in flags
    ensures r.Err? ==> r.error == AssertionFailed
    ensures r.Ok? ==>
      && (Flags.DownloaderManagerFlag in flags ==> !r.value.downloads.idleEvent)
      && (Flags.SlotManagerFlag in flags ==> !r.value.slots.idleEvent)
      && (Flags.ScheduleManagerFlag in flags ==> !r.value.schedules.idleEvent)
    ensures r.Ok? ==>
      && (Flags.DownloaderManagerFlag !in flags ==> r.value.downloads == e.downloads)
      && (Flags.SlotManagerFlag !in flags ==> r.value.slots == e.slots)
      && (Flags.ScheduleManagerFlag !in flags ==> r.value.schedules == e.schedules)
    ensures r.Ok? ==> r.value.signalChannelsIdle == e.signalChannelsIdle && r.value.signalClosed == e.signalClosed
    ensures r.Ok? ==> r.value.slots.slots == e.slots.slots && r.value.stopped == e.stopped
    ensures (r.Ok? && Flags.DownloaderManagerFlag !in flags && Flags.SlotManagerFlag !in flags &&
             Flags.ScheduleManagerFlag !in flags) ==> r.value == e
  {
    if Flags.SlotFlag in flags then Err(AssertionFailed)
    else
      var downloads := if Flags.DownloaderManagerFlag in flags then e.downloads.(idleEvent := false) else e.downloads;
      var slots := if Flags.SlotManagerFlag in flags then e.slots.(idleEvent := false) else e.slots;
      var schedules := if Flags.ScheduleManagerFlag in flags then e.schedules.(idleEvent := false) else e.schedules;
      Ok(e.(downloads := downloads, slots := slots, schedules := schedules))
  }

  /** Waiting consumes the managers' events: right after a wait on a flag
      set that selects one of the download, slot or schedule managers, a
      second wait on the same set blocks until that manager sets its event
      again. */
  lemma WaitIdleConsumesEvents(e: Engine, flags: set<Flags.IdleFlag>)
    requires Flags.SlotFlag !in flags && flags * EventFlags() != {} && WaitReady(e, flags)
    ensures WaitIdle(e, flags).Ok? && !WaitReady(WaitIdle(e, flags).value, flags)
  {
    var f :| f in flags * EventFlags();
  }

  /** Waiting on the signal manager consumes nothing: a second wait returns
      at once, on the same state. */
  lemma SignalWaitRepeats(e: Engine, flags: set<Flags.IdleFlag>)
    requires flags <= {Flags.SignalManagerFlag} && WaitReady(e, flags)
    ensures WaitIdle(e, flags) == Ok(e)
    ensures WaitReady(WaitIdle(e, flags).value, flags)
  {
  }

  // -------------------------------------------------------------- receivers

  datatype Routed = Routed(engine: Engine, units: map<nat, Units.Unit>)

  predicate Scheduled(units: map<nat, Units.Unit>, id: nat)
    requires Units.Store(units) && id in units
  {
    Units.InPhase(units[id], Units.Schedule)
  }

  /** The receivers of the slot-manager and download-manager channels: a
      unit that has already been scheduled is dropped; otherwise a response
      or a request is added to the schedule manager. */
  function Reschedule(e: Engine, units: map<nat, Units.Unit>, id: nat, draw: nat): (r: Engine)
    requires Valid(e) && Units.Store(units) && id in units
    ensures Valid(r) && r == e.(schedules := r.schedules)
    ensures Scheduled(units, id) ==> r == e
    ensures !Scheduled(units, id) && units[id].kind == Units.RequestKind ==>
      r.schedules == ScheduleManagers.AddRequest(e.schedules, units, id, draw)
    ensures !Scheduled(units, id) && units[id].kind == Units.ResponseKind ==>
      r.schedules == ScheduleManagers.AddResponse(e.schedules, units, id, draw)
  {
    if Scheduled(units, id) then e
    else if units[id].kind == Units.ResponseKind then
      e.(schedules := ScheduleManagers.AddResponse(e.schedules, units, id, draw))
    else
      e.(schedules := ScheduleManagers.AddRequest(e.schedules, units, id, draw))
  }

  /** The receiver of the schedule-manager channel: the unit is marked
      scheduled; a request is then queued for download with the downloader
      it names, and a response goes back to its slot. */
  function ScheduleReceiver(e: Engine, units: map<nat, Units.Unit>, id: nat): (r: Result<Routed>)
    requires Valid(e) && Units.Store(units) && id in units
    requires units[id].kind == Units.RequestKind ==> DownloadManagers.CanAcquire(e.downloads.permits)
    ensures units[id].kind == Units.RequestKind ==>
      && r.Ok? && Units.Store(r.value.units) && id in r.value.units && Scheduled(r.value.units, id)
      && r.value.units == units[id := Units.SetPhase(units[id], Units.Schedule)]
      && r.value.engine == e.(downloads :=
           DownloadManagers.ProcessDownload(e.downloads, id, units[id].downloader))
    ensures units[id].kind == Units.ResponseKind ==>
      var marked := units[id := Units.SetPhase(units[id], Units.Schedule)];
      var put := SlotManagers.PutUnit(e.slots, marked, Slots.Responses, id, None);
      && (r.Ok? <==> put.Ok?)
      && (r.Ok? ==> r.value == Routed(e.(slots := put.value.manager), put.value.units))
  {
    var u := Units.SetPhase(units[id], Units.Schedule);
    var marked := units[id := u];
    if units[id].kind == Units.RequestKind then
      Ok(Routed(e.(downloads := DownloadManagers.ProcessDownload(e.downloads, id, u.downloader)), marked))
    else
      var put :- SlotManagers.PutUnit(e.slots, marked, Slots.Responses, id, None);
      Ok(Routed(e.(slots := put.manager), put.units))
  }

  /** A request the schedule manager has released is marked scheduled, so if
      it comes back through the slot manager or the download manager, it is
      dropped instead of being scheduled twice. */
  lemma ScheduledRequestNotRescheduled(e: Engine, units: map<nat, Units.Unit>, id: nat, draw: nat)
    requires Valid(e) && Units.Store(units) && id in units && units[id].kind == Units.RequestKind
    requires DownloadManagers.CanAcquire(e.downloads.permits)
    ensures var r := ScheduleReceiver(e, units, id).value;
            Valid(r.engine) && Reschedule(r.engine, r.units, id, draw) == r.engine
  {
  }

  /** A fresh request coming out of a slot is added to exactly one scheduler
      of the schedule manager. */
  lemma FreshRequestScheduledOnce(e: Engine, units: map<nat, Units.Unit>, id: nat, draw: nat)
    requires Valid(e) && Units.Store(units) && id in units && units[id].kind == Units.RequestKind
    requires !Scheduled(units, id)
    requires forall i :: 0 <= i < |e.schedules.schedulers| ==> !e.schedules.schedulers[i].requests.closed
    ensures ScheduleManagers.Buffered(Reschedule(e, units, id, draw).schedules.schedulers)
         == ScheduleManagers.Buffered(e.schedules.schedulers) + 1
  {
    ScheduleManagers.AddRequestEnqueuesOnce(e.schedules, units, id, draw);
  }

  // ------------------------------------------------------------------ slots

  /** `add_slot`: the slot is bound to this engine, then registered. */
  function AddSlot(e: Engine, s: Slots.Slot): (r: Engine)
    requires Valid(e)
    ensures Valid(r) && r == e.(slots := r.slots)
    ensures s.id in r.slots.slots && r.slots.slots[s.id].engine == Some(e.id)
    ensures r.slots.slots[s.id] == Slots.Bind(s, None, Some(e.id))
    ensures s.scraper.Some? ==> Slots.IsBound(r.slots.slots[s.id])
  {
    var bound := Slots.Bind(s, None, Some(e.id));
    e.(slots := SlotManagers.AddSlot(e.slots, bound))
  }

  // ---------------------------------------------------------------- closing

  /** The state `close` reaches, and the exception that stopped it, if any. */
  datatype Closed = Closed(engine: Engine, error: Option<Error>)

  /** `close`: a second close returns at once. The first closes the slot
      manager, then the schedule manager, then the download manager, then
      the signal manager; an exception stops the sequence where it is
      raised. */
  function Close(e: Engine): (r: Closed)
    requires Valid(e)
    requires DownloadsJoinable(e.downloads)
    ensures e.stopped ==> r == Closed(e, None)
    ensures r.engine.stopped && r.engine.id == e.id
    ensures !e.stopped && SlotManagers.Close(e.slots).Err? ==>
      r == Closed(e.(stopped := true), Some(SlotManagers.Close(e.slots).error))
    ensures !e.stopped && SlotManagers.Close(e.slots).Ok? ==>
      r.engine.slots == SlotManagers.Close(e.slots).value
    ensures !e.stopped && r.engine.schedules != e.schedules ==> r.engine.slots.closed
    ensures !e.stopped && r.engine.downloads != e.downloads ==> r.engine.schedules.closed
    ensures !e.stopped && r.engine.signalClosed != e.signalClosed ==> r.engine.downloads.closed
    ensures !e.stopped && r.error.None? ==>
      && r.engine.slots.closed && r.engine.schedules.closed && r.engine.downloads.closed
      && r.engine.signalClosed && SignalIdle(r.engine)
  {
    if e.stopped then Closed(e, None)
    else
      var e1 := e.(stopped := true);
      match SlotManagers.Close(e1.slots)
      case Err(x) => Closed(e1, Some(x))
      case Ok(slots) =>
        var e2 := e1.(slots := slots);
        match ScheduleManagers.Close(e2.schedules)
        case Err(x) => Closed(e2, Some(x))
        case Ok(schedules) =>
          var e3 := e2.(schedules := schedules);
          match DownloadManagers.Close(e3.downloads)
          case Err(x) => Closed(e3, Some(x))
          case Ok(downloads) => Closed(e3.(downloads := downloads, signalClosed := true), None)
  }

  /** The download manager's `close` first joins its two channels. */
  predicate DownloadsJoinable(d: DownloadManagers.Manager) {
    Streams.JoinReady(d.channel) && Streams.JoinReady(d.downloads)
  }
}

=== FILE: flags.dfy ===
/** The `Idle` flag enum (araneid/core/flags.py): a combination of flags is a
    set of members, and an empty combination is falsy. */
module Flags {

  datatype IdleFlag =
    | SlotFlag
    | DownloaderManagerFlag
    | SlotManagerFlag
    | SignalManagerFlag
    | ScheduleManagerFlag

  /** The default of `Engine.idle` and `Engine.wait_idle`: every component
      except the slot. */
  function EngineDefault(): (fs: set<IdleFlag>)
    ensures SlotFlag !in fs
    ensures forall f :: f in fs <==> !f.SlotFlag?
  {
    {DownloaderManagerFlag, SignalManagerFlag, SlotManagerFlag, ScheduleManagerFlag}
  }
}

=== FILE: is.dfy ===
/** The stock rules of araneid/data/check/Is.py: each checks one field and
    answers None or the error text '<field name>: <message>'; anything that
    is not a field passes every rule. */
module Is {
  import opened Wrappers
  import opened PyValues
  import opened Items

  /** The rule classes; `UrlRule` and `FileRule` keep the base class's
      `check`, which passes everything. */
  datatype Kind = NotEmptyRule | IntRule | DictRule | StringRule | TextRule | UrlRule | FileRule

  /** What a rule is asked to check. */
  datatype Subject = OfField(f: Field) | NotAField

  function ClassName(k: Kind): string {
    match k
    case NotEmptyRule => "NotEmptyRule"
    case IntRule => "IntRule"
    case DictRule => "DictRule"
    case StringRule => "StringRule"
    case TextRule => "TextRule"
    case UrlRule => "UrlRule"
    case FileRule => "FileRule"
  }

  /** Different rule classes have different names. */
  lemma ClassNameInjective(a: Kind, b: Kind)
    ensures ClassName(a) == ClassName(b) ==> a == b
  {
    if ClassName(a) == ClassName(b) {
      assert ClassName(a)[0] == ClassName(b)[0];
      assert |ClassName(a)| == |ClassName(b)|;
    }
  }

  /** The rules that can fail. */
  predicate CanFail(k: Kind) {
    !(k.UrlRule? || k.FileRule?)
  }

  /** The `__message__` of each rule that can fail. */
  function Message(k: Kind): string
    requires CanFail(k)
  {
    match k
    case NotEmptyRule => "must be not empty"
    case IntRule => "must be a int"
    case DictRule => "must be a dict"
    case StringRule => "must be a string"
    case TextRule => "must be a text (bytes or string or bytearray)"
  }

  /** How a field name reads in an f-string: an unnamed field reads 'None'. */
  function NameText(name: Option<string>): string {
    if name.Some? then name.value else "None"
  }

  /** Whether the value is of the kind the rule asks for. */
  predicate Fits(k: Kind, v: PyValue) {
    match k
    case NotEmptyRule => v != NoneValue
    case IntRule => IsInt(v)
    case DictRule => v.DictV?
    case StringRule => v.StrV?
    case TextRule => IsText(v)
    case UrlRule => true
    case FileRule => true
  }

  /** `check`: None for a non-field or a fitting value, otherwise the error
      text naming the field. */
  function Check(k: Kind, s: Subject): (r: Option<string>)
    ensures s.NotAField? ==> r.None?
    ensures s.OfField? && k == NotEmptyRule ==> (r.Some? <==> s.f.value == NoneValue)
    ensures s.OfField? && k == IntRule ==> (r.Some? <==> !(s.f.value.IntV? || s.f.value.BoolV?))
    ensures s.OfField? && k == DictRule ==> (r.Some? <==> !s.f.value.DictV?)
    ensures s.OfField? && k == StringRule ==> (r.Some? <==> !s.f.value.StrV?)
    ensures s.OfField? && k == TextRule ==> (r.Some? <==> !(s.f.value.StrV? || s.f.value.BytesV? || s.f.value.ByteArrayV?))
    ensures k == UrlRule || k == FileRule ==> r.None?
    ensures r.Some? ==> CanFail(k) && s.OfField? && r.value == NameText(s.f.name) + ": " + Message(k)
  {
    match s
    case NotAField => None
    case OfField(f) =>
      if Fits(k, f.value) then None
      else Some(NameText(f.name) + ": " + Message(k))
  }

  /** A value any of the type rules accepts is not empty. */
  lemma TypeRulesImplyNotEmpty(k: Kind, s: Subject)
    requires k in {IntRule, DictRule, StringRule, TextRule}
    ensures Check(k, s).None? ==> Check(NotEmptyRule, s).None?
  {
  }

  /** Text widens String: every string passes the text rule. */
  lemma TextWidensString(s: Subject)
    ensures Check(StringRule, s).None? ==> Check(TextRule, s).None?
  {
  }
}

=== FILE: item.dfy ===
/** Items (araneid/data/item.py): a `Field` holds one named, typed value;
    an item keeps its fields in an insertion-ordered dict keyed by field
    name, and reads, writes and exports them. */
module Items {
  import opened Wrappers
  import opened PyValues
  import opened OrderedDicts

  /** The `Type` enum of a field. */
  datatype FieldType = INT | STRING | TEXT | FILE | URL | DICT

  /** A field; `name` is None until the item class or a caller names it. */
  datatype Field = Field(name: Option<string>, ftype: FieldType, value: PyValue, require: bool, desc: string)

  /** A field built with the constructor's defaults: a TEXT field with no
      value, not required, unnamed and undescribed. */
  function DefaultField(): (f: Field)
    ensures f.name.None? && f.ftype == TEXT && f.value == NoneValue && !f.require && f.desc == ""
  {
    Field(None, TEXT, NoneValue, false, "")
  }

  /** `Field.__eq__`: the same name, type, requirement and (Python-equal)
      value; the description does not count. */
  predicate FieldEq(a: Field, b: Field) {
    a.name == b.name && a.ftype == b.ftype && a.require == b.require && PyEq(a.value, b.value)
  }

  /** Field equality is an equivalence that ignores the description. */
  lemma FieldEqIgnoresDesc(a: Field, b: Field, desc: string)
    ensures FieldEq(a, a)
    ensures FieldEq(a, b) ==> FieldEq(b, a)
    ensures FieldEq(a, b) <==> FieldEq(a.(desc := desc), b)
  {
    PyEqReflexive(a.value);
    if FieldEq(a, b) {
      PyEqSymmetric(a.value, b.value);
    }
  }

  /** One argument handed to `Field.__init__`, of whichever kind it is. */
  datatype Arg = NameArg(n: Option<string>) | TypeArg(t: FieldType) | BoolArg(b: bool)

  /** A positional call `Field(type, default, require, name)`. */
  datatype InitCall = InitCall(typeParam: Arg, defaultParam: PyValue, requireParam: Arg, nameParam: Arg)

  /** The field such a call builds when every argument is of its
      parameter's kind; None stands for a field whose attributes hold
      values of the wrong kinds. */
  function Construct(c: InitCall): (r: Option<Field>)
    ensures r.Some? <==> c.typeParam.TypeArg? && c.requireParam.BoolArg? && c.nameParam.NameArg?
    ensures r.Some? ==> r.value.ftype == c.typeParam.t && r.value.value == c.defaultParam
                        && r.value.require == c.requireParam.b && r.value.name == c.nameParam.n
                        && r.value.desc == ""
  {
    if c.typeParam.TypeArg? && c.requireParam.BoolArg? && c.nameParam.NameArg? then
      Some(Field(c.nameParam.n, c.typeParam.t, c.defaultParam, c.requireParam.b, ""))
    else None
  }

  /** `Field.copy` as written: it passes name, value, type and require
      positionally, so they land in the type, default, require and name
      parameters. */
  function CopyCallAsWritten(f: Field): InitCall {
    InitCall(NameArg(f.name), f.value, TypeArg(f.ftype), BoolArg(f.require))
  }

  /** The as-written copy never builds a field: the name lands in the type
      parameter and the type in the require parameter. */
  lemma CopyMisbindsArguments(f: Field)
    ensures Construct(CopyCallAsWritten(f)).None?
    ensures CopyCallAsWritten(f).typeParam == NameArg(f.name)
  {
  }

  /** `Field.copy` with every attribute passed to its own parameter: a
      field equal to the original, without its description. */
  function Copy(f: Field): (r: Field)
    ensures FieldEq(r, f) && r.desc == ""
  {
    PyEqReflexive(f.value);
    Construct(InitCall(TypeArg(f.ftype), f.value, BoolArg(f.require), NameArg(f.name))).value
  }

  /** Fields are keyed by name; a field added without a name sits under None. */
  type Key = Option<string>

  /** An item: its class's qualified name, its own name and its fields. */
  datatype Item = Item(cls: string, name: string, fields: Entries<Key, Field>)

  /** What a class body binds: a field, or any other attribute. */
  datatype Attr = FieldAttr(f: Field) | OtherAttr

  /** `ItemMeta`: the fields of an item class are the class attributes that
      are fields, in definition order, each named after its attribute. */
  function DefineFields(attrs: Entries<string, Attr>): (r: Entries<Key, Field>)
    ensures forall i :: 0 <= i < |r| ==> r[i].0.Some? && r[i].1.name == r[i].0
    ensures |r| <= |attrs|
    decreases |attrs|
  {
    if |attrs| == 0 then []
    else if attrs[0].1.FieldAttr? then
      [(Some(attrs[0].0), attrs[0].1.f.(name := Some(attrs[0].0)))] + DefineFields(attrs[1..])
    else DefineFields(attrs[1..])
  }

  /** Each collected field is the field of some attribute, renamed after
      that attribute: nothing else of the field changes. */
  lemma {:induction false} DefineFieldsOrigin(attrs: Entries<string, Attr>)
    ensures forall i :: 0 <= i < |DefineFields(attrs)| ==>
      exists j :: 0 <= j < |attrs| && NamedAttrField(attrs[j], DefineFields(attrs)[i])
    decreases |attrs|
  {
    if |attrs| > 0 {
      var rest := DefineFields(attrs[1..]);
      var r := DefineFields(attrs);
      DefineFieldsOrigin(attrs[1..]);
      forall i | 0 <= i < |r| ensures exists j :: 0 <= j < |attrs| && NamedAttrField(attrs[j], r[i]) {
        if attrs[0].1.FieldAttr? && i == 0 {
          assert NamedAttrField(attrs[0], r[0]);
        } else {
          var k := if attrs[0].1.FieldAttr? then i - 1 else i;
          assert 0 <= k < |rest| && r[i] == rest[k];
          assert exists j :: 0 <= j < |attrs[1..]| && NamedAttrField(attrs[1..][j], rest[k]);
          var j :| 0 <= j < |attrs[1..]| && NamedAttrField(attrs[1..][j], rest[k]);
          assert attrs[j + 1] == attrs[1..][j];
          assert NamedAttrField(attrs[j + 1], r[i]);
        }
      }
    } else {
      assert |DefineFields(attrs)| == 0;
    }
  }

  /** The entry is the attribute's field, renamed after the attribute. */
  predicate NamedAttrField(attr: (string, Attr), e: (Key, Field)) {
    attr.1.FieldAttr? && e.0 == Some(attr.0) && e.1 == attr.1.f.(name := Some(attr.0))
  }

  /** The fields of a class body split like the body: the fields of the
      earlier attributes come first, in order. */
  lemma {:induction false} DefineFieldsAppend(a: Entries<string, Attr>, b: Entries<string, Attr>)
    ensures DefineFields(a + b) == DefineFields(a) + DefineFields(b)
    decreases |a|
  {
    if |a| == 0 {
      assert a + b == b;
    } else {
      assert (a + b)[0] == a[0] && (a + b)[1..] == a[1..] + b;
      DefineFieldsAppend(a[1..], b);
    }
  }

  /** One attribute contributes its field, renamed, or nothing. */
  lemma DefineFieldsOne(k: string, v: Attr)
    ensures DefineFields([(k, v)]) == if v.FieldAttr? then [(Some(k), v.f.(name := Some(k)))] else []
  {
    assert [(k, v)][1..] == [];
  }

  predicate IsFieldAttr(attrs: Entries<string, Attr>, k: string) {
    exists j :: 0 <= j < |attrs| && attrs[j].0 == k && attrs[j].1.FieldAttr?
  }

  /** An item class has a field for exactly the attributes bound to fields,
      and one field per name. */
  lemma DefineFieldsKeys(attrs: Entries<string, Attr>, k: string)
    ensures HasKey(DefineFields(attrs), Some(k)) <==> IsFieldAttr(attrs, k)
    ensures DistinctKeys(attrs) ==> DistinctKeys(DefineFields(attrs))
  {
    DefineFieldsHasKey(attrs, k);
    if DistinctKeys(attrs) {
      DefineFieldsDistinct(attrs);
    }
  }

  lemma {:induction false} DefineFieldsHasKey(attrs: Entries<string, Attr>, k: string)
    ensures HasKey(DefineFields(attrs), Some(k)) <==> IsFieldAttr(attrs, k)
    decreases |attrs|
  {
    if |attrs| > 0 {
      var rest := DefineFields(attrs[1..]);
      var r := DefineFields(attrs);
      DefineFieldsHasKey(attrs[1..], k);
      assert IsFieldAttr(attrs, k) <==> (attrs[0].0 == k && attrs[0].1.FieldAttr?) || IsFieldAttr(attrs[1..], k) by {
        if IsFieldAttr(attrs[1..], k) {
          var j :| 0 <= j < |attrs[1..]| && attrs[1..][j].0 == k && attrs[1..][j].1.FieldAttr?;
          assert attrs[j + 1] == attrs[1..][j];
        }
        if IsFieldAttr(attrs, k) && !(attrs[0].0 == k && attrs[0].1.FieldAttr?) {
          var j :| 0 <= j < |attrs| && attrs[j].0 == k && attrs[j].1.FieldAttr?;
          assert attrs[1..][j - 1] == attrs[j];
        }
      }
      if attrs[0].1.FieldAttr? {
        assert HasKey(r, Some(k)) <==> r[0].0 == Some(k) || HasKey(rest, Some(k)) by {
          if HasKey(rest, Some(k)) {
            var i :| 0 <= i < |rest| && rest[i].0 == Some(k);
            assert r[i + 1] == rest[i];
          }
          if HasKey(r, Some(k)) && r[0].0 != Some(k) {
            var i :| 0 <= i < |r| && r[i].0 == Some(k);
            assert rest[i - 1] == r[i];
          }
        }
      }
    }
  }

  lemma {:induction false} DefineFieldsDistinct(attrs: Entries<string, Attr>)
    requires DistinctKeys(attrs)
    ensures DistinctKeys(DefineFields(attrs))
    decreases |attrs|
  {
    if |attrs| > 0 {
      var rest := DefineFields(attrs[1..]);
      var r := DefineFields(attrs);
      assert DistinctKeys(attrs[1..]) by {
        forall i, j | 0 <= i < j < |attrs[1..]| ensures attrs[1..][i].0 != attrs[1..][j].0 {
          assert attrs[1..][i] == attrs[i + 1] && attrs[1..][j] == attrs[j + 1];
        }
      }
      DefineFieldsDistinct(attrs[1..]);
      if attrs[0].1.FieldAttr? {
        DefineFieldsHasKey(attrs[1..], attrs[0].0);
        assert !IsFieldAttr(attrs[1..], attrs[0].0) by {
          forall j | 0 <= j < |attrs[1..]| ensures attrs[1..][j].0 != attrs[0].0 {
            assert attrs[1..][j] == attrs[j + 1];
          }
        }
        forall i, j | 0 <= i < j < |r| ensures r[i].0 != r[j].0 {
          assert r[j] == rest[j - 1];
          if i > 0 {
            assert r[i] == rest[i - 1];
          } else {
            assert !HasKey(rest, Some(attrs[0].0));
          }
        }
      }
    }
  }

  /** `BaseItem.__init__`: a fresh copy of the class's fields; the item is
      named after its class unless given a (non-empty) name. */
  function NewItem(cls: string, defined: Entries<Key, Field>, name: Option<string>): (r: Item)
    ensures r.fields == defined && r.cls == cls
    ensures name.Some? && name.value != "" ==> r.name == name.value
    ensures name.None? || name.value == "" ==> r.name == cls
  {
    Item(cls, if name.Some? && name.value != "" then name.value else cls, defined)
  }

  /** The `fields` property and `__iter__`: the fields in insertion order. */
  function FieldList(item: Item): seq<Field> {
    Values(item.fields)
  }

  /** `add_field`: the field is stored under its own name, replacing any
      field of that name in place. */
  function AddField(item: Item, f: Field): (r: Item)
    requires DistinctKeys(item.fields)
    ensures DistinctKeys(r.fields) && r.cls == item.cls && r.name == item.name
    ensures GetItem(r, f.name) == Ok(f)
    ensures forall k :: k != f.name ==> GetItem(r, k) == GetItem(item, k)
  {
    var r := item.(fields := Put(item.fields, f.name, f));
    forall k ensures Get(r.fields, k) == if k == f.name then Some(f) else Get(item.fields, k) {
      PutThenGet(item.fields, f.name, f, k);
    }
    r
  }

  /** `get`: the value of the field under the key, or the default when
      there is none. */
  function GetValue(item: Item, key: Key, default: PyValue): (r: PyValue)
    ensures !HasKey(item.fields, key) ==> r == default
    ensures forall i :: 0 <= i < |item.fields| && item.fields[i].0 == key && DistinctKeys(item.fields) ==>
      r == item.fields[i].1.value
  {
    match Get(item.fields, key)
    case None => default
    case Some(f) => f.value
  }

  /** `__getitem__`: the field itself, or FieldNotFound. */
  function GetItem(item: Item, key: Key): (r: Result<Field>)
    ensures r == Err(FieldNotFound) <==> !HasKey(item.fields, key)
    ensures r.Ok? ==> exists i :: 0 <= i < |item.fields| && item.fields[i] == (key, r.value)
    ensures r.Ok? ==> GetValue(item, key, NoneValue) == r.value.value
  {
    match Get(item.fields, key)
    case None => Err(FieldNotFound)
    case Some(f) => Ok(f)
  }

  /** The right-hand side of `item[key] = ...`. */
  datatype Assigned = AValue(v: PyValue) | AField(f: Field)

  /** `__setitem__`: FieldNotFound for an unknown key; a plain value
      becomes the field's value, a field replaces the field. */
  function SetItem(item: Item, key: Key, a: Assigned): (r: Result<Item>)
    requires DistinctKeys(item.fields)
    ensures r == Err(FieldNotFound) <==> !HasKey(item.fields, key)
    ensures r.Ok? ==> DistinctKeys(r.value.fields) && Keys(r.value.fields) == Keys(item.fields)
    ensures r.Ok? ==> forall k :: k != key ==> GetItem(r.value, k) == GetItem(item, k)
    ensures r.Ok? && a.AField? ==> GetItem(r.value, key) == Ok(a.f)
    ensures r.Ok? && a.AValue? ==> GetItem(r.value, key) == Ok(GetItem(item, key).value.(value := a.v))
  {
    match Get(item.fields, key)
    case None => Err(FieldNotFound)
    case Some(f) =>
      var nf := if a.AValue? then f.(value := a.v) else a.f;
      var fs := Put(item.fields, key, nf);
      forall k ensures Get(fs, k) == if k == key then Some(nf) else Get(item.fields, k) {
        PutThenGet(item.fields, key, nf, k);
      }
      Ok(item.(fields := fs))
  }

  /** `update`: every field of the other item, in order, stored under its
      own name. The other item must be an instance of the item's class:
      `otherBases` names the classes the other item's class derives from,
      and an item of an unrelated class fails the source's assertion. */
  function UpdateItem(item: Item, other: Item, otherBases: set<string>): (r: Result<Item>)
    requires DistinctKeys(item.fields)
    ensures r.Err? <==> other.cls != item.cls && item.cls !in otherBases
    ensures r.Err? ==> r.error == AssertionFailed
    ensures r.Ok? ==> DistinctKeys(r.value.fields) && r.value.cls == item.cls && r.value.name == item.name
    ensures r.Ok? ==> r.value.fields == StoreAll(item.fields, FieldList(other))
  {
    if other.cls != item.cls && item.cls !in otherBases then Err(AssertionFailed)
    else Ok(item.(fields := StoreAll(item.fields, FieldList(other))))
  }

  /** After `update` with an instance of the item's class, a name none of
      the other item's fields carries reads as before, and a name some of
      them carry reads the last such field. */
  lemma UpdateItemReads(item: Item, other: Item, otherBases: set<string>, k: Key)
    requires DistinctKeys(item.fields) && (other.cls == item.cls || item.cls in otherBases)
    ensures UpdateItem(item, other, otherBases).Ok?
    ensures var fs := FieldList(other);
            var u := UpdateItem(item, other, otherBases).value;
            && (!NamedIn(fs, k) ==> Get(u.fields, k) == Get(item.fields, k))
            && (forall i :: 0 <= i < |fs| && fs[i].name == k && !NamedIn(fs[i + 1..], k) ==> Get(u.fields, k) == Some(fs[i]))
  {
    StoreAllReads(item.fields, FieldList(other), k);
  }

  /** Each field stored under its name, in order. */
  function StoreAll(d: Entries<Key, Field>, fs: seq<Field>): (r: Entries<Key, Field>)
    requires DistinctKeys(d)
    ensures DistinctKeys(r)
    decreases |fs|
  {
    if |fs| == 0 then d else StoreAll(Put(d, fs[0].name, fs[0]), fs[1..])
  }

  /** The fields as dict entries, each under its own name. */
  function Named(fs: seq<Field>): (e: Entries<Key, Field>)
    ensures |e| == |fs| && forall i :: 0 <= i < |fs| ==> e[i] == (fs[i].name, fs[i])
  {
    seq(|fs|, i requires 0 <= i < |fs| => (fs[i].name, fs[i]))
  }

  /** Storing the fields one by one is the dict's own `update` with the
      fields under their names. */
  lemma {:induction false} StoreAllIsUpdate(d: Entries<Key, Field>, fs: seq<Field>)
    requires DistinctKeys(d)
    ensures StoreAll(d, fs) == Update(d, Named(fs))
    decreases |fs|
  {
    if |fs| > 0 {
      assert Named(fs)[1..] == Named(fs[1..]);
      StoreAllIsUpdate(Put(d, fs[0].name, fs[0]), fs[1..]);
    }
  }

  /** Some field of the list carries the name. */
  predicate NamedIn(fs: seq<Field>, k: Key) {
    exists i :: 0 <= i < |fs| && fs[i].name == k
  }

  /** After `update`, a name the other item's fields do not carry reads as
      before, and the last field carrying a name is the one stored. */
  lemma {:induction false} StoreAllReads(d: Entries<Key, Field>, fs: seq<Field>, k: Key)
    requires DistinctKeys(d)
    ensures !NamedIn(fs, k) ==> Get(StoreAll(d, fs), k) == Get(d, k)
    ensures forall i :: 0 <= i < |fs| && fs[i].name == k && !NamedIn(fs[i + 1..], k) ==>
      Get(StoreAll(d, fs), k) == Some(fs[i])
    decreases |fs|
  {
    if |fs| > 0 {
      var d' := Put(d, fs[0].name, fs[0]);
      PutThenGet(d, fs[0].name, fs[0], k);
      StoreAllReads(d', fs[1..], k);
      assert forall j :: 1 <= j < |fs| ==> fs[j] == fs[1..][j - 1];
      assert !NamedIn(fs, k) ==> !NamedIn(fs[1..], k) by {
        if NamedIn(fs[1..], k) {
          var j :| 0 <= j < |fs[1..]| && fs[1..][j].name == k;
          assert fs[j + 1].name == k;
        }
      }
      forall i | 0 <= i < |fs| && fs[i].name == k && !NamedIn(fs[i + 1..], k)
        ensures Get(StoreAll(d, fs), k) == Some(fs[i])
      {
        if i > 0 {
          assert fs[1..][i - 1] == fs[i] && fs[1..][i..] == fs[i + 1..];
        } else {
          assert !NamedIn(fs[1..], k);
        }
      }
    }
  }

  /** `Item.to_dict`: each field's key mapped to the field's value, in the
      item's order. */
  function ToDict(item: Item): (r: Entries<Key, PyValue>)
    ensures Keys(r) == Keys(item.fields)
    ensures forall i :: 0 <= i < |r| ==> r[i].1 == item.fields[i].1.value
  {
    seq(|item.fields|, i requires 0 <= i < |item.fields| => (item.fields[i].0, item.fields[i].1.value))
  }

  /** Reading the exported dict agrees with `get`. */
  lemma ToDictAgreesWithGet(item: Item, key: Key, default: PyValue)
    requires DistinctKeys(item.fields)
    ensures Get(ToDict(item), key).GetOr(default) == GetValue(item, key, default)
  {
    var d := ToDict(item);
    assert DistinctKeys(d) by {
      assert forall i :: 0 <= i < |d| ==> d[i].0 == item.fields[i].0;
    }
    if HasKey(item.fields, key) {
      var i :| 0 <= i < |item.fields| && item.fields[i].0 == key;
      assert d[i].0 == key;
    }
  }

  /** Assigning a plain value through `item[key]` and reading the field
      back gives that value. */
  lemma AssignThenRead(item: Item, key: Key, v: PyValue)
    requires DistinctKeys(item.fields) && HasKey(item.fields, key)
    ensures SetItem(item, key, AValue(v)).Ok?
    ensures GetItem(SetItem(item, key, AValue(v)).value, key).value.value == v
    ensures GetValue(SetItem(item, key, AValue(v)).value, key, NoneValue) == v
  {
  }
}

=== FILE: latch.dfy ===
/** Countdown latches (araneid/util/_async.py): a counter paired with an event
    that is set when the counter is brought down to zero. A Stream uses one to
    count its registered readers. */
module Latches {

  /** `CountdownLatch`: starts at zero with its event unset. */
  datatype Latch = Latch(count: nat, signalled: bool)

  /** The event is only ever set while the count is zero. */
  predicate Valid(l: Latch) {
    l.signalled ==> l.count == 0
  }

  function NewLatch(): (l: Latch)
    ensures l.count == 0 && !l.signalled
    ensures Valid(l) && WaitReady(l)
  {
    Latch(0, false)
  }

  /** `increment`: one more party to wait for; clears the event. */
  function Increment(l: Latch): (r: Latch)
    ensures r.count == l.count + 1
    ensures !r.signalled && !WaitReady(r)
    ensures Valid(r)
  {
    Latch(l.count + 1, false)
  }

  /** `decrement`: the source asserts the count is positive. The event is set
      exactly when the count reaches zero. */
  function Decrement(l: Latch): (r: Latch)
    requires l.count > 0
    ensures r.count == l.count - 1
    ensures r.count == 0 ==> r.signalled
    ensures Valid(l) ==> (r.signalled <==> r.count == 0)
  {
    var c := l.count - 1;
    Latch(c, if c == 0 then true else l.signalled)
  }

  /** `wait` returns at once when the count is zero, otherwise when the event
      is set. */
  predicate WaitReady(l: Latch) {
    l.count == 0 || l.signalled
  }

  lemma ValidPreserved(l: Latch)
    requires Valid(l)
    ensures Valid(Increment(l))
    ensures l.count > 0 ==> Valid(Decrement(l))
  {
  }

  /** A valid latch is ready to be waited on exactly when its count is zero. */
  lemma ReadyIffZero(l: Latch)
    requires Valid(l)
    ensures WaitReady(l) <==> l.count == 0
  {
  }

  function Increments(l: Latch, n: nat): Latch
  {
    if n == 0 then l else Increment(Increments(l, n - 1))
  }

  function Decrements(l: Latch, n: nat): (r: Latch)
    requires n <= l.count
    ensures r.count == l.count - n
  {
    if n == 0 then l else Decrement(Decrements(l, n - 1))
  }

  lemma {:induction false} IncrementsCount(l: Latch, n: nat)
    ensures Increments(l, n).count == l.count + n
    ensures n > 0 ==> !Increments(l, n).signalled
  {
    if n > 0 {
      IncrementsCount(l, n - 1);
    }
  }

  lemma {:induction false} DecrementsCount(l: Latch, n: nat)
    requires n <= l.count
    ensures Valid(l) ==> Valid(Decrements(l, n))
  {
    if n > 0 {
      DecrementsCount(l, n - 1);
    }
  }

  /** A reader count that goes up n times and down n times releases every
      waiter: this is what lets `Stream.close` proceed once all readers leave. */
  lemma BalancedReleases(l: Latch, n: nat)
    requires Valid(l) && l.count == 0
    ensures Increments(l, n).count == n
    ensures WaitReady(Decrements(Increments(l, n), n))
    ensures 0 < n ==> Decrements(Increments(l, n), n).signalled
  {
    IncrementsCount(l, n);
    DecrementsCount(Increments(l, n), n);
    if n > 0 {
      DecrementsCount(Increments(l, n), n - 1);
    }
  }

  /** `BoundedCountdownLatch(count)`: starts at the given count, event unset. */
  datatype Bounded = Bounded(count: nat, signalled: bool)

  function NewBounded(count: nat): (b: Bounded)
    ensures b.count == count && !b.signalled
    ensures !BoundedWaitReady(b)
  {
    Bounded(count, false)
  }

  function BoundedDecrement(b: Bounded): (r: Bounded)
    requires b.count > 0
    ensures r.count == b.count - 1
    ensures r.count == 0 ==> r.signalled
    ensures r.count > 0 ==> r.signalled == b.signalled
  {
    var c := b.count - 1;
    Bounded(c, if c == 0 then true else b.signalled)
  }

  /** Unlike `CountdownLatch.wait`, the bounded latch has no zero shortcut: it
      only waits on the event. */
  predicate BoundedWaitReady(b: Bounded) {
    b.signalled
  }

  function BoundedDecrements(b: Bounded, n: nat): (r: Bounded)
    requires n <= b.count
    ensures r.count == b.count - n
  {
    if n == 0 then b else BoundedDecrement(BoundedDecrements(b, n - 1))
  }

  /** A bounded latch created with n > 0 releases its waiters after exactly n
      decrements, and not before. */
  lemma {:induction false} BoundedReleasesAfterCount(n: nat, k: nat)
    requires k <= n
    ensures BoundedWaitReady(BoundedDecrements(NewBounded(n), k)) <==> (0 < n && k == n)
  {
    if k > 0 {
      BoundedReleasesAfterCount(n, k - 1);
    }
  }
}

=== FILE: middleware.dfy ===
/** The middleware chains (araneid/core/middlewaremanager.py). Each manager
    keeps one list per hook kind, in load order, with a `None` entry for a
    middleware that lacks the hook; every `process_*` call walks one list
    from `start_from`. A hook is modelled as what it does with the value it
    is handed: a value returned or an exception raised. The spider, the
    request of a response and the scraper are fixed for one call, so they
    are part of the hook. */
module Middlewares {
  import opened Wrappers

  /** What flows through a chain or comes back from a hook: a request or a
      response of the unit store, None, a list of unit ids, or any other
      object, with its Python truthiness. */
  datatype Value = Req(id: nat) | Resp(id: nat) | NoneValue | List(items: seq<nat>) | Other(truthy: bool)

  /** Python truthiness of a value. */
  predicate Truthy(v: Value) {
    match v
    case NoneValue => false
    case List(xs) => |xs| > 0
    case Other(t) => t
    case _ => true
  }

  /** The exceptions the chains tell apart. */
  datatype Exc = IgnoreRequest | InvalidSpiderMiddleware | Exc(name: string)

  datatype Outcome = Returned(v: Value) | Threw(e: Exc)

  type Hook = Value -> Outcome

  // ------------------------------------------------- downloader: process_request

  /** How `process_request` ends: with a value, or by handing `request` and
      the exception to `process_exception` with the given `start_from`. */
  datatype RequestExit = Done(result: Value) | ToException(request: Value, exc: Exc, startFrom: nat)

  /** The loop of `process_request` from index `i` of the whole list; the
      `startFrom` of an exception exit is the absolute index of the hook
      that raised. */
  function RequestFold(chain: seq<Option<Hook>>, i: nat, result: Value): (r: RequestExit)
    ensures r.ToException? ==> i <= r.startFrom < |chain| && chain[r.startFrom].Some?
    ensures r.Done? && r.result != result ==> exists k :: i <= k < |chain| && chain[k].Some?
    decreases |chain| - i
  {
    if i >= |chain| then Done(result)
    else match chain[i]
      case None => RequestFold(chain, i + 1, result)
      case Some(p) =>
        (match p(result)
         case Threw(e) => ToException(result, e, i)
         case Returned(v) => if v.Req? then RequestFold(chain, i + 1, v) else Done(v))
  }

  /** An exception exit moved `n` places along the list. */
  function ShiftRequest(x: RequestExit, n: nat): (r: RequestExit)
    ensures r.Done? <==> x.Done?
    ensures r.ToException? ==> r.startFrom == x.startFrom + n && r.exc == x.exc && r.request == x.request
    ensures x.Done? ==> r == x
  {
    match x
    case ToException(q, e, k) => ToException(q, e, k + n)
    case Done(_) => x
  }

  /** `process_request` as written: the hook that raised is located by its
      index in the slice `chain[start_from:]`, and that index is what
      `process_exception` gets as its `start_from`. */
  function ProcessRequestAsWritten(chain: seq<Option<Hook>>, request: nat, startFrom: nat): (r: RequestExit)
    ensures r.ToException? ==> startFrom + r.startFrom < |chain| && chain[startFrom + r.startFrom].Some?
  {
    match RequestFold(chain, startFrom, Req(request))
    case ToException(q, e, k) => ToException(q, e, k - startFrom)
    case d => d
  }

  /** `process_request` as intended: `process_exception` starts at the hook
      that raised, counted in the whole list. */
  function ProcessRequest(chain: seq<Option<Hook>>, request: nat, startFrom: nat): (r: RequestExit)
    ensures r.ToException? ==> startFrom <= r.startFrom < |chain| && chain[r.startFrom].Some?
    ensures startFrom >= |chain| ==> r == Done(Req(request))
  {
    RequestFold(chain, startFrom, Req(request))
  }

  /** The hooks of `b` see what the hooks of `a` left behind: running `a + b`
      from a request is running `a` and then, if `a` ended with a request,
      running `b` on it. A non-request result or an exception in `a` ends the
      call, and no hook of `b` runs. */
  lemma {:induction false} RequestFoldAppend(a: seq<Option<Hook>>, b: seq<Option<Hook>>, i: nat, x: Value)
    requires i <= |a| && x.Req?
    ensures var ra := RequestFold(a, i, x);
            RequestFold(a + b, i, x) ==
              if ra.Done? && ra.result.Req? then ShiftRequest(RequestFold(b, 0, ra.result), |a|) else ra
    decreases |a| - i
  {
    if i == |a| {
      RequestFoldShift(a, b, 0, x);
    } else {
      assert (a + b)[i] == a[i];
      match a[i]
      case None => RequestFoldAppend(a, b, i + 1, x);
      case Some(p) =>
        match p(x)
        case Threw(e) =>
        case Returned(v) => if v.Req? { RequestFoldAppend(a, b, i + 1, v); }
    }
  }

  /** Running the tail `b` of `a + b` is running `b` alone, with its indices
      moved by `|a|`. */
  lemma {:induction false} RequestFoldShift(a: seq<Option<Hook>>, b: seq<Option<Hook>>, j: nat, x: Value)
    ensures RequestFold(a + b, |a| + j, x) == ShiftRequest(RequestFold(b, j, x), |a|)
    decreases |b| - j
  {
    if j < |b| {
      assert (a + b)[|a| + j] == b[j];
      match b[j]
      case None => RequestFoldShift(a, b, j + 1, x);
      case Some(p) =>
        match p(x)
        case Threw(e) =>
        case Returned(v) => if v.Req? { RequestFoldShift(a, b, j + 1, v); }
    }
  }

  /** A chain with no `process_request` hook, in particular an empty chain,
      returns the request unchanged. */
  lemma {:induction false} NoHooksKeepRequest(chain: seq<Option<Hook>>, i: nat, x: Value)
    requires forall k :: i <= k < |chain| ==> chain[k].None?
    ensures RequestFold(chain, i, x) == Done(x)
    decreases |chain| - i
  {
    if i < |chain| {
      NoHooksKeepRequest(chain, i + 1, x);
    }
  }

  /** Once a hook returns something other than a request, the call returns
      it: the hooks after it never run. */
  lemma NonRequestEndsChain(a: seq<Option<Hook>>, b: seq<Option<Hook>>, request: nat, startFrom: nat)
    requires startFrom <= |a|
    requires ProcessRequest(a, request, startFrom).Done? && !ProcessRequest(a, request, startFrom).result.Req?
    ensures ProcessRequest(a + b, request, startFrom) == ProcessRequest(a, request, startFrom)
  {
    RequestFoldAppend(a, b, startFrom, Req(request));
  }

  /** Processing begins at `start_from`: the hooks before it are never
      called, and the call behaves as on the list that starts there. */
  lemma StartFromSkipsPrefix(chain: seq<Option<Hook>>, request: nat, startFrom: nat)
    requires startFrom <= |chain|
    ensures ProcessRequest(chain, request, startFrom) == ShiftRequest(ProcessRequest(chain[startFrom..], request, 0), startFrom)
    ensures ProcessRequestAsWritten(chain, request, startFrom) == ProcessRequestAsWritten(chain[startFrom..], request, 0)
  {
    assert chain == chain[..startFrom] + chain[startFrom..];
    RequestFoldShift(chain[..startFrom], chain[startFrom..], 0, Req(request));
  }

  /** The two readings differ exactly when a hook raises during a call that
      starts past the first middleware: `process_exception` is then started
      `start_from` places too early. With two middlewares, `start_from` 1 and
      a raising second hook, the first middleware's exception hook runs
      although its request hook never did. */
  lemma ProcessRequestDiscrepancy(chain: seq<Option<Hook>>, request: nat, startFrom: nat)
    ensures ProcessRequestAsWritten(chain, request, startFrom) != ProcessRequest(chain, request, startFrom)
        <==> startFrom > 0 && ProcessRequest(chain, request, startFrom).ToException?
    ensures var raising: Hook := _ => Threw(Exc("error"));
            ProcessRequest([None, Some(raising)], 7, 1) == ToException(Req(7), Exc("error"), 1)
            && ProcessRequestAsWritten([None, Some(raising)], 7, 1) == ToException(Req(7), Exc("error"), 0)
  {
  }

  // ------------------------------------------------ downloader: process_response

  /** How `process_response` ends: the final response after the whole chain;
      a request a hook returned; the response kept when IgnoreRequest stops
      a chain whose request has no errback; the errback awaited with the
      exception; or the exception propagated. */
  datatype ResponseExit =
    | Finished(response: Value)
    | Redirected(request: Value)
    | Ignored(response: Value)
    | ToErrback(exc: Exc)
    | Propagated(exc: Exc)

  /** The loop of `process_response` from index `i`. A None result, and any
      result that is neither a request nor a response, continues with the
      current response. */
  function ResponseFold(chain: seq<Option<Hook>>, hasErrback: bool, i: nat, response: Value): (r: ResponseExit)
    ensures response.Resp? && (r.Finished? || r.Ignored?) ==> r.response.Resp?
    ensures r.Redirected? ==> r.request.Req?
    ensures r.ToErrback? ==> hasErrback
    ensures r.Propagated? ==> !hasErrback && r.exc != IgnoreRequest
    ensures r.Ignored? ==> !hasErrback
    decreases |chain| - i
  {
    if i >= |chain| then Finished(response)
    else match chain[i]
      case None => ResponseFold(chain, hasErrback, i + 1, response)
      case Some(p) =>
        (match p(response)
         case Threw(e) =>
           if hasErrback then ToErrback(e)
           else if e == IgnoreRequest then Ignored(response)
           else Propagated(e)
         case Returned(v) =>
           if v.Req? then Redirected(v)
           else if v.Resp? then ResponseFold(chain, hasErrback, i + 1, v)
           else ResponseFold(chain, hasErrback, i + 1, response))
  }

  function ProcessResponse(chain: seq<Option<Hook>>, hasErrback: bool, response: nat, startFrom: nat): (r: ResponseExit)
    ensures r.Finished? || r.Ignored? ==> r.response.Resp?
    ensures startFrom >= |chain| ==> r == Finished(Resp(response))
  {
    ResponseFold(chain, hasErrback, startFrom, Resp(response))
  }

  /** The hooks of `b` see the response the hooks of `a` settled on; any
      other way out of `a` is the way out of `a + b`. */
  lemma {:induction false} ResponseFoldAppend(a: seq<Option<Hook>>, b: seq<Option<Hook>>, hasErrback: bool, i: nat, x: Value)
    requires i <= |a|
    ensures var ra := ResponseFold(a, hasErrback, i, x);
            ResponseFold(a + b, hasErrback, i, x) ==
              if ra.Finished? then ResponseFold(b, hasErrback, 0, ra.response) else ra
    decreases |a| - i
  {
    if i == |a| {
      ResponseFoldShift(a, b, hasErrback, 0, x);
    } else {
      assert (a + b)[i] == a[i];
      match a[i]
      case None => ResponseFoldAppend(a, b, hasErrback, i + 1, x);
      case Some(p) =>
        match p(x)
        case Threw(e) =>
        case Returned(v) =>
          if v.Resp? { ResponseFoldAppend(a, b, hasErrback, i + 1, v); }
          else if !v.Req? { ResponseFoldAppend(a, b, hasErrback, i + 1, x); }
    }
  }

  lemma {:induction false} ResponseFoldShift(a: seq<Option<Hook>>, b: seq<Option<Hook>>, hasErrback: bool, j: nat, x: Value)
    ensures ResponseFold(a + b, hasErrback, |a| + j, x) == ResponseFold(b, hasErrback, j, x)
    decreases |b| - j
  {
    if j < |b| {
      assert (a + b)[|a| + j] == b[j];
      match b[j]
      case None => ResponseFoldShift(a, b, hasErrback, j + 1, x);
      case Some(p) =>
        match p(x)
        case Threw(e) =>
        case Returned(v) =>
          if v.Resp? { ResponseFoldShift(a, b, hasErrback, j + 1, v); }
          else if !v.Req? { ResponseFoldShift(a, b, hasErrback, j + 1, x); }
    }
  }

  /** Hooks that only ever return None leave the response as it came. */
  lemma {:induction false} NoneResultsKeepResponse(chain: seq<Option<Hook>>, hasErrback: bool, i: nat, x: Value)
    requires forall k, v :: i <= k < |chain| && chain[k].Some? ==> chain[k].value(v) == Returned(NoneValue)
    ensures ResponseFold(chain, hasErrback, i, x) == Finished(x)
    decreases |chain| - i
  {
    if i < |chain| {
      NoneResultsKeepResponse(chain, hasErrback, i + 1, x);
    }
  }

  /** A hook that returns a response replaces the current one: the rest of
      the chain runs on the new response. */
  lemma ReturnedResponseReplaces(p: Hook, b: seq<Option<Hook>>, hasErrback: bool, x: Value, y: nat)
    requires p(x) == Returned(Resp(y))
    ensures ResponseFold([Some(p)] + b, hasErrback, 0, x) == ResponseFold(b, hasErrback, 0, Resp(y))
  {
    ResponseFoldAppend([Some(p)], b, hasErrback, 0, x);
    assert ResponseFold([Some(p)], hasErrback, 1, Resp(y)) == Finished(Resp(y));
  }

  // ---------------------------------------------- spider: process_spider_output

  /** Where the scraper argument of the exception chain comes from. */
  datatype ScraperArg = TheScraper | Position(n: nat)

  /** How `process_spider_output` ends: with the current result, or by
      handing the exception to `process_spider_exception`. */
  datatype OutputExit =
    | Output(result: Value)
    | ToSpiderException(exc: Exc, scraper: ScraperArg, startFrom: nat)

  /** The loop of `process_spider_output` from index `i`, with the exit
      carrying the absolute index of the hook that raised. A falsy result
      ends the loop at the next hook; a hook's result that is not a list
      raises InvalidSpiderMiddleware. */
  function OutputFold(chain: seq<Option<Hook>>, i: nat, result: Value): (r: OutputExit)
    ensures r.ToSpiderException? ==> i <= r.startFrom < |chain| && chain[r.startFrom].Some? && r.scraper == TheScraper
    ensures r.Output? && r.result != result ==> r.result.List?
    decreases |chain| - i
  {
    if i >= |chain| then Output(result)
    else match chain[i]
      case None => OutputFold(chain, i + 1, result)
      case Some(p) =>
        if !Truthy(result) then Output(result)
        else
          (match p(result)
           case Threw(e) => ToSpiderException(e, TheScraper, i)
           case Returned(v) =>
             if v.List? then OutputFold(chain, i + 1, v)
             else ToSpiderException(InvalidSpiderMiddleware, TheScraper, i))
  }

  function ShiftOutput(x: OutputExit, n: nat): (r: OutputExit)
    ensures r.Output? <==> x.Output?
    ensures r.ToSpiderException? ==> r.startFrom == x.startFrom + n && r.exc == x.exc && r.scraper == x.scraper
    ensures x.Output? ==> r == x
  {
    match x
    case ToSpiderException(e, s, k) => ToSpiderException(e, s, k + n)
    case Output(_) => x
  }

  /** `process_spider_output` as written: the handler is called as
      `process_spider_exception(response, e, spider, index + 1)`, so the
      position lands in the `scraper` parameter and `start_from` keeps its
      default 0. */
  function ProcessSpiderOutputAsWritten(chain: seq<Option<Hook>>, result: Value, startFrom: nat): (r: OutputExit)
    ensures r.ToSpiderException? ==> r.startFrom == 0 && r.scraper.Position?
    ensures r.ToSpiderException? ==> 0 < r.scraper.n && startFrom + r.scraper.n <= |chain|
  {
    match OutputFold(chain, startFrom, result)
    case ToSpiderException(e, _, k) => ToSpiderException(e, Position(k - startFrom + 1), 0)
    case o => o
  }

  /** `process_spider_output` as intended: the scraper is passed on, and
      the exception chain starts after the middleware that raised. */
  function ProcessSpiderOutput(chain: seq<Option<Hook>>, result: Value, startFrom: nat): (r: OutputExit)
    ensures r.ToSpiderException? ==> startFrom < r.startFrom <= |chain| && r.scraper == TheScraper
    ensures startFrom >= |chain| ==> r == Output(result)
  {
    ShiftOutput(OutputFold(chain, startFrom, result), 1)
  }

  /** An empty (falsy) result stops the chain: no hook is called and the
      result comes back as it was. */
  lemma {:induction false} FalsyResultStops(chain: seq<Option<Hook>>, i: nat, result: Value)
    requires !Truthy(result)
    ensures OutputFold(chain, i, result) == Output(result)
    decreases |chain| - i
  {
    if i < |chain| && chain[i].None? {
      FalsyResultStops(chain, i + 1, result);
    }
  }

  /** The hooks of `b` see the list the hooks of `a` produced; an exception
      in `a` ends the call. */
  lemma {:induction false} OutputFoldAppend(a: seq<Option<Hook>>, b: seq<Option<Hook>>, i: nat, x: Value)
    requires i <= |a|
    ensures var ra := OutputFold(a, i, x);
            OutputFold(a + b, i, x) == if ra.Output? then ShiftOutput(OutputFold(b, 0, ra.result), |a|) else ra
    decreases |a| - i
  {
    if i == |a| {
      OutputFoldShift(a, b, 0, x);
    } else {
      assert (a + b)[i] == a[i];
      match a[i]
      case None => OutputFoldAppend(a, b, i + 1, x);
      case Some(p) =>
        if !Truthy(x) {
          FalsyResultStops(b, 0, x);
        } else {
          match p(x)
          case Threw(e) =>
          case Returned(v) => if v.List? { OutputFoldAppend(a, b, i + 1, v); }
        }
    }
  }

  lemma {:induction false} OutputFoldShift(a: seq<Option<Hook>>, b: seq<Option<Hook>>, j: nat, x: Value)
    ensures OutputFold(a + b, |a| + j, x) == ShiftOutput(OutputFold(b, j, x), |a|)
    decreases |b| - j
  {
    if j < |b| {
      assert (a + b)[|a| + j] == b[j];
      match b[j]
      case None => OutputFoldShift(a, b, j + 1, x);
      case Some(p) =>
        if Truthy(x) {
          match p(x)
          case Threw(e) =>
          case Returned(v) => if v.List? { OutputFoldShift(a, b, j + 1, v); }
        }
    }
  }

  /** The two readings of an exception exit: the as-written call restarts the
      exception chain at the first middleware and passes a number as the
      scraper, wherever the raising hook sits. */
  lemma SpiderOutputDiscrepancy(chain: seq<Option<Hook>>, result: Value, startFrom: nat)
    ensures ProcessSpiderOutputAsWritten(chain, result, startFrom).ToSpiderException?
        <==> ProcessSpiderOutput(chain, result, startFrom).ToSpiderException?
    ensures ProcessSpiderOutput(chain, result, startFrom).ToSpiderException? ==>
      ProcessSpiderOutputAsWritten(chain, result, startFrom) != ProcessSpiderOutput(chain, result, startFrom)
    ensures !ProcessSpiderOutput(chain, result, startFrom).ToSpiderException? ==>
      ProcessSpiderOutputAsWritten(chain, result, startFrom) == ProcessSpiderOutput(chain, result, startFrom)
  {
  }

  // ----------------------------------------------- spider: process_spider_input

  /** How `process_spider_input` ends: the response, after the whole chain
      (`Passed`) or after a hook returned something other than None
      (`Accepted`); the errback's result handed to `process_spider_output`;
      or an exception handed to `process_spider_exception`. */
  datatype InputExit =
    | Passed(response: Value)
    | Accepted(response: Value)
    | ToOutput(result: Value)
    | Escalated(exc: Exc)

  /** The loop of `process_spider_input` from index `i`. When a hook raises,
      the request's errback (when there is one) is called with the
      exception; its result goes to the output chain, and an exception it
      raises, or the hook's own without an errback, to the exception chain. */
  function InputFold(chain: seq<Option<Hook>>, errback: Option<Exc -> Outcome>, i: nat, response: Value)
    : (r: InputExit)
    ensures r.Passed? || r.Accepted? ==> r.response == response
    ensures r.ToOutput? ==> errback.Some?
    decreases |chain| - i
  {
    if i >= |chain| then Passed(response)
    else match chain[i]
      case None => InputFold(chain, errback, i + 1, response)
      case Some(p) =>
        (match p(response)
         case Returned(v) => if v.NoneValue? then InputFold(chain, errback, i + 1, response) else Accepted(response)
         case Threw(e) =>
           (match errback
            case None => Escalated(e)
            case Some(eb) =>
              (match eb(e)
               case Returned(v) => ToOutput(v)
               case Threw(e2) => Escalated(e2))))
  }

  function ProcessSpiderInput(chain: seq<Option<Hook>>, errback: Option<Exc -> Outcome>, response: nat, startFrom: nat)
    : (r: InputExit)
    ensures r.Passed? || r.Accepted? ==> r.response == Resp(response)
    ensures startFrom >= |chain| ==> r == Passed(Resp(response))
  {
    InputFold(chain, errback, startFrom, Resp(response))
  }

  /** When no hook raises, the call returns the response it was given. */
  lemma {:induction false} NoRaiseReturnsResponse(chain: seq<Option<Hook>>, errback: Option<Exc -> Outcome>, i: nat, response: Value)
    requires forall k :: i <= k < |chain| && chain[k].Some? ==> chain[k].value(response).Returned?
    ensures InputFold(chain, errback, i, response).Passed? || InputFold(chain, errback, i, response).Accepted?
    ensures InputFold(chain, errback, i, response).response == response
    decreases |chain| - i
  {
    if i < |chain| {
      NoRaiseReturnsResponse(chain, errback, i + 1, response);
    }
  }

  /** The hooks of `b` run only when every hook of `a` returned None; a
      hook that returns anything else ends the chain. */
  lemma {:induction false} InputFoldAppend(a: seq<Option<Hook>>, b: seq<Option<Hook>>, errback: Option<Exc -> Outcome>, i: nat, x: Value)
    requires i <= |a|
    ensures var ra := InputFold(a, errback, i, x);
            InputFold(a + b, errback, i, x) == if ra.Passed? then InputFold(b, errback, 0, x) else ra
    decreases |a| - i
  {
    if i == |a| {
      InputFoldShift(a, b, errback, 0, x);
    } else {
      assert (a + b)[i] == a[i];
      match a[i]
      case None => InputFoldAppend(a, b, errback, i + 1, x);
      case Some(p) =>
        if p(x) == Returned(NoneValue) { InputFoldAppend(a, b, errback, i + 1, x); }
    }
  }

  lemma {:induction false} InputFoldShift(a: seq<Option<Hook>>, b: seq<Option<Hook>>, errback: Option<Exc -> Outcome>, j: nat, x: Value)
    ensures InputFold(a + b, errback, |a| + j, x) == InputFold(b, errback, j, x)
    decreases |b| - j
  {
    if j < |b| {
      assert (a + b)[|a| + j] == b[j];
      match b[j]
      case None => InputFoldShift(a, b, errback, j + 1, x);
      case Some(p) =>
        if p(x) == Returned(NoneValue) { InputFoldShift(a, b, errback, j + 1, x); }
    }
  }
}

=== FILE: odict.dfy ===
/** Python's insertion-ordered `dict`, as a sequence of key/value entries
    whose keys are distinct: assigning to a present key keeps its position,
    a new key goes last, and iteration follows the sequence. */
module OrderedDicts {
  import opened Wrappers

  type Entries<K, V> = seq<(K, V)>

  predicate DistinctKeys<K(==), V>(d: Entries<K, V>) {
    forall i, j :: 0 <= i < j < |d| ==> d[i].0 != d[j].0
  }

  predicate HasKey<K(==), V>(d: Entries<K, V>, k: K) {
    exists i :: 0 <= i < |d| && d[i].0 == k
  }

  /** `d.get(k)`: the value of the first entry with key `k`. */
  function Get<K(==), V>(d: Entries<K, V>, k: K): (r: Option<V>)
    ensures r.None? <==> !HasKey(d, k)
    ensures r.Some? ==> exists i :: 0 <= i < |d| && d[i] == (k, r.value)
    ensures forall i :: 0 <= i < |d| && d[i].0 == k && DistinctKeys(d) ==> r == Some(d[i].1)
  {
    if |d| == 0 then None
    else if d[0].0 == k then Some(d[0].1)
    else
      var r := Get(d[1..], k);
      assert forall i :: 1 <= i < |d| ==> d[i] == d[1..][i - 1];
      r
  }

  /** `d[k] = v`. */
  function Put<K(==), V>(d: Entries<K, V>, k: K, v: V): (r: Entries<K, V>)
    ensures |r| == if HasKey(d, k) then |d| else |d| + 1
    ensures HasKey(d, k) ==> forall i :: 0 <= i < |d| ==> r[i] == (if d[i].0 == k then (k, v) else d[i])
    ensures !HasKey(d, k) ==> r == d + [(k, v)]
    ensures DistinctKeys(d) ==> DistinctKeys(r)
  {
    if HasKey(d, k) then seq(|d|, i requires 0 <= i < |d| => if d[i].0 == k then (k, v) else d[i])
    else d + [(k, v)]
  }

  /** The value of the last entry of `e` with key `k`, if any. */
  function LastValue<K(==), V>(e: Entries<K, V>, k: K): (r: Option<V>)
    ensures r.None? <==> !HasKey(e, k)
    decreases |e|
  {
    if |e| == 0 then None
    else
      var rest := LastValue(e[1..], k);
      assert forall i :: 1 <= i < |e| ==> e[i] == e[1..][i - 1];
      if rest.Some? then rest else if e[0].0 == k then Some(e[0].1) else None
  }

  /** `d.update(e)`: every entry of `e`, in order, assigned into `d`; a key
      of `e` then reads its last value in `e`, and any other key reads as
      in `d`. */
  function Update<K(==,!new), V>(d: Entries<K, V>, e: Entries<K, V>): (r: Entries<K, V>)
    ensures DistinctKeys(d) ==> DistinctKeys(r)
    ensures DistinctKeys(d) ==> forall k :: Get(r, k) == if HasKey(e, k) then LastValue(e, k) else Get(d, k)
    decreases |e|
  {
    if |e| == 0 then d
    else
      var d' := Put(d, e[0].0, e[0].1);
      PutThenGetAll(d, e[0].0, e[0].1);
      assert forall k :: HasKey(e[1..], k) ==> HasKey(e, k) by {
        assert forall i :: 0 <= i < |e[1..]| ==> e[1..][i] == e[i + 1];
      }
      Update(d', e[1..])
  }

  function Keys<K(==), V>(d: Entries<K, V>): (ks: seq<K>)
    ensures |ks| == |d| && forall i :: 0 <= i < |d| ==> ks[i] == d[i].0
  {
    seq(|d|, i requires 0 <= i < |d| => d[i].0)
  }

  function Values<K(==), V>(d: Entries<K, V>): (vs: seq<V>)
    ensures |vs| == |d| && forall i :: 0 <= i < |d| ==> vs[i] == d[i].1
  {
    seq(|d|, i requires 0 <= i < |d| => d[i].1)
  }

  /** Assigning into a dict and reading back gives the value assigned;
      other keys read as before. */
  lemma PutThenGet<K, V>(d: Entries<K, V>, k: K, v: V, k': K)
    requires DistinctKeys(d)
    ensures Get(Put(d, k, v), k') == if k' == k then Some(v) else Get(d, k')
  {
    var r := Put(d, k, v);
    if k' == k {
      var i :| 0 <= i < |r| && r[i].0 == k by {
        if HasKey(d, k) {
          var j :| 0 <= j < |d| && d[j].0 == k;
          assert r[j].0 == k;
        } else {
          assert r[|d|].0 == k;
        }
      }
    } else if HasKey(d, k') {
      var j :| 0 <= j < |d| && d[j].0 == k';
      assert r[j] == d[j];
    }
  }

  /** `PutThenGet` for every key at once. */
  lemma PutThenGetAll<K, V>(d: Entries<K, V>, k: K, v: V)
    ensures DistinctKeys(d) ==> forall k' :: Get(Put(d, k, v), k') == if k' == k then Some(v) else Get(d, k')
  {
    if DistinctKeys(d) {
      forall k' ensures Get(Put(d, k, v), k') == if k' == k then Some(v) else Get(d, k') {
        PutThenGet(d, k, v, k');
      }
    }
  }

  /** Assigning a key the value it already has changes nothing. */
  lemma PutPresent<K, V>(d: Entries<K, V>, k: K, v: V)
    requires DistinctKeys(d) && Get(d, k) == Some(v)
    ensures Put(d, k, v) == d
  {
    var r := Put(d, k, v);
    assert HasKey(d, k);
    forall i | 0 <= i < |d| ensures r[i] == d[i] {
      if d[i].0 == k {
        assert Get(d, k) == Some(d[i].1);
      }
    }
  }

  /** Assigning into an empty dict, and then into a one-entry dict. */
  lemma PutSmall<K, V>(k: K, v: V, k2: K, v2: V)
    ensures Put([], k, v) == [(k, v)]
    ensures Put([(k, v)], k2, v2) == if k == k2 then [(k2, v2)] else [(k, v), (k2, v2)]
  {
    var d := [(k, v)];
    if k == k2 {
      assert d[0].0 == k2;
    } else {
      assert !HasKey([(k, v)], k2);
    }
  }

  /** Assigning into a two-entry dict under its second key. */
  lemma PutSecond<K, V>(k: K, v: V, k2: K, v2: V, v3: V)
    requires k != k2
    ensures Put([(k, v), (k2, v2)], k2, v3) == [(k, v), (k2, v3)]
  {
    var d := [(k, v), (k2, v2)];
    assert d[1].0 == k2;
  }
}

=== FILE: pyvalue.dfy ===
/** The Python values that items, rules and the dict helpers look at: just
    enough of Python's object model to state `isinstance` checks and
    truthiness. */
module PyValues {

  datatype PyValue =
    | NoneValue
    | BoolV(b: bool)                      // `bool` is a subclass of `int`
    | IntV(i: int)
    | StrV(s: string)
    | BytesV(bytes: seq<nat>)
    | ByteArrayV(bytes: seq<nat>)
    | ListV(items: seq<PyValue>)
    | DictV(entries: map<string, PyValue>)
    | DictWrapper(entries: map<string, PyValue>) // an `araneid.util.dict.Dict` around a dict
    | OtherV(truthy: bool)                // any other object, with its `__bool__`

  /** Python truthiness: None, False, zero and empty containers are false;
      a `Dict` wrapper defines no `__bool__` or `__len__`, so it is true. */
  predicate Truthy(v: PyValue) {
    match v
    case NoneValue => false
    case BoolV(b) => b
    case IntV(i) => i != 0
    case StrV(s) => |s| > 0
    case BytesV(bs) => |bs| > 0
    case ByteArrayV(bs) => |bs| > 0
    case ListV(xs) => |xs| > 0
    case DictV(m) => |m| > 0
    case DictWrapper(_) => true
    case OtherV(t) => t
  }

  /** `isinstance(v, int)`, which holds for booleans too. */
  predicate IsInt(v: PyValue) {
    v.IntV? || v.BoolV?
  }

  /** `isinstance(v, (str, bytes, bytearray))`. */
  predicate IsText(v: PyValue) {
    v.StrV? || v.BytesV? || v.ByteArrayV?
  }

  /** The number a boolean or an integer stands for. */
  function Number(v: PyValue): int
    requires IsInt(v)
  {
    if v.BoolV? then (if v.b then 1 else 0) else v.i
  }

  /** Python's `==` on these values: booleans equal the integers 0 and 1,
      `bytes` equals a `bytearray` of the same contents, lists and dicts
      compare element by element, and everything else by value. */
  predicate PyEq(a: PyValue, b: PyValue)
    decreases a
  {
    if IsInt(a) && IsInt(b) then Number(a) == Number(b)
    else if (a.BytesV? || a.ByteArrayV?) && (b.BytesV? || b.ByteArrayV?) then a.bytes == b.bytes
    else if a.ListV? && b.ListV? then
      |a.items| == |b.items| && forall i :: 0 <= i < |a.items| ==> PyEq(a.items[i], b.items[i])
    else if a.DictV? && b.DictV? then
      a.entries.Keys == b.entries.Keys && forall k :: k in a.entries ==> PyEq(a.entries[k], b.entries[k])
    else a == b
  }

  /** Every value equals itself. */
  lemma {:induction false} PyEqReflexive(a: PyValue)
    ensures PyEq(a, a)
    decreases a
  {
    match a
    case ListV(xs) =>
      forall i | 0 <= i < |xs| ensures PyEq(xs[i], xs[i]) {
        PyEqReflexive(xs[i]);
      }
    case DictV(m) =>
      forall k | k in m ensures PyEq(m[k], m[k]) {
        PyEqReflexive(m[k]);
      }
    case _ =>
  }

  /** Equality does not depend on the side. */
  lemma {:induction false} PyEqSymmetric(a: PyValue, b: PyValue)
    requires PyEq(a, b)
    ensures PyEq(b, a)
    decreases a
  {
    if a.ListV? && b.ListV? {
      forall i | 0 <= i < |b.items| ensures PyEq(b.items[i], a.items[i]) {
        PyEqSymmetric(a.items[i], b.items[i]);
      }
    } else if a.DictV? && b.DictV? {
      forall k | k in b.entries ensures PyEq(b.entries[k], a.entries[k]) {
        PyEqSymmetric(a.entries[k], b.entries[k]);
      }
    }
  }

  /** `True == 1`: booleans are integers. */
  lemma TrueIsOne()
    ensures PyEq(BoolV(true), IntV(1)) && BoolV(true) != IntV(1)
  {
  }
}

=== FILE: route.dfy ===
/** Routing (araneid/spider/route.py and araneid/spider/routes/
    LocalSpiderRouter.py): a route table maps rule objects to starters and
    parsers in insertion order, and a lookup returns the target of the first
    rule that matches the key. The local router registers a name rule per
    starter and per parser, plus one rule per URL and per regex of a
    parser. */
module Routes {
  import opened Wrappers

  /** What a rule matches: a name or a URL by equality, or a regex. */
  datatype RuleKind = NameRule(name: string) | UrlRule(url: string) | RegexRule(regex: string)

  /** A rule object. Rules are dict keys compared by identity, which
      `serial` stands for. */
  datatype Rule = Rule(serial: nat, kind: RuleKind)

  /** A route target: a parser with its URLs and regexes (None is the empty
      list), or a starter. Both are always truthy. */
  datatype Target = ParserTarget(name: string, urls: seq<string>, regexes: seq<string>) | StarterTarget(name: string)

  /** `re.match(regex, s) is not None`, which the model does not compute. */
  type RegexMatcher = (string, string) -> bool

  /** `match` of the three rule classes. */
  predicate Matches(rule: Rule, key: string, reMatch: RegexMatcher) {
    match rule.kind
    case NameRule(n) => n == key
    case UrlRule(u) => u == key
    case RegexRule(re) => reMatch(re, key)
  }

  datatype Entry = Entry(rule: Rule, target: Target)

  /** The table's dict, in insertion order. */
  type Table = seq<Entry>

  /** Where a rule object already sits in the table. */
  function IndexOf(t: Table, rule: Rule): (r: Option<nat>)
    ensures r.Some? ==> r.value < |t| && t[r.value].rule == rule
    ensures r.None? <==> forall i :: 0 <= i < |t| ==> t[i].rule != rule
    decreases |t|
  {
    if |t| == 0 then None
    else if t[|t| - 1].rule == rule then Some(|t| - 1)
    else IndexOf(t[..|t| - 1], rule)
  }

  /** `__setitem__`: a rule object already in the table keeps its place and
      gets the new target; a new one is added at the end. */
  function SetItem(t: Table, rule: Rule, target: Target): (r: Table)
    ensures IndexOf(t, rule).None? ==> r == t + [Entry(rule, target)]
    ensures IndexOf(t, rule).Some? ==> |r| == |t| && r == t[IndexOf(t, rule).value := Entry(rule, target)]
  {
    match IndexOf(t, rule)
    case None => t + [Entry(rule, target)]
    case Some(i) => t[i := Entry(rule, target)]
  }

  /** The position of the first rule that matches the key. */
  function FirstMatch(t: Table, key: string, reMatch: RegexMatcher, from: nat): (r: Option<nat>)
    requires from <= |t|
    ensures r.Some? ==> from <= r.value < |t| && Matches(t[r.value].rule, key, reMatch)
    ensures r.Some? ==> forall j :: from <= j < r.value ==> !Matches(t[j].rule, key, reMatch)
    ensures r.None? ==> forall j :: from <= j < |t| ==> !Matches(t[j].rule, key, reMatch)
    decreases |t| - from
  {
    if from == |t| then None
    else if Matches(t[from].rule, key, reMatch) then Some(from)
    else FirstMatch(t, key, reMatch, from + 1)
  }

  /** `__getitem__` (and `get`, which calls it): the target of the first
      matching rule in insertion order, or None. */
  function GetItem(t: Table, key: string, reMatch: RegexMatcher): (r: Option<Target>)
    ensures r.Some? ==> exists i :: 0 <= i < |t| && Matches(t[i].rule, key, reMatch) && t[i].target == r.value
                                  && forall j :: 0 <= j < i ==> !Matches(t[j].rule, key, reMatch)
    ensures r.None? <==> forall i :: 0 <= i < |t| ==> !Matches(t[i].rule, key, reMatch)
  {
    match FirstMatch(t, key, reMatch, 0)
    case None => None
    case Some(i) => Some(t[i].target)
  }

  /** Rules added later never shadow a key that already resolves, and a key
      that did not resolve resolves through the added rules. */
  lemma {:induction false} AppendKeepsEarlierRoutes(t: Table, more: Table, key: string, reMatch: RegexMatcher)
    ensures GetItem(t + more, key, reMatch) ==
      if GetItem(t, key, reMatch).Some? then GetItem(t, key, reMatch) else GetItem(more, key, reMatch)
  {
    var all := t + more;
    assert forall i :: 0 <= i < |t| ==> all[i] == t[i];
    assert forall i :: 0 <= i < |more| ==> all[|t| + i] == more[i];
    match FirstMatch(t, key, reMatch, 0)
    case Some(i) =>
      FirstMatchAt(all, key, reMatch, i);
    case None =>
      match FirstMatch(more, key, reMatch, 0)
      case Some(i) =>
        FirstMatchAt(all, key, reMatch, |t| + i);
      case None =>
        assert forall j :: 0 <= j < |all| ==> !Matches(all[j].rule, key, reMatch) by {
          forall j | 0 <= j < |all| ensures !Matches(all[j].rule, key, reMatch) {
            if j >= |t| { assert all[j] == more[j - |t|]; }
          }
        }
  }

  /** A matching rule with no match before it is the first match. */
  lemma FirstMatchAt(t: Table, key: string, reMatch: RegexMatcher, i: nat)
    requires i < |t| && Matches(t[i].rule, key, reMatch)
    requires forall j :: 0 <= j < i ==> !Matches(t[j].rule, key, reMatch)
    ensures GetItem(t, key, reMatch) == Some(t[i].target)
  {
  }

  /** In a table whose every rule leads to the same target, a key that
      some rule matches resolves to that target. */
  lemma UniformTargetResolves(t: Table, target: Target, key: string, reMatch: RegexMatcher, k: nat)
    requires k < |t| && Matches(t[k].rule, key, reMatch)
    requires forall i :: 0 <= i < |t| ==> t[i].target == target
    ensures GetItem(t, key, reMatch) == Some(target)
  {
  }

  // ---------------------------------------------------- LocalSpiderRouter

  /** The router's table, with the identity the next rule object gets. */
  datatype Router = Router(table: Table, nextSerial: nat)

  /** Every rule object in the table was made before `nextSerial`. */
  predicate Valid(r: Router) {
    forall i :: 0 <= i < |r.table| ==> r.table[i].rule.serial < r.nextSerial
  }

  function New(): (r: Router)
    ensures Valid(r) && r.table == []
  {
    Router([], 0)
  }

  /** Register a fresh rule object: it is new to the table, so it goes at
      the end. */
  function AddRule(r: Router, kind: RuleKind, target: Target): (r': Router)
    requires Valid(r)
    ensures Valid(r') && r'.table == r.table + [Entry(Rule(r.nextSerial, kind), target)]
  {
    var rule := Rule(r.nextSerial, kind);
    assert IndexOf(r.table, rule).None?;
    Router(SetItem(r.table, rule, target), r.nextSerial + 1)
  }

  /** One fresh rule per key, in order. */
  function AddRules(r: Router, kinds: seq<RuleKind>, target: Target): (r': Router)
    requires Valid(r)
    ensures Valid(r') && |r'.table| == |r.table| + |kinds|
    ensures r'.table[..|r.table|] == r.table
    ensures forall j :: |r.table| <= j < |r'.table| ==>
      (r'.table[j].rule.kind == kinds[j - |r.table|] && r'.table[j].target == target)
    decreases |kinds|
  {
    if |kinds| == 0 then r
    else
      var next := AddRules(AddRule(r, kinds[0], target), kinds[1..], target);
      assert forall i :: 1 <= i < |kinds| ==> kinds[1..][i - 1] == kinds[i];
      next
  }

  function UrlRules(urls: seq<string>): (ks: seq<RuleKind>)
    ensures |ks| == |urls| && forall i :: 0 <= i < |urls| ==> ks[i] == UrlRule(urls[i])
  {
    seq(|urls|, i requires 0 <= i < |urls| => UrlRule(urls[i]))
  }

  function RegexRules(regexes: seq<string>): (ks: seq<RuleKind>)
    ensures |ks| == |regexes| && forall i :: 0 <= i < |regexes| ==> ks[i] == RegexRule(regexes[i])
  {
    seq(|regexes|, i requires 0 <= i < |regexes| => RegexRule(regexes[i]))
  }

  /** `add_starter_route`: a name rule 'starter.' + rule. */
  function AddStarterRoute(r: Router, rule: string, target: Target): (r': Router)
    requires Valid(r)
    ensures Valid(r') && |r'.table| == |r.table| + 1 && r'.table[..|r.table|] == r.table
    ensures r'.table[|r.table|].rule.kind == NameRule("starter." + rule) && r'.table[|r.table|].target == target
  {
    AddRule(r, NameRule("starter." + rule), target)
  }

  /** The rules `add_parser_route` registers: the 'parser.' name rule, and
      for a parser one URL rule per URL and one regex rule per regex. */
  function ParserRuleKinds(rule: string, target: Target): (ks: seq<RuleKind>)
    ensures |ks| >= 1 && ks[0] == NameRule("parser." + rule)
    ensures target.StarterTarget? ==> ks == [NameRule("parser." + rule)]
    ensures target.ParserTarget? ==> |ks| == 1 + |target.urls| + |target.regexes|
    ensures target.ParserTarget? ==> forall i :: 0 <= i < |target.urls| ==> ks[1 + i] == UrlRule(target.urls[i])
    ensures target.ParserTarget? ==> forall i :: 0 <= i < |target.regexes| ==>
      ks[1 + |target.urls| + i] == RegexRule(target.regexes[i])
  {
    if target.ParserTarget? then [NameRule("parser." + rule)] + UrlRules(target.urls) + RegexRules(target.regexes)
    else [NameRule("parser." + rule)]
  }

  /** `add_parser_route`. */
  function AddParserRoute(r: Router, rule: string, target: Target): (r': Router)
    requires Valid(r)
    ensures Valid(r') && |r'.table| == |r.table| + |ParserRuleKinds(rule, target)|
    ensures r'.table[..|r.table|] == r.table
    ensures forall j :: |r.table| <= j < |r'.table| ==>
      (r'.table[j].rule.kind == ParserRuleKinds(rule, target)[j - |r.table|] && r'.table[j].target == target)
  {
    AddRules(r, ParserRuleKinds(rule, target), target)
  }

  /** The position of a rule `add_parser_route` registers for its name
      or for one of its URLs. */
  lemma ParserRuleFor(rule: string, target: Target, key: string) returns (k: nat)
    requires key == "parser." + rule || (target.ParserTarget? && key in target.urls)
    ensures k < |ParserRuleKinds(rule, target)|
    ensures ParserRuleKinds(rule, target)[k] == NameRule(key) || ParserRuleKinds(rule, target)[k] == UrlRule(key)
  {
    if key == "parser." + rule {
      k := 0;
    } else {
      var u :| 0 <= u < |target.urls| && target.urls[u] == key;
      k := 1 + u;
    }
  }

  /** After `add_parser_route`, the parser's name and each of its URLs
      resolve: to an earlier route of the same key if there is one, else to
      the parser. */
  lemma ParserRouteResolves(r: Router, rule: string, target: Target, key: string, reMatch: RegexMatcher)
    requires Valid(r)
    requires key == "parser." + rule || (target.ParserTarget? && key in target.urls)
    ensures var after := AddParserRoute(r, rule, target).table;
            GetItem(after, key, reMatch) ==
              if GetItem(r.table, key, reMatch).Some? then GetItem(r.table, key, reMatch) else Some(target)
  {
    var after := AddParserRoute(r, rule, target).table;
    var kinds := ParserRuleKinds(rule, target);
    var n := |r.table|;
    var more := after[n..];
    assert |more| == |kinds|;
    assert after == after[..n] + more && after[..n] == r.table;
    var k := ParserRuleFor(rule, target, key);
    assert more[k] == after[n + k] && after[n + k].rule.kind == kinds[k];
    forall i | 0 <= i < |more| ensures more[i].target == target {
      assert more[i] == after[n + i];
    }
    AppendUniformRoutes(r.table, more, target, key, reMatch, k);
  }

  /** Rules that all lead to one target, appended to a table: a key one of
      them matches resolves to that target unless it already resolved. */
  lemma AppendUniformRoutes(t: Table, more: Table, target: Target, key: string, reMatch: RegexMatcher, k: nat)
    requires k < |more| && (more[k].rule.kind == NameRule(key) || more[k].rule.kind == UrlRule(key))
    requires forall i :: 0 <= i < |more| ==> more[i].target == target
    ensures GetItem(t + more, key, reMatch) ==
      if GetItem(t, key, reMatch).Some? then GetItem(t, key, reMatch) else Some(target)
  {
    AppendKeepsEarlierRoutes(t, more, key, reMatch);
    UniformTargetResolves(more, target, key, reMatch, k);
  }

  /** After `add_starter_route`, 'starter.' + rule resolves to an earlier
      route of that key if there is one, else to the starter. */
  lemma StarterRouteResolves(r: Router, rule: string, target: Target, reMatch: RegexMatcher)
    requires Valid(r)
    ensures var after := AddStarterRoute(r, rule, target).table;
            GetItem(after, "starter." + rule, reMatch) ==
              if GetItem(r.table, "starter." + rule, reMatch).Some? then GetItem(r.table, "starter." + rule, reMatch)
              else Some(target)
  {
    var after := AddStarterRoute(r, rule, target).table;
    assert after == r.table + [after[|r.table|]];
    AppendKeepsEarlierRoutes(r.table, [after[|r.table|]], "starter." + rule, reMatch);
    FirstMatchAt([after[|r.table|]], "starter." + rule, reMatch, 0);
  }

  /** `starter_route` and `parser_route`, which have the same body: the
      target of the first key in the list that resolves; None for an empty
      list or when none resolves. */
  function RouteFirst(r: Router, rules: seq<string>, reMatch: RegexMatcher): (t: Option<Target>)
    ensures |rules| == 0 ==> t.None?
    ensures t.Some? ==> exists i :: 0 <= i < |rules| && GetItem(r.table, rules[i], reMatch) == t
                                  && forall j :: 0 <= j < i ==> GetItem(r.table, rules[j], reMatch).None?
    ensures t.None? <==> forall i :: 0 <= i < |rules| ==> GetItem(r.table, rules[i], reMatch).None?
    decreases |rules|
  {
    if |rules| == 0 then None
    else
      var target := GetItem(r.table, rules[0], reMatch);
      if target.Some? then target
      else
        var rest := RouteFirst(r, rules[1..], reMatch);
        assert forall i :: 1 <= i < |rules| ==> rules[1..][i - 1] == rules[i];
        rest
  }
}

=== FILE: rule.dfy ===
/** Rules and rule groups (araneid/data/check/rule.py): `a | b` collects
    rules into a `RuleGroup`, a dict from class name to rule; a group's
    name joins its keys with '|', and its check reports the first error in
    insertion order. */
module Rules {
  import opened Wrappers
  import opened OrderedDicts
  import Is
  import Items
  import PyValues

  datatype Rule = Basic(kind: Is.Kind) | Group(rules: Entries<string, Rule>)

  /** `other.__class__.__name__`, the key a rule is stored under. */
  function ClassKey(r: Rule): string {
    if r.Basic? then Is.ClassName(r.kind) else "RuleGroup"
  }

  /** Strings joined with '|'. */
  function JoinBar(ks: seq<string>): string
    decreases |ks|
  {
    if |ks| == 0 then "" else if |ks| == 1 then ks[0] else ks[0] + "|" + JoinBar(ks[1..])
  }

  /** The `name` property: a rule's class name; a group's keys joined with '|'. */
  function Name(r: Rule): string {
    if r.Basic? then Is.ClassName(r.kind) else JoinBar(Keys(r.rules))
  }

  /** `a == b`, which runs `a`'s `__eq__`: a rule equals any rule of the
      same name, a group only a group of the same name. */
  predicate RuleEq(a: Rule, b: Rule) {
    if a.Group? then b.Group? && Name(a) == Name(b) else Name(a) == Name(b)
  }

  /** Equality is not symmetric: a rule equals the group holding just that
      rule, but the group does not equal the rule. */
  lemma EqualityIsOneSided(k: Is.Kind)
    ensures var g := Group([(Is.ClassName(k), Basic(k))]);
            RuleEq(Basic(k), g) && !RuleEq(g, Basic(k))
  {
  }

  /** The first error of a sequence of check results. */
  function FirstError(results: seq<Option<string>>): (r: Option<string>)
    ensures r.None? <==> forall i :: 0 <= i < |results| ==> results[i].None?
    ensures r.Some? ==> exists i :: 0 <= i < |results| && results[i] == r &&
                          forall j :: 0 <= j < i ==> results[j].None?
  {
    if |results| == 0 then None
    else if results[0].Some? then results[0]
    else
      var r := FirstError(results[1..]);
      assert forall i :: 1 <= i < |results| ==> results[i] == results[1..][i - 1];
      r
  }

  /** `check`: a rule checks the subject itself; a group checks with each of
      its rules in insertion order and stops at the first error. */
  function Check(r: Rule, s: Is.Subject): (c: Option<string>)
    decreases r
  {
    match r
    case Basic(k) => Is.Check(k, s)
    case Group(es) => FirstError(seq(|es|, i requires 0 <= i < |es| => Check(es[i].1, s)))
  }

  /** A group passes exactly when each of its rules passes, and otherwise
      reports the error of the first rule that fails. */
  lemma GroupCheck(es: Entries<string, Rule>, s: Is.Subject)
    ensures Check(Group(es), s).None? <==> forall i :: 0 <= i < |es| ==> Check(es[i].1, s).None?
    ensures Check(Group(es), s).Some? ==>
      exists i :: 0 <= i < |es| && Check(es[i].1, s) == Check(Group(es), s) &&
        forall j :: 0 <= j < i ==> Check(es[j].1, s).None?
  {
    var results := seq(|es|, i requires 0 <= i < |es| => Check(es[i].1, s));
    assert forall i :: 0 <= i < |es| ==> results[i] == Check(es[i].1, s);
  }

  /** A group whose first rule fails reports that rule's error. */
  lemma FirstRuleFails(es: Entries<string, Rule>, s: Is.Subject)
    requires |es| > 0 && Check(es[0].1, s).Some?
    ensures Check(Group(es), s) == Check(es[0].1, s)
  {
    var results := seq(|es|, i requires 0 <= i < |es| => Check(es[i].1, s));
    assert results[0] == Check(es[0].1, s);
  }

  /** `RuleGroup.__or__` as written: since a group is itself a `Rule`, every
      operand, group or not, is stored under its class name. */
  function GroupOrAsWritten(es: Entries<string, Rule>, other: Rule): (r: Entries<string, Rule>)
    ensures Get(r, ClassKey(other)) == Some(other)
    ensures DistinctKeys(es) ==> DistinctKeys(r)
  {
    var r := Put(es, ClassKey(other), other);
    assert HasKey(r, ClassKey(other)) by {
      if HasKey(es, ClassKey(other)) {
        var i :| 0 <= i < |es| && es[i].0 == ClassKey(other);
        assert r[i].0 == ClassKey(other);
      } else {
        assert r[|es|].0 == ClassKey(other);
      }
    }
    r
  }

  /** `a | b` as written: `Rule.__or__` starts an empty group and adds both
      operands; a group on the left adds the right operand to itself. */
  function OrAsWritten(a: Rule, b: Rule): (r: Rule)
    requires a.Group? ==> DistinctKeys(a.rules)
    ensures r.Group? && DistinctKeys(r.rules)
    ensures Get(r.rules, ClassKey(b)) == Some(b)
  {
    if a.Group? then Group(GroupOrAsWritten(a.rules, b))
    else Group(GroupOrAsWritten(GroupOrAsWritten([], a), b))
  }

  /** Adding a rule a second time changes nothing. */
  lemma OrAsWrittenTwice(a: Rule, b: Rule)
    requires a.Group? ==> DistinctKeys(a.rules)
    ensures OrAsWritten(OrAsWritten(a, b), b) == OrAsWritten(a, b)
  {
    var g := OrAsWritten(a, b);
    PutPresent(g.rules, ClassKey(b), b);
  }

  /** Two different single rules combined: a group holding both under
      their class names. */
  lemma PairAsWritten(x: Is.Kind, y: Is.Kind)
    requires x != y
    ensures OrAsWritten(Basic(x), Basic(y)) == Group([(Is.ClassName(x), Basic(x)), (Is.ClassName(y), Basic(y))])
  {
    Is.ClassNameInjective(x, y);
    PutSmall(Is.ClassName(x), Basic(x), Is.ClassName(y), Basic(y));
  }

  /** `NotEmpty | g1 | g2` for two groups: the first group is stored under
      'RuleGroup' and the second replaces it there. */
  lemma SecondGroupReplacesFirst(g1: Rule, g2: Rule)
    requires g1.Group? && g2.Group?
    ensures OrAsWritten(OrAsWritten(Basic(Is.NotEmptyRule), g1), g2).rules
         == [("NotEmptyRule", Basic(Is.NotEmptyRule)), ("RuleGroup", g2)]
  {
    PutSmall("NotEmptyRule", Basic(Is.NotEmptyRule), "RuleGroup", g1);
    PutSecond("NotEmptyRule", Basic(Is.NotEmptyRule), "RuleGroup", g1, g2);
  }

  /** A field named 'name' holding a string. */
  function StringField(): Is.Subject {
    Is.OfField(Items.Field(Some("name"), Items.STRING, PyValues.StrV("x"), false, ""))
  }

  /** `Int | Dict` rejects a string. */
  lemma IntDictRejectsString()
    ensures Check(OrAsWritten(Basic(Is.IntRule), Basic(Is.DictRule)), StringField()).Some?
  {
    PairAsWritten(Is.IntRule, Is.DictRule);
    var es := [(Is.ClassName(Is.IntRule), Basic(Is.IntRule)), (Is.ClassName(Is.DictRule), Basic(Is.DictRule))];
    assert Check(es[0].1, StringField()).Some?;
    GroupCheck(es, StringField());
  }

  /** The name of `NotEmpty | g1 | g2` for two groups. */
  lemma SecondGroupName(g1: Rule, g2: Rule)
    requires g1.Group? && g2.Group?
    ensures Name(OrAsWritten(OrAsWritten(Basic(Is.NotEmptyRule), g1), g2)) == "NotEmptyRule|RuleGroup"
  {
    SecondGroupReplacesFirst(g1, g2);
    var ks := ["NotEmptyRule", "RuleGroup"];
    assert Keys([("NotEmptyRule", Basic(Is.NotEmptyRule)), ("RuleGroup", g2)]) == ks;
    assert ks[1..] == ["RuleGroup"];
    assert JoinBar(ks) == "NotEmptyRule" + "|" + "RuleGroup";
  }

  /** `NotEmpty | g1 | (String | Text)` accepts a string, whatever `g1` is. */
  lemma StringTextAcceptsString(g1: Rule)
    requires g1.Group?
    ensures var g2 := OrAsWritten(Basic(Is.StringRule), Basic(Is.TextRule));
            Check(OrAsWritten(OrAsWritten(Basic(Is.NotEmptyRule), g1), g2), StringField()).None?
  {
    var g2 := OrAsWritten(Basic(Is.StringRule), Basic(Is.TextRule));
    PairAsWritten(Is.StringRule, Is.TextRule);
    SecondGroupReplacesFirst(g1, g2);
    GroupCheck(g2.rules, StringField());
    GroupCheck([("NotEmptyRule", Basic(Is.NotEmptyRule)), ("RuleGroup", g2)], StringField());
  }

  /** `NotEmpty | (Int | Dict) | (String | Text)`: the group `Int | Dict`
      is lost, so a string value that the Int rule rejects passes the
      combined rule, whose name mentions no rule of either group. */
  lemma OrDropsGroup()
    ensures var g1 := OrAsWritten(Basic(Is.IntRule), Basic(Is.DictRule));
            var g2 := OrAsWritten(Basic(Is.StringRule), Basic(Is.TextRule));
            var combined := OrAsWritten(OrAsWritten(Basic(Is.NotEmptyRule), g1), g2);
            Name(combined) == "NotEmptyRule|RuleGroup" &&
            Check(g1, StringField()).Some? && Check(combined, StringField()).None?
  {
    var g1 := OrAsWritten(Basic(Is.IntRule), Basic(Is.DictRule));
    var g2 := OrAsWritten(Basic(Is.StringRule), Basic(Is.TextRule));
    IntDictRejectsString();
    StringTextAcceptsString(g1);
    SecondGroupName(g1, g2);
  }

  /** A rule as the corrected `|` builds it: a single rule, or a group of
      single rules each stored under its own class name. */
  predicate Flat(r: Rule) {
    r.Group? ==> (DistinctKeys(r.rules) &&
      forall i :: 0 <= i < |r.rules| ==> r.rules[i].1.Basic? && r.rules[i].0 == Is.ClassName(r.rules[i].1.kind))
  }

  /** `RuleGroup.__or__` as evidently intended: a group operand's rules are
      merged in (the `update` branch), any other rule is stored under its
      class name. */
  function GroupOr(es: Entries<string, Rule>, other: Rule): (r: Entries<string, Rule>)
    requires Flat(Group(es)) && Flat(other)
    ensures Flat(Group(r))
  {
    if other.Group? then UpdateFlat(es, other.rules) else PutRule(es, other.kind)
  }

  /** The rules after a corrected `|` pass exactly when the old ones and the
      added rule or group do. */
  lemma GroupOrPasses(es: Entries<string, Rule>, other: Rule, s: Is.Subject)
    requires Flat(Group(es)) && Flat(other)
    ensures AllPass(GroupOr(es, other), s) <==> AllPass(es, s) && Check(other, s).None?
  {
    if other.Group? {
      GroupCheck(other.rules, s);
      UpdateFlatPasses(es, other.rules, s);
    } else {
      PutRulePasses(es, other.kind, s);
    }
  }

  /** Every rule of the entries passes. */
  predicate AllPass(es: Entries<string, Rule>, s: Is.Subject) {
    forall i :: 0 <= i < |es| ==> Check(es[i].1, s).None?
  }

  /** A single rule stored under its class name. */
  function PutRule(es: Entries<string, Rule>, k: Is.Kind): (r: Entries<string, Rule>)
    requires Flat(Group(es))
    ensures Flat(Group(r))
  {
    var r := Put(es, Is.ClassName(k), Basic(k));
    assert forall i :: 0 <= i < |r| ==> r[i].1.Basic? && r[i].0 == Is.ClassName(r[i].1.kind) by {
      forall i | 0 <= i < |r| ensures r[i].1.Basic? && r[i].0 == Is.ClassName(r[i].1.kind) {
        if i < |es| && es[i].0 != Is.ClassName(k) {
          assert r[i] == es[i];
        }
      }
    }
    r
  }

  /** The rules stored by a `PutRule` pass exactly when the old ones and the
      new one do: storing a rule under a key already present replaces the
      same rule. */
  lemma PutRulePasses(es: Entries<string, Rule>, k: Is.Kind, s: Is.Subject)
    requires Flat(Group(es))
    ensures AllPass(PutRule(es, k), s) <==> AllPass(es, s) && Is.Check(k, s).None?
  {
    var r := PutRule(es, k);
    if HasKey(es, Is.ClassName(k)) {
      var i :| 0 <= i < |es| && es[i].0 == Is.ClassName(k);
      Is.ClassNameInjective(es[i].1.kind, k);
      assert r[i] == es[i];
      forall j | 0 <= j < |es| ensures r[j] == es[j] {
        if es[j].0 == Is.ClassName(k) {
          Is.ClassNameInjective(es[j].1.kind, k);
        }
      }
      assert r == es;
    } else {
      assert r == es + [(Is.ClassName(k), Basic(k))];
      assert Check(r[|es|].1, s) == Is.Check(k, s);
      assert forall i :: 0 <= i < |es| ==> r[i] == es[i];
    }
  }

  /** `update` with the entries of a flat group, one `PutRule` at a time. */
  function UpdateFlat(es: Entries<string, Rule>, other: Entries<string, Rule>): (r: Entries<string, Rule>)
    requires Flat(Group(es)) && Flat(Group(other))
    ensures Flat(Group(r))
    decreases |other|
  {
    if |other| == 0 then es
    else
      assert forall i :: 1 <= i < |other| ==> other[1..][i - 1] == other[i];
      assert Flat(Group(other[1..])) by {
        assert DistinctKeys(other[1..]);
      }
      UpdateFlat(PutRule(es, other[0].1.kind), other[1..])
  }

  /** Merging a flat group in keeps every rule of both sides. */
  lemma {:induction false} UpdateFlatPasses(es: Entries<string, Rule>, other: Entries<string, Rule>, s: Is.Subject)
    requires Flat(Group(es)) && Flat(Group(other))
    ensures AllPass(UpdateFlat(es, other), s) <==> AllPass(es, s) && AllPass(other, s)
    decreases |other|
  {
    if |other| > 0 {
      assert forall i :: 1 <= i < |other| ==> other[1..][i - 1] == other[i];
      assert Flat(Group(other[1..])) by {
        assert DistinctKeys(other[1..]);
      }
      PutRulePasses(es, other[0].1.kind, s);
      UpdateFlatPasses(PutRule(es, other[0].1.kind), other[1..], s);
      assert AllPass(other, s) <==> Check(other[0].1, s).None? && AllPass(other[1..], s);
    }
  }

  /** `a | b` as evidently intended. */
  function Or(a: Rule, b: Rule): (r: Rule)
    requires Flat(a) && Flat(b)
    ensures r.Group? && Flat(r)
  {
    if a.Group? then Group(GroupOr(a.rules, b))
    else Group(GroupOr(GroupOr([], a), b))
  }

  /** The combined rule passes exactly when both operands pass: no rule of
      either side is lost. */
  lemma OrChecksBoth(a: Rule, b: Rule, s: Is.Subject)
    requires Flat(a) && Flat(b)
    ensures Check(Or(a, b), s).None? <==> Check(a, s).None? && Check(b, s).None?
  {
    GroupCheck(Or(a, b).rules, s);
    if a.Group? {
      GroupCheck(a.rules, s);
      GroupOrPasses(a.rules, b, s);
    } else {
      GroupOrPasses([], a, s);
      GroupOrPasses(GroupOr([], a), b, s);
    }
  }

  /** Storing a rule whose class is already present changes nothing;
      otherwise its class becomes present, and present classes stay. */
  lemma PutRuleKeys(es: Entries<string, Rule>, k: Is.Kind, key: string)
    requires Flat(Group(es))
    ensures HasKey(es, Is.ClassName(k)) ==> PutRule(es, k) == es
    ensures HasKey(PutRule(es, k), key) <==> HasKey(es, key) || key == Is.ClassName(k)
  {
    var r := PutRule(es, k);
    if HasKey(es, Is.ClassName(k)) {
      forall j | 0 <= j < |es| ensures r[j] == es[j] {
        if es[j].0 == Is.ClassName(k) {
          Is.ClassNameInjective(es[j].1.kind, k);
        }
      }
    } else {
      assert r == es + [(Is.ClassName(k), Basic(k))];
      assert r[|es|].0 == Is.ClassName(k);
      if HasKey(es, key) {
        var i :| 0 <= i < |es| && es[i].0 == key;
        assert r[i].0 == key;
      }
    }
  }

  /** After merging a flat group in, each of its classes is present, and
      so is each class present before. */
  lemma {:induction false} UpdateFlatKeys(es: Entries<string, Rule>, other: Entries<string, Rule>, key: string)
    requires Flat(Group(es)) && Flat(Group(other))
    ensures HasKey(es, key) || HasKey(other, key) ==> HasKey(UpdateFlat(es, other), key)
    decreases |other|
  {
    if |other| > 0 {
      assert forall i :: 1 <= i < |other| ==> other[1..][i - 1] == other[i];
      assert Flat(Group(other[1..])) by {
        assert DistinctKeys(other[1..]);
      }
      PutRuleKeys(es, other[0].1.kind, key);
      UpdateFlatKeys(PutRule(es, other[0].1.kind), other[1..], key);
      if HasKey(other, key) && other[0].0 != key {
        var i :| 0 <= i < |other| && other[i].0 == key;
        assert other[1..][i - 1].0 == key;
      }
    }
  }

  /** Merging in a flat group whose classes are all present changes nothing. */
  lemma {:induction false} UpdateFlatPresent(es: Entries<string, Rule>, other: Entries<string, Rule>)
    requires Flat(Group(es)) && Flat(Group(other))
    requires forall i :: 0 <= i < |other| ==> HasKey(es, other[i].0)
    ensures UpdateFlat(es, other) == es
    decreases |other|
  {
    if |other| > 0 {
      assert forall i :: 1 <= i < |other| ==> other[1..][i - 1] == other[i];
      assert Flat(Group(other[1..])) by {
        assert DistinctKeys(other[1..]);
      }
      PutRuleKeys(es, other[0].1.kind, other[0].0);
      UpdateFlatPresent(es, other[1..]);
    }
  }

  /** With the corrected `|`, adding a rule or a group a second time
      changes nothing. */
  lemma OrTwice(a: Rule, b: Rule)
    requires Flat(a) && Flat(b)
    ensures Or(Or(a, b), b) == Or(a, b)
  {
    var g := Or(a, b);
    var pre := if a.Group? then a.rules else GroupOr([], a);
    assert g.rules == GroupOr(pre, b);
    if b.Group? {
      forall i | 0 <= i < |b.rules| ensures HasKey(g.rules, b.rules[i].0) {
        assert HasKey(b.rules, b.rules[i].0);
        UpdateFlatKeys(pre, b.rules, b.rules[i].0);
      }
      UpdateFlatPresent(g.rules, b.rules);
    } else {
      PutRuleKeys(pre, b.kind, Is.ClassName(b.kind));
      PutRuleKeys(g.rules, b.kind, Is.ClassName(b.kind));
    }
  }

  /** Two single rules combined by the corrected `|`: the same group as
      the source builds, holding each distinct rule once. */
  lemma PairCorrected(x: Is.Kind, y: Is.Kind)
    ensures Or(Basic(x), Basic(y)).rules ==
      if x == y then [(Is.ClassName(x), Basic(x))] else [(Is.ClassName(x), Basic(x)), (Is.ClassName(y), Basic(y))]
  {
    Is.ClassNameInjective(x, y);
    PutSmall(Is.ClassName(x), Basic(x), Is.ClassName(y), Basic(y));
  }

  /** The name of two single rules combined: both class names joined with
      '|', or the one name when the rule is repeated. */
  lemma PairName(x: Is.Kind, y: Is.Kind)
    ensures Name(Or(Basic(x), Basic(y))) ==
      if x == y then Is.ClassName(x) else Is.ClassName(x) + "|" + Is.ClassName(y)
  {
    PairCorrected(x, y);
    var r := Or(Basic(x), Basic(y)).rules;
    if x == y {
      assert Keys(r) == [Is.ClassName(x)];
    } else {
      assert Keys(r) == [Is.ClassName(x), Is.ClassName(y)];
    }
  }
}

=== FILE: schedulemanager.dfy ===
/** The `ScheduleManager` (araneid/core/schedulemanager.py): the list of
    loaded schedulers, one of which is picked at random for every unit, and
    the channel into which the schedulers forward what they release. */
module ScheduleManagers {
  import opened Wrappers
  import Streams
  import Units
  import Choice
  import Schedulers

  datatype Manager = Manager(
    schedulers: seq<Schedulers.Scheduler>,
    channel: Streams.Stream<Option<nat>>,   // a unit, or None from a scheduler whose read ended
    idleEvent: bool,
    closed: bool)

  /** `create`: the loaded schedulers are given; loading none raises
      SchedulerError. */
  function Create(loaded: seq<Schedulers.Scheduler>): (r: Result<Manager>)
    ensures r.Err? <==> |loaded| == 0
    ensures r.Err? ==> r.error == SchedulerError
    ensures r.Ok? ==> r.value.schedulers == loaded && !r.value.closed && !r.value.idleEvent
    ensures r.Ok? ==> r.value.channel == Streams.New(false)
  {
    if |loaded| == 0 then Err(SchedulerError)
    else Ok(Manager(loaded, Streams.New(false), false, false))
  }

  /** The loop of `idle`: `is_idle &= sched.idle()` over the schedulers. */
  function IdleOver(ss: seq<Schedulers.Scheduler>): bool
    decreases |ss|
  {
    if |ss| == 0 then true else Schedulers.Idle(ss[0]) && IdleOver(ss[1..])
  }

  function Idle(m: Manager): bool {
    IdleOver(m.schedulers)
  }

  /** The manager is idle exactly when every scheduler is, so a manager whose
      schedulers are all idle is idle. */
  lemma {:induction false} IdleOverAll(ss: seq<Schedulers.Scheduler>)
    ensures IdleOver(ss) <==> forall i :: 0 <= i < |ss| ==> Schedulers.Idle(ss[i])
    decreases |ss|
  {
    if |ss| > 0 {
      IdleOverAll(ss[1..]);
      assert forall i :: 1 <= i < |ss| ==> ss[i] == ss[1..][i - 1];
    }
  }

  /** `__select__`: `randint(0, len - 1)` with the draw supplied. */
  function Select(m: Manager, draw: nat): (i: nat)
    requires |m.schedulers| > 0
    ensures i < |m.schedulers|
  {
    Choice.RandInt(0, |m.schedulers| - 1, draw) as nat
  }

  /** Every scheduler is picked by some draw. */
  lemma SelectCovers(m: Manager, i: nat)
    requires i < |m.schedulers|
    ensures Select(m, i) == i
  {
    Choice.RandIntCovers(0, |m.schedulers| - 1, i);
  }

  /** `add_request`: the request goes to the selected scheduler only. */
  function AddRequest(m: Manager, units: map<nat, Units.Unit>, id: nat, draw: nat): (r: Manager)
    requires |m.schedulers| > 0
    requires id in units && units[id].kind == Units.RequestKind
    ensures |r.schedulers| == |m.schedulers|
    ensures r == m.(schedulers := r.schedulers)
    ensures forall i :: 0 <= i < |m.schedulers| ==>
      r.schedulers[i] == if i == Select(m, draw) then Schedulers.AddRequest(m.schedulers[i], units, id)
                         else m.schedulers[i]
  {
    var k := Select(m, draw);
    m.(schedulers := m.schedulers[k := Schedulers.AddRequest(m.schedulers[k], units, id)])
  }

  /** `add_response`: the response goes to the selected scheduler only. */
  function AddResponse(m: Manager, units: map<nat, Units.Unit>, id: nat, draw: nat): (r: Manager)
    requires |m.schedulers| > 0
    requires id in units && units[id].kind == Units.ResponseKind
    ensures |r.schedulers| == |m.schedulers|
    ensures r == m.(schedulers := r.schedulers)
    ensures forall i :: 0 <= i < |m.schedulers| ==>
      r.schedulers[i] == if i == Select(m, draw) then Schedulers.AddResponse(m.schedulers[i], units, id)
                         else m.schedulers[i]
  {
    var k := Select(m, draw);
    m.(schedulers := m.schedulers[k := Schedulers.AddResponse(m.schedulers[k], units, id)])
  }

  /** However the scheduler is picked, an added request is buffered by
      exactly one scheduler: the total of buffered requests grows by one. */
  function Buffered(ss: seq<Schedulers.Scheduler>): nat
    decreases |ss|
  {
    if |ss| == 0 then 0 else |ss[0].requests.buffer| + Buffered(ss[1..])
  }

  lemma {:induction false} BufferedUpdate(ss: seq<Schedulers.Scheduler>, k: nat, s: Schedulers.Scheduler)
    requires k < |ss|
    ensures Buffered(ss[k := s]) == Buffered(ss) - |ss[k].requests.buffer| + |s.requests.buffer|
    decreases |ss|
  {
    if k > 0 {
      assert ss[k := s][1..] == ss[1..][k - 1 := s];
      BufferedUpdate(ss[1..], k - 1, s);
    }
  }

  lemma AddRequestEnqueuesOnce(m: Manager, units: map<nat, Units.Unit>, id: nat, draw: nat)
    requires |m.schedulers| > 0 && id in units && units[id].kind == Units.RequestKind
    requires forall i :: 0 <= i < |m.schedulers| ==> !m.schedulers[i].requests.closed
    ensures Buffered(AddRequest(m, units, id, draw).schedulers) == Buffered(m.schedulers) + 1
  {
    var k := Select(m, draw);
    BufferedUpdate(m.schedulers, k, Schedulers.AddRequest(m.schedulers[k], units, id));
  }

  /** A scheduler whose close raised is left as it was, only marked closed:
      the manager logs the exception and carries on. */
  function CloseOrLog(s: Schedulers.Scheduler): (r: Schedulers.Scheduler)
    ensures Schedulers.Close(s).Ok? ==> r == Schedulers.Close(s).value
    ensures r.closed
  {
    match Schedulers.Close(s)
    case Ok(c) => c
    case Err(_) => s.(closed := true)
  }

  /** `close`: a second close returns at once. The first sets the idle event,
      closes the channel (an exception there propagates) and then closes
      every scheduler, logging their exceptions. */
  function Close(m: Manager): (r: Result<Manager>)
    ensures m.closed ==> r == Ok(m)
    ensures r.Ok? ==> r.value.closed && |r.value.schedulers| == |m.schedulers|
    ensures r.Ok? && !m.closed ==>
      && r.value.idleEvent && r.value.channel.closed
      && forall i :: 0 <= i < |m.schedulers| ==> r.value.schedulers[i] == CloseOrLog(m.schedulers[i])
  {
    if m.closed then Ok(m)
    else
      var channel :- Streams.Close(m.channel);
      Ok(Manager(seq(|m.schedulers|, i requires 0 <= i < |m.schedulers| => CloseOrLog(m.schedulers[i])),
                 channel, true, true))
  }

  lemma CloseIdempotent(m: Manager)
    requires Close(m).Ok?
    ensures Close(Close(m).value) == Close(m)
  {
  }

  /** With valid schedulers and a plain channel, close succeeds and leaves
      the manager idle. */
  lemma CloseLeavesIdle(m: Manager)
    requires forall i :: 0 <= i < |m.schedulers| ==> Schedulers.Valid(m.schedulers[i])
    requires !m.channel.confirmAck && Streams.Balanced(m.channel) && !m.closed
    ensures Close(m).Ok? && Idle(Close(m).value)
  {
    Streams.BalancedCloseSucceeds(m.channel);
    var r := Close(m).value;
    forall i | 0 <= i < |r.schedulers|
      ensures Schedulers.Idle(r.schedulers[i])
    {
      Schedulers.CloseSucceeds(m.schedulers[i]);
    }
    IdleOverAll(r.schedulers);
  }
}

=== FILE: scheduler.dfy ===
/** The default scheduler (araneid/scheduler/default.py): one stream of
    requests and one of responses, each read by the scheduler's own run loop
    and forwarded to the schedule manager's channel. */
module Schedulers {
  import opened Wrappers
  import Streams
  import Units

  datatype Scheduler = Scheduler(requests: Streams.Stream<nat>, responses: Streams.Stream<nat>, closed: bool)

  /** Both streams are plain (no confirm-ack) and untransformed, every
      buffered entry is one unfinished task, and a closed scheduler has
      closed both. */
  predicate Valid(s: Scheduler) {
    && (s.closed ==> s.requests.closed && s.responses.closed)
    && !s.requests.confirmAck && s.requests.operators == [] && Streams.Balanced(s.requests)
    && !s.responses.confirmAck && s.responses.operators == [] && Streams.Balanced(s.responses)
  }

  /** `create`. */
  function Create(): (s: Scheduler)
    ensures Valid(s) && Idle(s) && !s.closed
    ensures |s.requests.buffer| == 0 && |s.responses.buffer| == 0
  {
    Scheduler(Streams.New(false), Streams.New(false), false)
  }

  /** `idle`: both streams are idle. */
  predicate Idle(s: Scheduler) {
    Streams.Idle(s.requests) && Streams.Idle(s.responses)
  }

  /** `add_request`: the argument must be a request; it goes to the request
      stream only. */
  function AddRequest(s: Scheduler, units: map<nat, Units.Unit>, id: nat): (r: Scheduler)
    requires id in units && units[id].kind == Units.RequestKind
    ensures r.requests == Streams.Write(s.requests, id)
    ensures r.responses == s.responses && r.closed == s.closed
    ensures Valid(s) ==> Valid(r)
  {
    s.(requests := Streams.Write(s.requests, id))
  }

  /** `add_response`: the argument must be a response; it goes to the
      response stream only. */
  function AddResponse(s: Scheduler, units: map<nat, Units.Unit>, id: nat): (r: Scheduler)
    requires id in units && units[id].kind == Units.ResponseKind
    ensures r.responses == Streams.Write(s.responses, id)
    ensures r.requests == s.requests && r.closed == s.closed
    ensures Valid(s) ==> Valid(r)
  {
    s.(responses := Streams.Write(s.responses, id))
  }

  datatype Taken = Taken(stream: Streams.Stream<nat>, unit: Option<nat>)

  /** `get_request` / `get_response`: one read through a reader registered
      for the read; a stream that has ended yields None, a stream that ended
      with an exception raises it. */
  function Take(st: Streams.Stream<nat>): (r: Result<Taken>)
    requires Streams.CanRead(st) && st.operators == []
    ensures |st.buffer| > 0 && st.buffer[0].Item? ==>
      r.Ok? && r.value.unit == Some(st.buffer[0].value) && r.value.stream.buffer == st.buffer[1..]
    ensures (|st.buffer| == 0 || st.buffer[0].End?) ==>
      && (st.exception.None? ==> r.Ok? && r.value.unit.None?)
      && (st.exception.Some? ==> r == Err(Raised(st.exception.value)))
    ensures r.Ok? ==> r.value.stream.closed == st.closed && r.value.stream.readers.count == st.readers.count
    ensures r.Ok? ==> r.value.stream.operators == [] && r.value.stream.confirmAck == st.confirmAck
    ensures r.Ok? && !st.confirmAck ==> (Streams.Balanced(st) ==> Streams.Balanced(r.value.stream))
  {
    var run := (o: Streams.OpId, x: nat) => x;
    var e := Streams.Enter(st);
    assert Streams.Balanced(e) && !e.confirmAck ==> Streams.Balanced(Streams.Next(e, run).s) by {
      if Streams.Balanced(e) && !e.confirmAck { Streams.BalancedPreserved(e, 0, 0, run); }
    }
    var step := Streams.Next(e, run);
    match step.out
    case Value(v) => Ok(Taken(Streams.Exit(step.s), Some(v)))
    case Stop => Ok(Taken(Streams.Exit(step.s), None))
    case Raise(exc) => Err(Raised(exc))
  }

  datatype Ran = Ran(scheduler: Scheduler, out: Streams.Stream<Option<nat>>)

  /** One turn of `run`: the read that finished first (of the response
      stream when `fromResponses`, else of the request stream) has its
      result written to the output channel: the unit, or None when the
      stream has ended; a read that raised writes nothing. */
  function RunStep(s: Scheduler, out: Streams.Stream<Option<nat>>, fromResponses: bool): (r: Result<Ran>)
    requires Valid(s)
    requires Streams.CanRead(if fromResponses then s.responses else s.requests)
    ensures var lane := if fromResponses then s.responses else s.requests;
            && (r.Ok? ==> Valid(r.value.scheduler) && r.value.scheduler.closed == s.closed)
            && (|lane.buffer| > 0 && lane.buffer[0].Item? ==>
                  r.Ok? && r.value.out == Streams.Write(out, Some(lane.buffer[0].value)))
            && ((|lane.buffer| == 0 || lane.buffer[0].End?) ==>
                  && (lane.exception.None? ==> r.Ok? && r.value.out == Streams.Write(out, None))
                  && (lane.exception.Some? ==> r == Err(Raised(lane.exception.value))))
            && (r.Ok? && fromResponses ==> r.value.scheduler.requests == s.requests)
            && (r.Ok? && !fromResponses ==> r.value.scheduler.responses == s.responses)
  {
    if fromResponses then
      var t :- Take(s.responses);
      Ok(Ran(s.(responses := t.stream), Streams.Write(out, t.unit)))
    else
      var t :- Take(s.requests);
      Ok(Ran(s.(requests := t.stream), Streams.Write(out, t.unit)))
  }

  /** `close`: a second close returns at once; the first marks the scheduler
      closed and closes the request stream, then the response stream. */
  function Close(s: Scheduler): (r: Result<Scheduler>)
    ensures s.closed ==> r == Ok(s)
    ensures r.Ok? && !s.closed ==> r.value.closed && r.value.requests.closed && r.value.responses.closed
  {
    if s.closed then Ok(s)
    else
      var req :- Streams.Close(s.requests);
      var resp :- Streams.Close(s.responses);
      Ok(Scheduler(req, resp, true))
  }

  /** A valid scheduler always closes, ends up idle, and closing it again
      changes nothing. */
  lemma CloseSucceeds(s: Scheduler)
    requires Valid(s)
    ensures Close(s).Ok? && Idle(Close(s).value) && Close(s).value.closed
    ensures Close(Close(s).value) == Close(s)
  {
    if !s.closed {
      Streams.BalancedCloseSucceeds(s.requests);
      Streams.BalancedCloseSucceeds(s.responses);
    }
  }

  /** A request added to an open scheduler keeps it busy until the run loop
      has forwarded it; that turn writes exactly that request to the output
      channel and leaves the scheduler as idle as it was before. */
  lemma AddRequestThenRun(s: Scheduler, units: map<nat, Units.Unit>, id: nat, out: Streams.Stream<Option<nat>>)
    requires Valid(s) && !s.requests.closed && |s.requests.buffer| == 0
    requires id in units && units[id].kind == Units.RequestKind
    ensures !Idle(AddRequest(s, units, id))
    ensures RunStep(AddRequest(s, units, id), out, false).Ok?
    ensures RunStep(AddRequest(s, units, id), out, false).value.out == Streams.Write(out, Some(id))
    ensures Idle(RunStep(AddRequest(s, units, id), out, false).value.scheduler) == Idle(s)
  {
    var a := AddRequest(s, units, id);
    assert a.requests.buffer == [Streams.Item(id)];
    var r := RunStep(a, out, false).value;
    Streams.BalancedIdle(r.scheduler.requests);
    Streams.BalancedIdle(s.requests);
  }
}

=== FILE: schema.dfy ===
/** Schema checking (araneid/data/check/schema.py): a schema binds rules to
    field names; checking an item runs, for each of its fields in order,
    the rule bound to the field's name, and reports every error in one
    text '<item class> { e1, e2 }'. */
module Schemas {
  import opened Wrappers
  import opened OrderedDicts
  import opened Items
  import Is
  import Rules

  /** The rules of a schema class, by attribute name. */
  type Schema = map<string, Rules.Rule>

  /** Whether the schema binds a rule to the field's name. */
  predicate Ruled(schema: Schema, f: Field) {
    f.name.Some? && f.name.value in schema
  }

  /** The error the schema reports for one field, if any. */
  function FieldError(schema: Schema, f: Field): Option<string> {
    if Ruled(schema, f) then Rules.Check(schema[f.name.value], Is.OfField(f)) else None
  }

  /** The errors among check results, in order. */
  function Somes(results: seq<Option<string>>): (errs: seq<string>)
    ensures |errs| <= |results|
    ensures |errs| == 0 <==> forall i :: 0 <= i < |results| ==> results[i].None?
    decreases |results|
  {
    if |results| == 0 then []
    else
      var rest := Somes(results[1..]);
      assert forall i :: 1 <= i < |results| ==> results[i] == results[1..][i - 1];
      if results[0].Some? then [results[0].value] + rest else rest
  }

  /** The errors of two runs of results are the errors of each, in order. */
  lemma {:induction false} SomesAppend(a: seq<Option<string>>, b: seq<Option<string>>)
    ensures Somes(a + b) == Somes(a) + Somes(b)
    decreases |a|
  {
    if |a| == 0 {
      assert a + b == b;
    } else {
      assert (a + b)[0] == a[0] && (a + b)[1..] == a[1..] + b;
      SomesAppend(a[1..], b);
    }
  }

  /** What the schema says about each field. */
  function FieldErrors(schema: Schema, fs: seq<Field>): (results: seq<Option<string>>)
    ensures |results| == |fs| && forall i :: 0 <= i < |fs| ==> results[i] == FieldError(schema, fs[i])
  {
    seq(|fs|, i requires 0 <= i < |fs| => FieldError(schema, fs[i]))
  }

  /** The errors of the fields, in field order; a field without a rule is
      skipped. */
  function Errors(schema: Schema, fs: seq<Field>): (errs: seq<string>)
    ensures |errs| <= |fs|
    ensures |errs| == 0 <==> forall i :: 0 <= i < |fs| ==> FieldError(schema, fs[i]).None?
  {
    Somes(FieldErrors(schema, fs))
  }

  /** Strings joined with ', '. */
  function JoinComma(xs: seq<string>): string
    decreases |xs|
  {
    if |xs| == 0 then "" else if |xs| == 1 then xs[0] else xs[0] + ", " + JoinComma(xs[1..])
  }

  /** `ItemFieldSchemaChecker.check`: None when every field with a rule
      passes it, otherwise the errors listed after the item's class name. */
  function CheckItem(schema: Schema, item: Item): (r: Option<string>)
    ensures r.None? <==> forall i :: 0 <= i < |item.fields| ==> FieldError(schema, item.fields[i].1).None?
    ensures r.Some? ==> r.value == item.cls + " { " + JoinComma(Errors(schema, FieldList(item))) + " }"
  {
    var errs := Errors(schema, FieldList(item));
    if |errs| == 0 then None else Some(item.cls + " { " + JoinComma(errs) + " }")
  }

  lemma FieldErrorsAppend(schema: Schema, a: seq<Field>, b: seq<Field>)
    ensures FieldErrors(schema, a + b) == FieldErrors(schema, a) + FieldErrors(schema, b)
  {
    var l := FieldErrors(schema, a + b);
    var la := FieldErrors(schema, a);
    var lb := FieldErrors(schema, b);
    forall i | 0 <= i < |a| ensures l[i] == la[i] {
      assert (a + b)[i] == a[i];
    }
    forall i | |a| <= i < |l| ensures l[i] == lb[i - |a|] {
      assert (a + b)[i] == b[i - |a|];
    }
    assert l == la + lb;
  }

  /** A field without a rule contributes nothing, wherever it sits. */
  lemma UnruledFieldSkipped(schema: Schema, a: seq<Field>, f: Field, b: seq<Field>)
    requires !Ruled(schema, f)
    ensures Errors(schema, a + [f] + b) == Errors(schema, a + b)
  {
    var ra := FieldErrors(schema, a);
    var rb := FieldErrors(schema, b);
    FieldErrorsAppend(schema, a + [f], b);
    FieldErrorsAppend(schema, a, [f]);
    FieldErrorsAppend(schema, a, b);
    assert FieldErrors(schema, [f]) == [None];
    var none: seq<Option<string>> := [None];
    var rf := FieldErrors(schema, a + [f]);
    assert rf == ra + none;
    assert FieldErrors(schema, a + [f] + b) == rf + rb;
    assert Somes(none) == [];
    SomesAppend(ra, none);
    assert Somes(rf) == Somes(ra) + [] == Somes(ra);
    SomesAppend(rf, rb);
    SomesAppend(ra, rb);
    assert Errors(schema, a + [f] + b) == Somes(rf + rb) == Somes(ra) + Somes(rb);
  }

  /** `Is.NotEmpty | Is.String`, built by `|` as written. */
  function NonEmptyString(): Rules.Rule {
    Rules.OrAsWritten(Rules.Basic(Is.NotEmptyRule), Rules.Basic(Is.StringRule))
  }

  /** For two single rules the `|` as written and the corrected one build the
      same group, so the schema examples hold under both. */
  lemma NonEmptyStringEitherOr()
    ensures NonEmptyString() == Rules.Or(Rules.Basic(Is.NotEmptyRule), Rules.Basic(Is.StringRule))
    ensures NonEmptyString() == Rules.Group([("NotEmptyRule", Rules.Basic(Is.NotEmptyRule)),
                                             ("StringRule", Rules.Basic(Is.StringRule))])
  {
    Rules.PairAsWritten(Is.NotEmptyRule, Is.StringRule);
    Rules.PairCorrected(Is.NotEmptyRule, Is.StringRule);
  }

  /** A schema binding one field name to `Is.NotEmpty | Is.String`. */
  function NameSchema(n: string): Schema {
    map[n := NonEmptyString()]
  }

  /** A named field holding the value. */
  function NamedField(n: string, v: PyValues.PyValue): Field {
    Field(Some(n), STRING, v, true, "")
  }

  /** `NotEmpty | String` rejects a missing value with the NotEmpty error
      alone: the group stops at its first rule. */
  lemma NonEmptyStringRejectsNone(f: Field)
    requires f.value == PyValues.NoneValue
    ensures Rules.Check(NonEmptyString(), Is.OfField(f)) == Some(Is.NameText(f.name) + ": " + "must be not empty")
  {
    NonEmptyStringEitherOr();
    var es := [("NotEmptyRule", Rules.Basic(Is.NotEmptyRule)), ("StringRule", Rules.Basic(Is.StringRule))];
    Rules.FirstRuleFails(es, Is.OfField(f));
  }

  /** An item whose only field, ruled by `NotEmpty | String`, was never
      set fails with '<class> { <name>: must be not empty }'. */
  lemma EmptyNameFails(cls: string, name: string, n: string)
    ensures CheckItem(NameSchema(n), Item(cls, name, [(Some(n), NamedField(n, PyValues.NoneValue))]))
         == Some(cls + " { " + (n + ": " + "must be not empty") + " }")
  {
    var f := NamedField(n, PyValues.NoneValue);
    var msg := n + ": " + "must be not empty";
    NonEmptyStringRejectsNone(f);
    assert Is.NameText(f.name) == n;
    assert NameSchema(n)[n] == NonEmptyString();
    assert FieldError(NameSchema(n), f) == Rules.Check(NonEmptyString(), Is.OfField(f));
    assert FieldError(NameSchema(n), f) == Some(msg);
    assert FieldList(Item(cls, name, [(Some(n), f)])) == [f];
    assert FieldErrors(NameSchema(n), [f]) == [Some(msg)];
    assert Somes([Some(msg)]) == [msg] + Somes([]);
    assert Errors(NameSchema(n), [f]) == [msg];
    assert JoinComma([msg]) == msg;
  }

  /** Once the field holds a string, the item passes. */
  lemma StringNamePasses(cls: string, name: string, n: string, v: string)
    ensures CheckItem(NameSchema(n), Item(cls, name, [(Some(n), NamedField(n, PyValues.StrV(v)))])).None?
  {
    var f := NamedField(n, PyValues.StrV(v));
    Rules.OrChecksBoth(Rules.Basic(Is.NotEmptyRule), Rules.Basic(Is.StringRule), Is.OfField(f));
    assert FieldError(NameSchema(n), f).None?;
  }
}

=== FILE: setting.dfy ===
/** Settings (araneid/setting.py): the recursive `merge` of one settings
    dict into another, and the `Setting` registry that merges every setting
    plugin's module attributes, in plugin order, into one dict. */
module Settings {
  import opened Wrappers

  /** A setting: a nested dict, or any other value, standing for itself. */
  datatype Value = Leaf(id: nat) | Dict(entries: map<string, Value>)

  /** The value at a path of keys, when every step is a dict holding the
      next key. */
  function Lookup(c: Value, path: seq<string>): Option<Value>
    decreases |path|
  {
    if |path| == 0 then Some(c)
    else if c.Dict? && path[0] in c.entries then Lookup(c.entries[path[0]], path[1..])
    else None
  }

  /** `merge(a, b)`: every key of `b` is merged into `a`; two dicts under
      the same key merge recursively, and otherwise `b`'s value replaces
      `a`'s (an equal value is left in place, which is the same value). */
  function Merge(a: map<string, Value>, b: map<string, Value>): (r: map<string, Value>)
    ensures r.Keys == a.Keys + b.Keys
    ensures forall k :: k in a && k !in b ==> r[k] == a[k]
    ensures forall k :: k in b && !(k in a && a[k].Dict? && b[k].Dict?) ==> r[k] == b[k]
    decreases Dict(b)
  {
    map k | k in a.Keys + b.Keys ::
      if k in b then
        (if k in a && a[k].Dict? && b[k].Dict? then Dict(Merge(a[k].entries, b[k].entries)) else b[k])
      else a[k]
  }

  /** No leaf of `b` lies on the way to the path. */
  predicate NoLeafOnWay(b: map<string, Value>, path: seq<string>)
    decreases |path|
  {
    |path| == 0 || path[0] !in b || (b[path[0]].Dict? && NoLeafOnWay(b[path[0]].entries, path[1..]))
  }

  /** Every leaf `b` defines is the merged leaf: `b` wins. */
  lemma {:induction false} MergedLeavesComeFromB(a: map<string, Value>, b: map<string, Value>, path: seq<string>, x: nat)
    requires Lookup(Dict(b), path) == Some(Leaf(x))
    ensures Lookup(Dict(Merge(a, b)), path) == Some(Leaf(x))
    decreases |path|
  {
    var k := path[0];
    if k in a && a[k].Dict? && b[k].Dict? {
      MergedLeavesComeFromB(a[k].entries, b[k].entries, path[1..], x);
    }
  }

  /** Where `b` says nothing, on the way or at the path, the merged
      settings read as `a`: keys only in `a` are kept. */
  lemma {:induction false} MergeKeepsA(a: map<string, Value>, b: map<string, Value>, path: seq<string>)
    requires Lookup(Dict(b), path) == None && NoLeafOnWay(b, path)
    ensures Lookup(Dict(Merge(a, b)), path) == Lookup(Dict(a), path)
    decreases |path|
  {
    var k := path[0];
    if k in b {
      if k in a && a[k].Dict? {
        MergeKeepsA(a[k].entries, b[k].entries, path[1..]);
      } else {
        assert Lookup(Dict(b), path) == Lookup(b[k], path[1..]);
        if k in a {
          LeafLooksUpNothing(a[k], path[1..]);
        }
      }
    }
  }

  lemma LeafLooksUpNothing(c: Value, path: seq<string>)
    requires c.Leaf? && |path| > 0
    ensures Lookup(c, path) == None
  {
  }

  /** Merging settings into themselves changes nothing. */
  lemma {:induction false} MergeSelf(a: map<string, Value>)
    ensures Merge(a, a) == a
    decreases Dict(a)
  {
    forall k | k in a ensures Merge(a, a)[k] == a[k] {
      if a[k].Dict? {
        MergeSelf(a[k].entries);
      }
    }
  }

  /** Merging the same settings a second time changes nothing. */
  lemma {:induction false} MergeTwice(a: map<string, Value>, b: map<string, Value>)
    ensures Merge(Merge(a, b), b) == Merge(a, b)
    decreases Dict(b)
  {
    var m := Merge(a, b);
    forall k | k in m ensures Merge(m, b)[k] == m[k] {
      if k in b && m[k].Dict? && b[k].Dict? {
        if k in a && a[k].Dict? {
          MergeTwice(a[k].entries, b[k].entries);
        } else {
          MergeSelf(b[k].entries);
        }
      }
    }
  }

  /** Merging nothing, or into nothing, gives the other side. */
  lemma MergeEmpty(a: map<string, Value>)
    ensures Merge(a, map[]) == a
    ensures Merge(map[], a) == a
  {
  }

  /** The registry: the names of the loaded setting plugins and the merged
      settings. */
  datatype Setting = Setting(modules: set<string>, settings: map<string, Value>)

  function New(): (s: Setting)
    ensures s.modules == {} && s.settings == map[]
  {
    Setting({}, map[])
  }

  /** Two consecutive underscores. */
  predicate HasDunder(name: string) {
    exists i :: 0 <= i < |name| - 1 && name[i] == '_' && name[i + 1] == '_'
  }

  /** `__load_setting_from_module`: every attribute of the plugin's module
      except dunder names and `order`. */
  function LoadFromModule(attrs: map<string, Value>): (r: map<string, Value>)
    ensures forall k :: k in r <==> k in attrs && !HasDunder(k) && k != "order"
    ensures forall k :: k in r ==> r[k] == attrs[k]
  {
    map k | k in attrs && !HasDunder(k) && k != "order" :: attrs[k]
  }

  /** `add_setting_plugin`: record the plugin and merge its settings over
      the ones loaded before. */
  function AddSettingPlugin(s: Setting, name: string, attrs: map<string, Value>): (r: Setting)
    ensures r.modules == s.modules + {name}
    ensures r.settings.Keys == s.settings.Keys + LoadFromModule(attrs).Keys
    ensures forall k :: k in attrs && !HasDunder(k) && k != "order" && attrs[k].Leaf? ==> r.settings[k] == attrs[k]
  {
    Setting(s.modules + {name}, Merge(s.settings, LoadFromModule(attrs)))
  }

  /** `get`: the value of a key, or the default when it is absent. */
  function Get(s: Setting, key: string, default: Value): (r: Value)
    ensures key in s.settings ==> r == s.settings[key]
    ensures key !in s.settings ==> r == default
  {
    if key in s.settings then s.settings[key] else default
  }

  /** `__getitem__`: the value of a key, or None. */
  function GetItem(s: Setting, key: string): (r: Option<Value>)
    ensures r.Some? <==> key in s.settings
    ensures r.Some? ==> r.value == Get(s, key, r.value)
  {
    if key in s.settings then Some(s.settings[key]) else None
  }

  /** Loading the same plugin twice leaves the settings as loading it once. */
  lemma ReloadChangesNothing(s: Setting, name: string, attrs: map<string, Value>)
    ensures AddSettingPlugin(AddSettingPlugin(s, name, attrs), name, attrs) == AddSettingPlugin(s, name, attrs)
  {
    MergeTwice(s.settings, LoadFromModule(attrs));
  }
}

=== FILE: slot.dfy ===
/** The per-spider `Slot` (araneid/core/slot.py): four confirm-ack lanes that
    carry unit identities (spider and middleware requests, spider and
    middleware responses), the scraper and engine it is bound to, open and
    close futures, and an idle event. Every operation but `bind`, `unbind`
    and `is_bound` raises SlotUnbound on a slot that lacks either binding.

    Units live in a store keyed by identity; operations that mark, bind or
    complete a unit return the updated store. */
module Slots {
  import opened Wrappers
  import Streams
  import Units
  import Flags
  import Choice

  /** Which pair of lanes an operation works on. */
  datatype Dir = Requests | Responses

  function KindOf(d: Dir): Units.Kind {
    if d == Requests then Units.RequestKind else Units.ResponseKind
  }

  datatype Slot = Slot(
    id: nat,                        // `id(self)`
    scraper: Option<nat>,
    engine: Option<nat>,
    open: bool,
    closed: bool,
    openWaiter: Option<bool>,       // the open future's result, once set
    closeWaiter: Option<nat>,       // the close future's result, once set
    idleEvent: bool,
    spiderRequests: Streams.Stream<nat>,
    middlewareRequests: Streams.Stream<nat>,
    spiderResponses: Streams.Stream<nat>,
    middlewareResponses: Streams.Stream<nat>)

  /** One lane: the spider lane or the middleware lane of a direction. */
  function Lane(s: Slot, d: Dir, spiderLane: bool): Streams.Stream<nat> {
    match (d, spiderLane)
    case (Requests, true) => s.spiderRequests
    case (Requests, false) => s.middlewareRequests
    case (Responses, true) => s.spiderResponses
    case (Responses, false) => s.middlewareResponses
  }

  function WithLane(s: Slot, d: Dir, spiderLane: bool, st: Streams.Stream<nat>): (r: Slot)
    ensures Lane(r, d, spiderLane) == st
    ensures (d, spiderLane) != (Requests, true) ==> r.spiderRequests == s.spiderRequests
    ensures (d, spiderLane) != (Requests, false) ==> r.middlewareRequests == s.middlewareRequests
    ensures (d, spiderLane) != (Responses, true) ==> r.spiderResponses == s.spiderResponses
    ensures (d, spiderLane) != (Responses, false) ==> r.middlewareResponses == s.middlewareResponses
    ensures r.id == s.id && r.scraper == s.scraper && r.engine == s.engine
    ensures r.open == s.open && r.closed == s.closed && r.idleEvent == s.idleEvent
    ensures r.openWaiter == s.openWaiter && r.closeWaiter == s.closeWaiter
  {
    match (d, spiderLane)
    case (Requests, true) => s.(spiderRequests := st)
    case (Requests, false) => s.(middlewareRequests := st)
    case (Responses, true) => s.(spiderResponses := st)
    case (Responses, false) => s.(middlewareResponses := st)
  }

  /** A lane as `Slot.create` makes it and as the slot's own operations keep
      it: confirm-ack, no transform, no reader registered between steps, and
      closed exactly when the slot is. */
  predicate LaneOk(st: Streams.Stream<nat>, closed: bool) {
    && st.confirmAck && st.operators == [] && st.readers.count == 0 && !st.clearPending
    && st.closed == closed
    && (!closed ==> Streams.NoEnd(st.buffer))
  }

  predicate Valid(s: Slot) {
    && LaneOk(s.spiderRequests, s.closed) && LaneOk(s.middlewareRequests, s.closed)
    && LaneOk(s.spiderResponses, s.closed) && LaneOk(s.middlewareResponses, s.closed)
    && (s.closed ==> !s.open)
    && (s.closeWaiter.Some? <==> s.closed)
    && (s.closeWaiter.Some? ==> s.closeWaiter.value == s.id)
    && (s.open ==> s.openWaiter == Some(true))
  }

  /** `Slot.create`: four empty confirm-ack lanes, nothing bound, neither
      future resolved. */
  function Create(id: nat): (s: Slot)
    ensures Valid(s) && s.id == id && !IsBound(s)
    ensures !s.open && !s.closed && s.openWaiter.None?
    ensures forall d, b :: Lane(s, d, b) == Streams.New(true)
  {
    var lane := Streams.New<nat>(true);
    Slot(id, None, None, false, false, None, None, false, lane, lane, lane, lane)
  }

  // ---------------------------------------------------------------- binding

  predicate IsBound(s: Slot) {
    s.scraper.Some? && s.engine.Some?
  }

  /** `bind`: each given (truthy) argument replaces the current binding; an
      omitted one leaves it alone. */
  function Bind(s: Slot, scraper: Option<nat>, engine: Option<nat>): (r: Slot)
    ensures r.scraper == (if scraper.Some? then scraper else s.scraper)
    ensures r.engine == (if engine.Some? then engine else s.engine)
    ensures r == s.(scraper := r.scraper, engine := r.engine)
    ensures IsBound(s) ==> IsBound(r)
  {
    s.(scraper := if scraper.Some? then scraper else s.scraper,
       engine := if engine.Some? then engine else s.engine)
  }

  /** `unbind` as written: both branches clear the engine, so the scraper
      binding is never released. */
  function UnbindAsWritten(s: Slot, scraper: bool, engine: bool): (r: Slot)
    ensures r.scraper == s.scraper
    ensures r.engine == (if engine || scraper then None else s.engine)
    ensures r == s.(engine := r.engine)
  {
    var s1 := if engine then s.(engine := None) else s;
    if scraper then s1.(engine := None) else s1
  }

  /** `unbind` as intended: each flag releases its own binding. */
  function Unbind(s: Slot, scraper: bool, engine: bool): (r: Slot)
    ensures r.scraper == (if scraper then None else s.scraper)
    ensures r.engine == (if engine then None else s.engine)
    ensures r == s.(scraper := r.scraper, engine := r.engine)
    ensures (scraper || engine) ==> !IsBound(r)
  {
    var s1 := if engine then s.(engine := None) else s;
    if scraper then s1.(scraper := None) else s1
  }

  /** Unbinding only the scraper of a bound slot: as written the scraper stays
      bound and the engine is dropped instead; as intended the scraper is
      released and the engine kept. */
  lemma UnbindScraperDiscrepancy(s: Slot)
    requires IsBound(s)
    ensures UnbindAsWritten(s, true, false).scraper == s.scraper
    ensures UnbindAsWritten(s, true, false).engine.None?
    ensures Unbind(s, true, false).scraper.None?
    ensures Unbind(s, true, false).engine == s.engine
    ensures Bind(Unbind(s, true, false), s.scraper, None) == s
  {
  }

  // ---------------------------------------------------------------- opening

  /** `open`: waits for the open future and returns its result. */
  function Open(s: Slot): (r: Result<bool>)
    requires !IsBound(s) || s.openWaiter.Some?
    ensures r.Err? <==> !IsBound(s)
    ensures r.Err? ==> r.error == SlotUnbound
    ensures r.Ok? ==> Some(r.value) == s.openWaiter
  {
    if !IsBound(s) then Err(SlotUnbound) else Ok(s.openWaiter.value)
  }

  /** `set_open`: resolves the open future once; later calls change nothing. */
  function SetOpen(s: Slot): (r: Result<Slot>)
    ensures r.Err? <==> !IsBound(s)
    ensures r.Ok? && s.openWaiter.Some? ==> r.value == s
    ensures r.Ok? && s.openWaiter.None? ==> r.value == s.(open := true, openWaiter := Some(true))
  {
    if !IsBound(s) then Err(SlotUnbound)
    else if s.openWaiter.Some? then Ok(s)
    else Ok(s.(open := true, openWaiter := Some(true)))
  }

  /** `wait_close`: waits for the close future and returns its result. */
  function WaitClose(s: Slot): (r: Result<nat>)
    requires !IsBound(s) || s.closeWaiter.Some?
    ensures r.Err? <==> !IsBound(s)
    ensures r.Ok? && Valid(s) ==> r.value == s.id && s.closed
  {
    if !IsBound(s) then Err(SlotUnbound) else Ok(s.closeWaiter.value)
  }

  // ------------------------------------------------------ routing the units

  /** The lane a read uses: the requested one, or when none is requested the
      list `[spider lane, middleware lane]` indexed by `randint(0, 1)`. */
  function ReadLane(spider: Option<bool>, draw: nat): (spiderLane: bool)
    ensures spider.Some? ==> spiderLane == spider.value
  {
    match spider
    case Some(b) => b
    case None => Choice.RandInt(0, 1, draw) == 0
  }

  /** What `put_*` stores and `get_*` reads back must be a unit of the
      direction's kind; anything else fails the source's `isinstance`
      assertion. */
  predicate Holds(units: map<nat, Units.Unit>, d: Dir, id: nat) {
    id in units && units[id].kind == KindOf(d)
  }

  datatype Placed = Placed(slot: Slot, units: map<nat, Units.Unit>)

  /** `put_request` / `put_response`: on a closed slot the unit is only marked
      as having reached the slot; otherwise it is marked, written to the
      spider lane when its context names a spider and to the middleware lane
      otherwise, and bound to this slot unless it is already bound. */
  function PutUnit(s: Slot, units: map<nat, Units.Unit>, d: Dir, id: nat): (r: Result<Placed>)
    requires Units.Store(units)
    ensures !Holds(units, d, id) ==> r == Err(AssertionFailed)
    ensures Holds(units, d, id) && !IsBound(s) ==> r == Err(SlotUnbound)
    ensures Holds(units, d, id) && IsBound(s) ==> r.Ok?
    ensures r.Ok? ==> Units.Store(r.value.units) && r.value.units.Keys == units.Keys
    ensures r.Ok? ==> Units.InPhase(r.value.units[id], Units.SlotPhase)
    ensures r.Ok? ==> r.value.units[id] == units[id].(state := r.value.units[id].state, slot := r.value.units[id].slot)
    ensures r.Ok? && s.closed ==> r.value.slot == s
    ensures r.Ok? && !s.closed ==>
      var lane := units[id].spider;
      && r.value.slot == WithLane(s, d, lane, Streams.Write(Lane(s, d, lane), id))
      && r.value.units[id].slot == (if units[id].slot.Some? then units[id].slot else Some(s.id))
    ensures r.Ok? ==> forall k :: k in units && k != id ==> r.value.units[k] == units[k]
  {
    if !Holds(units, d, id) then Err(AssertionFailed)
    else if !IsBound(s) then Err(SlotUnbound)
    else
      var u := Units.SetPhase(units[id], Units.SlotPhase);
      if s.closed then Ok(Placed(s, units[id := u]))
      else
        var lane := u.spider;
        var s1 := WithLane(s, d, lane, Streams.Write(Lane(s, d, lane), id));
        var u1 := if u.slot.None? then u.(slot := Some(s.id)) else u;
        Ok(Placed(s1, units[id := u1]))
  }

  /** `request_idle` / `response_idle`: only the spider lanes are consulted. */
  predicate SpiderLanesIdle(s: Slot) {
    Streams.Idle(s.spiderRequests) && Streams.Idle(s.spiderResponses)
  }

  datatype Completion = Completion(slot: Slot, units: map<nat, Units.Unit>, completedNow: bool)

  /** `complete_request` / `complete_response`: a unit is completed at most
      once. The first completion marks it, acknowledges it on the lane its
      context selects, and sets the idle event if the spider lanes are then
      idle; it returns True. A repeated completion returns False and changes
      nothing. */
  function CompleteUnit(s: Slot, units: map<nat, Units.Unit>, d: Dir, id: nat): (r: Result<Completion>)
    requires Units.Store(units)
    ensures !Holds(units, d, id) ==> r == Err(AssertionFailed)
    ensures Holds(units, d, id) && !IsBound(s) ==> r == Err(SlotUnbound)
    ensures Holds(units, d, id) && IsBound(s) ==> r.Ok?
    ensures r.Ok? ==> Units.Store(r.value.units) && r.value.units.Keys == units.Keys
    ensures r.Ok? ==> r.value.units[id].completed
    ensures r.Ok? ==> (r.value.completedNow <==> !units[id].completed)
    ensures r.Ok? && !r.value.completedNow ==> r.value.slot == s && r.value.units == units
    ensures r.Ok? && r.value.completedNow ==>
      var lane := units[id].spider;
      && Units.InPhase(r.value.units[id], Units.Complete)
      && r.value.slot == (var s1 := WithLane(s, d, lane, Streams.Ack(Lane(s, d, lane)));
                          s1.(idleEvent := s1.idleEvent || SpiderLanesIdle(s1)))
    ensures r.Ok? ==> forall k :: k in units && k != id ==> r.value.units[k] == units[k]
  {
    if !Holds(units, d, id) then Err(AssertionFailed)
    else if !IsBound(s) then Err(SlotUnbound)
    else
      var u := units[id];
      if u.completed then Ok(Completion(s, units, false))
      else
        var u1 := Units.SetPhase(Units.MarkComplete(u), Units.Complete);
        var s1 := WithLane(s, d, u.spider, Streams.Ack(Lane(s, d, u.spider)));
        var s2 := if SpiderLanesIdle(s1) then s1.(idleEvent := true) else s1;
        Ok(Completion(s2, units[id := u1], true))
  }

  datatype Fetched = Fetched(slot: Slot, units: map<nat, Units.Unit>, unit: Option<nat>)

  /** The read unit handed to the caller after its completion. */
  function Handed(c: Result<Completion>, id: nat): Result<Fetched> {
    match c
    case Ok(v) => Ok(Fetched(v.slot, v.units, Some(id)))
    case Err(e) => Err(e)
  }

  /** `get_request` / `get_response`: None on a closed slot; otherwise one read
      from the selected lane, completed on the spot unless the caller delays
      completion. */
  function GetUnit(s: Slot, units: map<nat, Units.Unit>, d: Dir, spider: Option<bool>,
                   delayComplete: bool, draw: nat): (r: Result<Fetched>)
    requires Valid(s) && Units.Store(units)
    requires !IsBound(s) || s.closed || |Lane(s, d, ReadLane(spider, draw)).buffer| > 0
    ensures !IsBound(s) ==> r == Err(SlotUnbound)
    ensures IsBound(s) && s.closed ==> r == Ok(Fetched(s, units, None))
    ensures IsBound(s) && !s.closed && Lane(s, d, ReadLane(spider, draw)).buffer[0].Item? ==>
      var lane := ReadLane(spider, draw);
      var id := Lane(s, d, lane).buffer[0].value;
      var taken := WithLane(s, d, lane, Streams.GetPlain(Lane(s, d, lane)).s);
      && Lane(taken, d, lane).buffer == Lane(s, d, lane).buffer[1..]
      && (delayComplete ==> r == Ok(Fetched(taken, units, Some(id))))
      && (!delayComplete ==> r == Handed(CompleteUnit(taken, units, d, id), id))
      && (!delayComplete && Holds(units, d, id) ==>
            (r.Ok? && r.value.unit == Some(id) && r.value.units.Keys == units.Keys
             && r.value.units[id].completed))
  {
    if !IsBound(s) then Err(SlotUnbound)
    else if s.closed then Ok(Fetched(s, units, None))
    else
      var lane := ReadLane(spider, draw);
      var g := Streams.GetPlain(Lane(s, d, lane));
      var s1 := WithLane(s, d, lane, g.s);
      match g.out
      case Raised(e) => Err(Raised(e))
      case Nothing => if delayComplete then Ok(Fetched(s1, units, None)) else Err(AssertionFailed)
      case Got(id) =>
        if delayComplete then Ok(Fetched(s1, units, Some(id)))
        else Handed(CompleteUnit(s1, units, d, id), id)
  }

  // ---------------------------------------------------------------- idleness

  /** `idle(flag)`: the SLOT flag checks the spider lanes; any other flags are
      passed on together to the bound engine's `idle`, which may itself raise
      (SlotUnbound through its slot manager, or its assertion). The engine is
      asked even when the lanes are busy, since `&=` does not short-circuit,
      so its exception always propagates. */
  function Idle(s: Slot, flags: set<Flags.IdleFlag>, engineIdle: set<Flags.IdleFlag> -> Result<bool>)
    : (r: Result<bool>)
    ensures r.Err? <==> !IsBound(s) || (flags - {Flags.SlotFlag} != {} && engineIdle(flags - {Flags.SlotFlag}).Err?)
    ensures !IsBound(s) ==> r == Err(SlotUnbound)
    ensures IsBound(s) && flags - {Flags.SlotFlag} != {} && engineIdle(flags - {Flags.SlotFlag}).Err? ==>
      r == engineIdle(flags - {Flags.SlotFlag})
    ensures r.Ok? ==>
      (r.value <==> (Flags.SlotFlag in flags ==> SpiderLanesIdle(s))
                    && (flags - {Flags.SlotFlag} != {} ==> engineIdle(flags - {Flags.SlotFlag}).value))
  {
    if !IsBound(s) then Err(SlotUnbound)
    else
      var slotIdle := if Flags.SlotFlag in flags then SpiderLanesIdle(s) else true;
      var rest := flags - {Flags.SlotFlag};
      if rest == {} then Ok(slotIdle)
      else
        var engine :- engineIdle(rest);
        Ok(slotIdle && engine)
  }

  /** The idle check never looks at the middleware lanes: a backlog there does
      not make the slot busy. */
  lemma IdleIgnoresMiddlewareLanes(s: Slot, req: Streams.Stream<nat>, resp: Streams.Stream<nat>,
                                   flags: set<Flags.IdleFlag>, engineIdle: set<Flags.IdleFlag> -> Result<bool>)
    ensures Idle(s.(middlewareRequests := req, middlewareResponses := resp), flags, engineIdle)
         == Idle(s, flags, engineIdle)
  {
  }

  /** `wait_idle(flag)`: with the SLOT flag, waits for the idle event and
      clears it; other flags wait on the engine. */
  function WaitIdle(s: Slot, flags: set<Flags.IdleFlag>, engineReady: bool): (r: Result<Slot>)
    requires !IsBound(s) || (Flags.SlotFlag in flags ==> s.idleEvent)
    requires !IsBound(s) || (flags - {Flags.SlotFlag} != {} ==> engineReady)
    ensures r.Err? <==> !IsBound(s)
    ensures r.Ok? ==> r.value == s.(idleEvent := r.value.idleEvent)
    ensures r.Ok? ==> (r.value.idleEvent <==> (s.idleEvent && Flags.SlotFlag !in flags))
  {
    if !IsBound(s) then Err(SlotUnbound)
    else if Flags.SlotFlag in flags then Ok(s.(idleEvent := false))
    else Ok(s)
  }

  // ------------------------------------------------------- joining, closing

  /** `join` as written awaits `join()` on the two lane lists; a list has no
      such method, so a bound slot always raises AttributeError. */
  function JoinAsWritten(s: Slot): (r: Result<()>)
    ensures r.Err?
    ensures r.error == (if IsBound(s) then AttributeError else SlotUnbound)
  {
    if !IsBound(s) then Err(SlotUnbound) else Err(AttributeError)
  }

  predicate LanesJoinReady(s: Slot) {
    && Streams.JoinReady(s.spiderRequests) && Streams.JoinReady(s.middlewareRequests)
    && Streams.JoinReady(s.spiderResponses) && Streams.JoinReady(s.middlewareResponses)
  }

  /** `join` as intended: returns once every request lane and every response
      lane has been joined. */
  function Join(s: Slot): (r: Result<()>)
    requires !IsBound(s) || LanesJoinReady(s)
    ensures r.Err? <==> !IsBound(s)
  {
    if !IsBound(s) then Err(SlotUnbound) else Ok(())
  }

  /** `close`: a second close returns at once. The first marks the slot
      closed, resolves the close future with the slot's id, sets the idle
      event and closes the middleware lanes, then the spider lanes. */
  function Close(s: Slot): (r: Result<Slot>)
    ensures !IsBound(s) ==> r == Err(SlotUnbound)
    ensures IsBound(s) && s.closed ==> r == Ok(s)
    ensures r.Ok? && !s.closed ==> r.value.closed && !r.value.open && r.value.idleEvent
    ensures r.Ok? && !s.closed ==> r.value.closeWaiter == Some(s.id)
    ensures r.Ok? && !s.closed ==>
      && r.value.spiderRequests.closed && r.value.middlewareRequests.closed
      && r.value.spiderResponses.closed && r.value.middlewareResponses.closed
    ensures r.Ok? ==> r.value.id == s.id && IsBound(r.value)
  {
    if !IsBound(s) then Err(SlotUnbound)
    else if s.closed then Ok(s)
    else
      var s1 := s.(open := false, closed := true, closeWaiter := Some(s.id), idleEvent := true);
      var mreq :- Streams.Close(s1.middlewareRequests);
      var mresp :- Streams.Close(s1.middlewareResponses);
      var sreq :- Streams.Close(s1.spiderRequests);
      var sresp :- Streams.Close(s1.spiderResponses);
      Ok(s1.(middlewareRequests := mreq, middlewareResponses := mresp,
             spiderRequests := sreq, spiderResponses := sresp))
  }

  /** Every operation of a slot without a scraper or engine raises
      SlotUnbound. */
  lemma UnboundRejects(s: Slot, units: map<nat, Units.Unit>, d: Dir, id: nat, flags: set<Flags.IdleFlag>,
                       engineIdle: set<Flags.IdleFlag> -> Result<bool>)
    requires !IsBound(s) && Units.Store(units) && Holds(units, d, id)
    ensures SetOpen(s) == Err(SlotUnbound) && Open(s) == Err(SlotUnbound)
    ensures WaitClose(s) == Err(SlotUnbound) && Close(s) == Err(SlotUnbound)
    ensures PutUnit(s, units, d, id) == Err(SlotUnbound)
    ensures CompleteUnit(s, units, d, id) == Err(SlotUnbound)
    ensures Idle(s, flags, engineIdle) == Err(SlotUnbound)
    ensures Join(s) == Err(SlotUnbound)
  {
  }

  /** A successful close leaves the slot closed, so closing it again returns
      the same slot. */
  lemma CloseIdempotent(s: Slot)
    requires Close(s).Ok?
    ensures Close(Close(s).value) == Close(s)
  {
  }

  /** A closed slot takes no more units: a put only marks the unit, and a get
      returns None, both leaving the slot as it was. */
  lemma ClosedSlotTakesNothing(s: Slot, units: map<nat, Units.Unit>, d: Dir, id: nat,
                               spider: Option<bool>, delayComplete: bool, draw: nat)
    requires Valid(s) && IsBound(s) && s.closed && Units.Store(units) && Holds(units, d, id)
    ensures PutUnit(s, units, d, id).Ok? && PutUnit(s, units, d, id).value.slot == s
    ensures GetUnit(s, units, d, spider, delayComplete, draw) == Ok(Fetched(s, units, None))
  {
  }

  /** Every unit still counted as unfinished on each lane, as the slot's own
      operations guarantee unless a unit is completed before it is read. */
  predicate Covered(st: Streams.Stream<nat>) {
    |st.buffer| <= st.unfinished
  }

  predicate LanesCovered(s: Slot) {
    && Covered(s.spiderRequests) && Covered(s.middlewareRequests)
    && Covered(s.spiderResponses) && Covered(s.middlewareResponses)
  }

  lemma {:induction false} CloseLane(st: Streams.Stream<nat>)
    requires LaneOk(st, false) && |st.buffer| <= st.unfinished
    ensures Streams.Close(st).Ok? && LaneOk(Streams.Close(st).value, true)
  {
    Streams.CloseDiscardsItems(st);
  }

  /** Closing an open, valid slot whose lanes are covered succeeds and keeps
      the slot valid. */
  lemma CloseKeepsValid(s: Slot)
    requires Valid(s) && IsBound(s) && !s.closed && LanesCovered(s)
    ensures Close(s).Ok? && Valid(Close(s).value)
  {
    CloseLane(s.middlewareRequests);
    CloseLane(s.middlewareResponses);
    CloseLane(s.spiderRequests);
    CloseLane(s.spiderResponses);
  }

  /** Replacing one lane by a lane in the same condition keeps the slot valid. */
  lemma WithLaneValid(s: Slot, d: Dir, b: bool, st: Streams.Stream<nat>)
    requires Valid(s) && LaneOk(st, s.closed)
    ensures Valid(WithLane(s, d, b, st))
  {
  }

  /** Putting a unit keeps the slot valid. */
  lemma PutKeepsValid(s: Slot, units: map<nat, Units.Unit>, d: Dir, id: nat)
    requires Valid(s) && Units.Store(units)
    ensures PutUnit(s, units, d, id).Ok? ==> Valid(PutUnit(s, units, d, id).value.slot)
  {
    if PutUnit(s, units, d, id).Ok? && !s.closed {
      var lane := units[id].spider;
      var st := Lane(s, d, lane);
      assert LaneOk(st, false) by {
        assert Lane(s, d, lane) in [s.spiderRequests, s.middlewareRequests, s.spiderResponses, s.middlewareResponses];
      }
      var w := Streams.Write(st, id);
      assert Streams.NoEnd(w.buffer) by {
        forall i | 0 <= i < |w.buffer| ensures w.buffer[i].Item? {
          if i < |st.buffer| { assert w.buffer[i] == st.buffer[i]; }
        }
      }
      WithLaneValid(s, d, lane, w);
    }
  }

  /** Completing a unit keeps the slot valid. */
  lemma CompleteKeepsValid(s: Slot, units: map<nat, Units.Unit>, d: Dir, id: nat)
    requires Valid(s) && Units.Store(units)
    ensures CompleteUnit(s, units, d, id).Ok? ==> Valid(CompleteUnit(s, units, d, id).value.slot)
  {
    var r := CompleteUnit(s, units, d, id);
    if r.Ok? && r.value.completedNow {
      var lane := units[id].spider;
      var st := Lane(s, d, lane);
      assert LaneOk(st, s.closed) by {
        assert Lane(s, d, lane) in [s.spiderRequests, s.middlewareRequests, s.spiderResponses, s.middlewareResponses];
      }
      WithLaneValid(s, d, lane, Streams.Ack(st));
    }
  }

  /** Putting a unit into its empty lane leaves exactly that unit queued. */
  lemma PutIntoEmptyLane(s: Slot, units: map<nat, Units.Unit>, d: Dir, id: nat)
    requires Valid(s) && IsBound(s) && !s.closed && Units.Store(units) && Holds(units, d, id)
    requires Lane(s, d, units[id].spider).buffer == [] && Lane(s, d, units[id].spider).unfinished == 0
    ensures PutUnit(s, units, d, id).Ok?
    ensures var p := PutUnit(s, units, d, id).value;
            && Valid(p.slot) && IsBound(p.slot) && !p.slot.closed
            && Units.Store(p.units) && Holds(p.units, d, id)
            && p.units[id].spider == units[id].spider && p.units[id].completed == units[id].completed
            && Lane(p.slot, d, units[id].spider).buffer == [Streams.Item(id)]
            && Lane(p.slot, d, units[id].spider).unfinished == 1
  {
    PutKeepsValid(s, units, d, id);
  }

  /** The first completion of a unit acknowledges it on its lane. */
  lemma CompleteAcksLane(s: Slot, units: map<nat, Units.Unit>, d: Dir, id: nat)
    requires IsBound(s) && Units.Store(units) && Holds(units, d, id) && !units[id].completed
    requires !Lane(s, d, units[id].spider).closed && Lane(s, d, units[id].spider).confirmAck
    requires Lane(s, d, units[id].spider).unfinished == 1
    ensures CompleteUnit(s, units, d, id).Ok?
    ensures CompleteUnit(s, units, d, id).value.units[id].completed
    ensures Lane(CompleteUnit(s, units, d, id).value.slot, d, units[id].spider).unfinished == 0
  {
    var lane := units[id].spider;
    var s1 := WithLane(s, d, lane, Streams.Ack(Lane(s, d, lane)));
    assert Lane(s1.(idleEvent := s1.idleEvent || SpiderLanesIdle(s1)), d, lane) == Lane(s1, d, lane);
  }

  /** Reading the only queued unit of a lane without delaying completion
      hands it to the reader, completes it, and leaves nothing unfinished. */
  lemma GetCompletesOnlyUnit(s: Slot, units: map<nat, Units.Unit>, d: Dir, id: nat, draw: nat)
    requires Valid(s) && IsBound(s) && !s.closed && Units.Store(units) && Holds(units, d, id)
    requires !units[id].completed
    requires Lane(s, d, units[id].spider).buffer == [Streams.Item(id)]
    requires Lane(s, d, units[id].spider).unfinished == 1
    ensures var g := GetUnit(s, units, d, Some(units[id].spider), false, draw);
            && g.Ok? && g.value.unit == Some(id) && g.value.units[id].completed
            && Streams.JoinReady(Lane(g.value.slot, d, units[id].spider))
  {
    var lane := units[id].spider;
    var g := Streams.GetPlain(Lane(s, d, lane));
    assert g.s.unfinished == 1 && !g.s.closed && g.s.confirmAck by {
      assert LaneOk(Lane(s, d, lane), false) by {
        assert Lane(s, d, lane) in [s.spiderRequests, s.middlewareRequests, s.spiderResponses, s.middlewareResponses];
      }
    }
    var taken := WithLane(s, d, lane, g.s);
    CompleteAcksLane(taken, units, d, id);
  }



}

=== FILE: slotmanager.dfy ===
/** The `SlotManager` (araneid/core/slotmanager.py): the registry of slots
    keyed by slot id, in insertion order, with the three channels that feed
    its opening, processing and closing loops and the output channel on which
    requests taken from the slots are handed to the engine. The long-running
    loops are modelled by single steps; their own reader registrations on
    the channels are not. */
module SlotManagers {
  import opened Wrappers
  import Streams
  import Units
  import Flags
  import Slots

  datatype Manager = Manager(
    slots: map<nat, Slots.Slot>,
    order: seq<nat>,                    // the dict's insertion order
    opening: Streams.Stream<nat>,
    processing: Streams.Stream<nat>,
    closing: Streams.Stream<nat>,
    channel: Streams.Stream<nat>,       // requests on their way to the engine
    idleEvent: bool,
    closed: bool)

  /** The order lists every registered slot once, and each slot is filed
      under its own id. */
  ghost predicate Valid(m: Manager) {
    && (forall k :: k in m.slots <==> k in m.order)
    && Distinct(m.order)
    && (forall k :: k in m.slots ==> m.slots[k].id == k)
  }

  predicate Distinct(xs: seq<nat>) {
    forall i, j :: 0 <= i < j < |xs| ==> xs[i] != xs[j]
  }

  /** The channels are plain streams: every entry is one unfinished task. */
  predicate ChannelsBalanced(m: Manager) {
    && !m.opening.confirmAck && Streams.Balanced(m.opening)
    && !m.processing.confirmAck && Streams.Balanced(m.processing)
    && !m.closing.confirmAck && Streams.Balanced(m.closing)
    && !m.channel.confirmAck && Streams.Balanced(m.channel)
  }

  /** `SlotManager.create`. */
  function Create(): (m: Manager)
    ensures Valid(m) && ChannelsBalanced(m) && m.slots == map[] && !m.closed
  {
    var c := Streams.New<nat>(false);
    Manager(map[], [], c, c, c, c, false, false)
  }

  /** `add_slot`: files the slot under its id (keeping the position of an id
      already present) and announces it on the opening, processing and
      closing channels. */
  function AddSlot(m: Manager, s: Slots.Slot): (r: Manager)
    requires Valid(m)
    ensures Valid(r) && r.slots == m.slots[s.id := s]
    ensures s.id !in m.slots ==> r.order == m.order + [s.id]
    ensures s.id in m.slots ==> r.order == m.order
    ensures r.opening == Streams.Write(m.opening, s.id) && r.processing == Streams.Write(m.processing, s.id)
    ensures r.closing == Streams.Write(m.closing, s.id) && r.channel == m.channel
    ensures r.closed == m.closed && r.idleEvent == m.idleEvent
  {
    var order := if s.id in m.slots then m.order else m.order + [s.id];
    m.(slots := m.slots[s.id := s], order := order,
       opening := Streams.Write(m.opening, s.id),
       processing := Streams.Write(m.processing, s.id),
       closing := Streams.Write(m.closing, s.id))
  }

  /** `get_slot`: a slot object is always truthy, so this is a plain lookup. */
  function GetSlot(m: Manager, id: nat): (r: Option<Slots.Slot>)
    ensures r.Some? <==> id in m.slots
    ensures r.Some? ==> r.value == m.slots[id]
  {
    if id in m.slots then Some(m.slots[id]) else None
  }

  function Remove(order: seq<nat>, id: nat): (r: seq<nat>)
    ensures forall k :: k in r <==> k in order && k != id
    ensures Distinct(order) ==> Distinct(r)
    ensures |r| <= |order| && (id in order ==> |r| < |order|)
    decreases |order|
  {
    if |order| == 0 then []
    else if order[0] == id then Remove(order[1..], id)
    else
      var rest := Remove(order[1..], id);
      assert Distinct(order) ==> order[0] !in order[1..];
      [order[0]] + rest
  }

  /** `close_slot`: unknown ids are ignored; a known slot is closed and then
      removed from the registry. */
  function CloseSlot(m: Manager, id: nat): (r: Result<Manager>)
    requires Valid(m)
    ensures id !in m.slots ==> r == Ok(m)
    ensures id in m.slots ==> (r.Ok? <==> Slots.Close(m.slots[id]).Ok?)
    ensures id in m.slots && r.Err? ==> r.error == Slots.Close(m.slots[id]).error
    ensures r.Ok? ==> Valid(r.value) && r.value.slots == m.slots - {id}
    ensures r.Ok? ==> r.value == m.(slots := r.value.slots, order := r.value.order)
  {
    if id !in m.slots then Ok(m)
    else
      var _ :- Slots.Close(m.slots[id]);
      Ok(m.(slots := m.slots - {id}, order := Remove(m.order, id)))
  }

  /** The slot a unit is routed to: the one given, else the unit's own
      binding. A missing or zero id is falsy. */
  function TargetSlot(u: Units.Unit, slotId: Option<nat>): (r: Option<nat>)
    ensures slotId.Some? ==> r == slotId
    ensures slotId.None? ==> r == u.slot
  {
    if slotId.Some? then slotId else u.slot
  }

  datatype Routed = Routed(manager: Manager, units: map<nat, Units.Unit>)

  /** `put_request` / `put_response`: a unit that resolves to no slot raises
      SlotError; a slot id that is not registered (any more) drops the unit;
      otherwise the slot's own put decides. */
  function PutUnit(m: Manager, units: map<nat, Units.Unit>, d: Slots.Dir, id: nat, slotId: Option<nat>)
    : (r: Result<Routed>)
    requires id in units && Units.Store(units)
    ensures var t := TargetSlot(units[id], slotId);
            && (t.None? || t.value == 0 ==> r == Err(SlotError))
            && (t.Some? && t.value != 0 && t.value !in m.slots ==> r == Ok(Routed(m, units)))
            && (t.Some? && t.value != 0 && t.value in m.slots ==>
                  var p := Slots.PutUnit(m.slots[t.value], units, d, id);
                  && (r.Ok? <==> p.Ok?)
                  && (r.Ok? ==>
                        && r.value.units == p.value.units
                        && r.value.manager == m.(slots := m.slots[t.value := p.value.slot])))
  {
    var t := TargetSlot(units[id], slotId);
    if t.None? || t.value == 0 then Err(SlotError)
    else match GetSlot(m, t.value)
      case None => Ok(Routed(m, units))
      case Some(s) =>
        var p :- Slots.PutUnit(s, units, d, id);
        Ok(Routed(m.(slots := m.slots[t.value := p.slot]), p.units))
  }

  /** Putting into a registered slot keeps the registry valid, provided the
      slot keeps its id. */
  lemma PutKeepsValid(m: Manager, units: map<nat, Units.Unit>, d: Slots.Dir, id: nat, slotId: Option<nat>)
    requires Valid(m) && id in units && Units.Store(units)
    ensures PutUnit(m, units, d, id, slotId).Ok? ==> Valid(PutUnit(m, units, d, id, slotId).value.manager)
  {
  }

  /** One turn of the lane race of `__get_request`: a request taken from the
      lane that answered first, without completing it, is written to the
      output channel. A closed slot ends the loop and a missing slot is
      ignored. */
  function TakeRequest(m: Manager, units: map<nat, Units.Unit>, slotId: nat, spiderLane: bool)
    : (r: Result<Routed>)
    requires Units.Store(units)
    requires slotId in m.slots ==> Slots.Valid(m.slots[slotId])
    requires slotId in m.slots && Slots.IsBound(m.slots[slotId]) && !m.slots[slotId].closed ==>
               |Slots.Lane(m.slots[slotId], Slots.Requests, spiderLane).buffer| > 0
    ensures slotId !in m.slots ==> r == Ok(Routed(m, units))
    ensures slotId in m.slots && !Slots.IsBound(m.slots[slotId]) ==> r == Err(SlotUnbound)
    ensures slotId in m.slots && Slots.IsBound(m.slots[slotId]) && m.slots[slotId].closed ==>
              r == Ok(Routed(m, units))
    ensures r.Ok? ==> r.value.units == units
  {
    match GetSlot(m, slotId)
    case None => Ok(Routed(m, units))
    case Some(s) =>
      if !Slots.IsBound(s) then Err(SlotUnbound)
      else if s.closed then Ok(Routed(m, units))
      else
        var f :- Slots.GetUnit(s, units, Slots.Requests, Some(spiderLane), true, 0);
        var m1 := m.(slots := m.slots[slotId := f.slot]);
        match f.unit
        case Some(req) => Ok(Routed(m1.(channel := Streams.Write(m.channel, req)), f.units))
        case None => Ok(Routed(m1, f.units))
  }

  /** A request taken from an open slot goes to the output channel and is
      not completed: its lane still counts it as unfinished, so the slot does
      not turn idle before the request has been processed. */
  lemma TakenRequestForwarded(m: Manager, units: map<nat, Units.Unit>, slotId: nat, spiderLane: bool)
    requires Units.Store(units) && slotId in m.slots && Slots.Valid(m.slots[slotId])
    requires Slots.IsBound(m.slots[slotId]) && !m.slots[slotId].closed
    requires |Slots.Lane(m.slots[slotId], Slots.Requests, spiderLane).buffer| > 0
    ensures TakeRequest(m, units, slotId, spiderLane).Ok?
    ensures var lane := Slots.Lane(m.slots[slotId], Slots.Requests, spiderLane);
            var m1 := TakeRequest(m, units, slotId, spiderLane).value.manager;
            && m1.channel == Streams.Write(m.channel, lane.buffer[0].value)
            && Slots.Lane(m1.slots[slotId], Slots.Requests, spiderLane).buffer == lane.buffer[1..]
            && Slots.Lane(m1.slots[slotId], Slots.Requests, spiderLane).unfinished == lane.unfinished
  {
    var s := m.slots[slotId];
    var lane := Slots.Lane(s, Slots.Requests, spiderLane);
    assert Slots.LaneOk(lane, false) by {
      assert lane in [s.spiderRequests, s.middlewareRequests, s.spiderResponses, s.middlewareResponses];
    }
  }

  // ---------------------------------------------------------------- idleness

  function NoEngine(fs: set<Flags.IdleFlag>): Result<bool> { Ok(true) }

  /** `idle`: the conjunction of every slot's own idle check, taken in
      registration order; every slot is asked, so one unbound slot makes the
      whole check raise SlotUnbound. */
  function IdleOver(slots: map<nat, Slots.Slot>, ks: seq<nat>): Result<bool>
    requires forall k :: k in ks ==> k in slots
    decreases |ks|
  {
    if |ks| == 0 then Ok(true)
    else
      var here :- Slots.Idle(slots[ks[0]], {Flags.SlotFlag}, NoEngine);
      var rest :- IdleOver(slots, ks[1..]);
      Ok(here && rest)
  }

  function Idle(m: Manager): Result<bool>
    requires Valid(m)
  {
    IdleOver(m.slots, m.order)
  }

  /** The registry-wide idle check raises exactly when some slot is unbound,
      and otherwise holds exactly when every slot's spider lanes are idle. */
  lemma {:induction false} IdleOverMeaning(slots: map<nat, Slots.Slot>, ks: seq<nat>)
    requires forall k :: k in ks ==> k in slots
    ensures IdleOver(slots, ks).Err? <==> exists k :: k in ks && !Slots.IsBound(slots[k])
    ensures IdleOver(slots, ks).Err? ==> IdleOver(slots, ks).error == SlotUnbound
    ensures IdleOver(slots, ks).Ok? ==>
      (IdleOver(slots, ks).value <==> forall k :: k in ks ==> Slots.SpiderLanesIdle(slots[k]))
    decreases |ks|
  {
    if |ks| > 0 {
      IdleOverMeaning(slots, ks[1..]);
      assert forall k :: k in ks <==> k == ks[0] || k in ks[1..];
    }
  }

  lemma IdleMeaning(m: Manager)
    requires Valid(m)
    ensures Idle(m).Err? <==> exists k :: k in m.slots && !Slots.IsBound(m.slots[k])
    ensures Idle(m).Ok? ==> (Idle(m).value <==> forall k :: k in m.slots ==> Slots.SpiderLanesIdle(m.slots[k]))
  {
    IdleOverMeaning(m.slots, m.order);
  }

  /** An empty registry is idle; registering a bound slot whose spider lanes
      are busy makes the registry busy. */
  lemma AddBusySlot(m: Manager, s: Slots.Slot)
    requires Valid(m) && Idle(m).Ok? && Slots.IsBound(s) && !Slots.SpiderLanesIdle(s)
    ensures Idle(Create()) == Ok(true)
    ensures Idle(AddSlot(m, s)) == Ok(false)
  {
    IdleMeaning(m);
    var m1 := AddSlot(m, s);
    IdleMeaning(m1);
    assert m1.slots[s.id] == s;
    IdleMeaning(Create());
  }

  // --------------------------------------------------------- join and close

  predicate Unbound(m: Manager, k: nat) {
    k in m.slots && !Slots.IsBound(m.slots[k])
  }

  /** Every bound registered slot has closed, resolving its close future
      with its id. */
  predicate AllCloseResolved(m: Manager) {
    forall k :: k in m.slots && Slots.IsBound(m.slots[k]) ==>
      m.slots[k].closed && m.slots[k].closeWaiter == Some(k)
  }

  /** `join`: waits on every slot's close future and closes and removes
      each slot whose future resolved, until none is left. The future of an
      unbound slot fails with SlotUnbound as soon as it runs, so `join`
      raises whenever an unbound slot is registered, whether or not the
      bound ones have closed; otherwise the model requires every bound
      slot's future to be resolved already, and awaits them in registration
      order. */
  method Join(m: Manager) returns (r: Result<Manager>)
    requires Valid(m) && ((exists k :: Unbound(m, k)) || AllCloseResolved(m))
    ensures r.Err? <==> exists k :: Unbound(m, k)
    ensures r.Err? ==> r.error == SlotUnbound
    ensures r.Ok? ==> r.value == m.(slots := map[], order := [])
  {
    if exists k | k in m.slots :: !Slots.IsBound(m.slots[k]) {
      ghost var k :| k in m.slots && !Slots.IsBound(m.slots[k]);
      assert Unbound(m, k);
      return Err(SlotUnbound);
    }
    var cur := m;
    while |cur.order| > 0
      invariant Valid(cur) && AllCloseResolved(cur)
      invariant forall k :: k in cur.slots ==> k in m.slots && cur.slots[k] == m.slots[k]
      invariant forall k :: k in cur.slots ==> Slots.IsBound(cur.slots[k])
      invariant cur == m.(slots := cur.slots, order := cur.order)
      decreases |cur.order|
    {
      var s := cur.slots[cur.order[0]];
      var waited := Slots.WaitClose(s);
      var closedId := waited.value;
      cur := CloseSlot(cur, closedId).value;
    }
    assert cur.order == [];
    assert cur.slots == map[];
    return Ok(cur);
  }

  /** `close` of every registered slot, in registration order, stopping at
      the first exception. */
  function CloseAll(slots: map<nat, Slots.Slot>, ks: seq<nat>): (r: Result<()>)
    requires forall k :: k in ks ==> k in slots
    ensures r.Ok? <==> forall k :: k in ks ==> Slots.Close(slots[k]).Ok?
    decreases |ks|
  {
    if |ks| == 0 then Ok(())
    else
      var _ :- Slots.Close(slots[ks[0]]);
      assert forall k :: k in ks <==> k == ks[0] || k in ks[1..];
      CloseAll(slots, ks[1..])
  }

  /** `close`: a second close returns at once. The first sets the idle event,
      closes every slot, closes the opening, processing, closing and output
      channels, and empties the registry. */
  function Close(m: Manager): (r: Result<Manager>)
    requires Valid(m)
    ensures m.closed ==> r == Ok(m)
    ensures !m.closed ==> (r.Ok? ==> forall k :: k in m.slots ==> Slots.Close(m.slots[k]).Ok?)
    ensures r.Ok? ==> r.value.closed && Valid(r.value)
    ensures r.Ok? && !m.closed ==>
      && r.value.slots == map[]
      && r.value.idleEvent
      && r.value.opening.closed && r.value.processing.closed
      && r.value.closing.closed && r.value.channel.closed
  {
    if m.closed then Ok(m)
    else
      var _ :- CloseAll(m.slots, m.order);
      var opening :- Streams.Close(m.opening);
      var processing :- Streams.Close(m.processing);
      var closing :- Streams.Close(m.closing);
      var channel :- Streams.Close(m.channel);
      Ok(Manager(map[], [], opening, processing, closing, channel, true, true))
  }

  /** Closing twice is closing once. */
  lemma CloseIdempotent(m: Manager)
    requires Valid(m) && Close(m).Ok?
    ensures Close(Close(m).value) == Close(m)
  {
  }

  /** A registry whose slots have all been joined (and so removed) closes
      without error: its channels are plain streams, which always close. */
  lemma CloseAfterJoin(m: Manager)
    requires ChannelsBalanced(m) && m.slots == map[] && m.order == []
    ensures Close(m).Ok?
  {
    Streams.BalancedCloseSucceeds(m.opening);
    Streams.BalancedCloseSucceeds(m.processing);
    Streams.BalancedCloseSucceeds(m.closing);
    Streams.BalancedCloseSucceeds(m.channel);
  }
}

=== FILE: state.dfy ===
/** Per-object state flags (araneid/state.py): an object owns one event per
    member of its `States` enum, each of which is either set or clear. Every
    accessor asserts that the flag belongs to the enum; that assertion is a
    precondition here. */
module States {

  /** The enum's members and the flags currently set. */
  datatype FlagState<F> = FlagState(members: set<F>, raised: set<F>)

  predicate Valid<F>(st: FlagState<F>) {
    st.raised <= st.members
  }

  /** `State.__init__`: one clear event per member. */
  function NewState<F>(members: set<F>): (st: FlagState<F>)
    ensures Valid(st) && st.members == members
    ensures forall f :: f in members ==> !InState(st, f)
  {
    FlagState(members, {})
  }

  /** `in_state`: whether the flag's event is set. */
  predicate InState<F>(st: FlagState<F>, f: F)
    requires f in st.members
  {
    f in st.raised
  }

  /** `set_state`: sets the flag's event; setting it again changes nothing. */
  function SetState<F>(st: FlagState<F>, f: F): (r: FlagState<F>)
    requires f in st.members
    ensures r.members == st.members && InState(r, f)
    ensures forall g :: g in st.members && g != f ==> (InState(r, g) <==> InState(st, g))
    ensures InState(st, f) ==> r == st
    ensures Valid(st) ==> Valid(r)
  {
    if f in st.raised then st else st.(raised := st.raised + {f})
  }

  /** `reset_state`: clears only the named flag. */
  function ResetState<F>(st: FlagState<F>, f: F): (r: FlagState<F>)
    requires f in st.members
    ensures r.members == st.members && !InState(r, f)
    ensures forall g :: g in st.members && g != f ==> (InState(r, g) <==> InState(st, g))
    ensures Valid(st) ==> Valid(r)
  {
    if f in st.raised then st.(raised := st.raised - {f}) else st
  }

  /** `clear_states`: clears every flag. */
  function ClearStates<F>(st: FlagState<F>): (r: FlagState<F>)
    ensures r.members == st.members && Valid(r)
    ensures forall f :: f in st.members ==> !InState(r, f)
  {
    st.(raised := {})
  }

  /** `wait_state` returns once the flag is set. */
  predicate WaitReady<F>(st: FlagState<F>, f: F)
    requires f in st.members
  {
    InState(st, f)
  }

  /** Setting a flag twice is the same as setting it once, and resetting it
      afterwards leaves the other flags as the set found them. */
  lemma SetIdempotent<F>(st: FlagState<F>, f: F)
    requires f in st.members
    ensures SetState(SetState(st, f), f) == SetState(st, f)
    ensures !InState(st, f) ==> ResetState(SetState(st, f), f) == st
  {
  }
}

=== FILE: stats.dfy ===
/** Statistics (araneid/stats.py): `Stats`, a dict of dicts addressed by
    dotted keys, and `StatsCollector`, which keeps the global statistics and
    the per-spider ones apart, the latter under a `spider_<id>` key. Keys are
    strings and the separator is one character. */
module Stats {
  import opened Wrappers

  /** A statistic: a number, a string, None, a nested dict, or some other
      object (a spider state, a latch) named by its type, which neither
      holds keys nor takes part in arithmetic with a number. */
  datatype Value = Num(n: int) | Str(s: string) | NoneValue | Dict(entries: map<string, Value>) | Other(tag: string)

  type Store = map<string, Value>

  // ------------------------------------------------------------ dotted keys

  /** `str.split` with a one-character separator: always at least one part,
      and no part contains the separator. */
  function Split(s: string, sep: char): (r: seq<string>)
    ensures |r| >= 1
    ensures forall i :: 0 <= i < |r| ==> sep !in r[i]
    decreases |s|
  {
    if |s| == 0 then [""]
    else
      var rest := Split(s[1..], sep);
      if s[0] == sep then [""] + rest else [[s[0]] + rest[0]] + rest[1..]
  }

  /** `sep.join(parts)`. */
  function Join(parts: seq<string>, sep: char): (s: string)
    requires |parts| >= 1
    decreases |parts|
  {
    if |parts| == 1 then parts[0] else parts[0] + [sep] + Join(parts[1..], sep)
  }

  /** A part free of the separator sticks to the first part of what follows. */
  lemma {:induction false} SplitPrefix(p: string, s: string, sep: char)
    requires sep !in p
    ensures Split(p + s, sep) == [p + Split(s, sep)[0]] + Split(s, sep)[1..]
    decreases |p|
  {
    if |p| == 0 {
      assert p + s == s;
      assert p + Split(s, sep)[0] == Split(s, sep)[0];
    } else {
      var rest := Split((p + s)[1..], sep);
      assert (p + s)[1..] == p[1..] + s;
      assert (p + s)[0] == p[0] != sep;
      SplitPrefix(p[1..], s, sep);
      assert rest[0] == p[1..] + Split(s, sep)[0];
      assert rest[1..] == Split(s, sep)[1..];
      assert Split(p + s, sep) == [[p[0]] + rest[0]] + rest[1..];
      assert [p[0]] + (p[1..] + Split(s, sep)[0]) == p + Split(s, sep)[0];
    }
  }

  /** Splitting a joined key gives back its parts. */
  lemma {:induction false} SplitJoin(parts: seq<string>, sep: char)
    requires |parts| >= 1
    requires forall i :: 0 <= i < |parts| ==> sep !in parts[i]
    ensures Split(Join(parts, sep), sep) == parts
    decreases |parts|
  {
    if |parts| == 1 {
      SplitPrefix(parts[0], "", sep);
      assert parts[0] + "" == parts[0];
    } else {
      var tail := Join(parts[1..], sep);
      SplitJoin(parts[1..], sep);
      assert ([sep] + tail)[1..] == tail;
      assert Split([sep] + tail, sep) == [""] + parts[1..];
      assert parts[0] + [sep] + tail == parts[0] + ([sep] + tail);
      SplitPrefix(parts[0], [sep] + tail, sep);
      assert parts[0] + "" == parts[0];
      assert [parts[0]] + parts[1..] == parts;
    }
  }

  /** Joining the parts of a key gives back the key. */
  lemma {:induction false} JoinSplit(s: string, sep: char)
    ensures Join(Split(s, sep), sep) == s
    decreases |s|
  {
    if |s| > 0 {
      var rest := Split(s[1..], sep);
      JoinSplit(s[1..], sep);
      if s[0] == sep {
        assert ([""] + rest)[1..] == rest;
        assert s == [s[0]] + s[1..];
      } else {
        var parts := [[s[0]] + rest[0]] + rest[1..];
        if |rest| > 1 {
          assert parts[1..] == rest[1..];
          assert Join(rest, sep) == rest[0] + [sep] + Join(rest[1..], sep);
        }
        assert s == [s[0]] + s[1..];
      }
    }
  }

  // --------------------------------------------------------------- Stats

  /** The value at a path of keys, when every step is a dict holding the
      next key: the reference the operations are stated against. */
  function Lookup(c: Value, path: seq<string>): Option<Value>
    decreases |path|
  {
    if |path| == 0 then Some(c)
    else if c.Dict? && path[0] in c.entries then Lookup(c.entries[path[0]], path[1..])
    else None
  }

  /** Two paths that part ways: at some position after a common prefix they
      hold different keys. */
  predicate Diverge(p: seq<string>, q: seq<string>)
    decreases |p|
  {
    |p| > 0 && |q| > 0 && (p[0] != q[0] || Diverge(p[1..], q[1..]))
  }

  /** The walk along a path can go on to its last key: every proper
      prefix of the path is missing or leads to a dict. */
  predicate Walkable(c: Value, path: seq<string>) {
    forall i :: 0 <= i < |path| ==> Lookup(c, path[..i]).None? || Lookup(c, path[..i]).value.Dict?
  }

  /** The value the walks step into: the entry under the key, or the fresh
      dict that stands in for a missing one. */
  function Child(c: Value, k: string): Value {
    if c.Dict? && k in c.entries then c.entries[k] else Dict(map[])
  }

  /** A path can be walked from a dict exactly when its tail can be walked
      from the child under its first key. */
  lemma WalkableCons(c: Value, path: seq<string>)
    requires |path| >= 1
    ensures Walkable(c, path) <==> c.Dict? && (|path| == 1 || Walkable(Child(c, path[0]), path[1..]))
  {
    assert path[..0] == [];
    if c.Dict? && |path| > 1 {
      var child, rest := Child(c, path[0]), path[1..];
      forall i | 1 <= i < |path|
        ensures Lookup(c, path[..i]) == if path[0] in c.entries then Lookup(child, rest[..i - 1]) else None
      {
        assert path[..i][0] == path[0] && path[..i][1..] == rest[..i - 1];
      }
      if path[0] in c.entries {
        if Walkable(c, path) {
          forall j | 0 <= j < |rest|
            ensures Lookup(child, rest[..j]).None? || Lookup(child, rest[..j]).value.Dict?
          {
            assert Lookup(c, path[..j + 1]) == Lookup(child, rest[..j]);
          }
        }
        if Walkable(child, rest) {
          forall i | 0 <= i < |path| ensures Lookup(c, path[..i]).None? || Lookup(c, path[..i]).value.Dict? {
            if i > 0 {
              assert Lookup(c, path[..i]) == Lookup(child, rest[..i - 1]);
            }
          }
        }
      } else {
        forall j | 0 <= j < |rest| ensures Lookup(child, rest[..j]).None? || Lookup(child, rest[..j]).value.Dict? {
          if j > 0 {
            EmptyLooksUpNothing(rest[..j]);
          } else {
            assert rest[..j] == [];
          }
        }
      }
    }
  }

  /** A path that reaches a value can be walked. */
  lemma {:induction false} LookupWalkable(c: Value, path: seq<string>)
    requires |path| >= 1 && Lookup(c, path).Some?
    ensures Walkable(c, path)
    decreases |path|
  {
    WalkableCons(c, path);
    if |path| > 1 {
      LookupWalkable(Child(c, path[0]), path[1..]);
    }
  }

  /** The walk of `__getitem__`: every key but the last is looked up with
      `get(key, {})`, which raises AttributeError on a value that is not a
      dict; the last with `get(key, default)`. */
  function GetIn(c: Value, path: seq<string>, default: Value): (r: Result<Value>)
    requires |path| >= 1
    ensures Lookup(c, path).Some? ==> r == Ok(Lookup(c, path).value)
    ensures r.Ok? && Lookup(c, path).None? ==> r.value == default
    ensures r.Ok? <==> Walkable(c, path)
    ensures r.Err? ==> r.error == AttributeError
    ensures c.Dict? && path[0] !in c.entries ==> r == Ok(default)
    decreases |path|
  {
    WalkableCons(c, path);
    if !c.Dict? then Err(AttributeError)
    else if |path| == 1 then Ok(if path[0] in c.entries then c.entries[path[0]] else default)
    else GetIn(if path[0] in c.entries then c.entries[path[0]] else Dict(map[]), path[1..], default)
  }

  /** `Stats.get` / `__getitem__`. */
  function Get(store: Store, key: string, sep: char, default: Value): (r: Result<Value>)
    ensures Lookup(Dict(store), Split(key, sep)).Some? ==> r == Ok(Lookup(Dict(store), Split(key, sep)).value)
    ensures r.Ok? && Lookup(Dict(store), Split(key, sep)).None? ==> r.value == default
    ensures Split(key, sep)[0] !in store ==> r == Ok(default)
    ensures r.Ok? <==> Walkable(Dict(store), Split(key, sep))
  {
    GetIn(Dict(store), Split(key, sep), default)
  }

  /** A chain of fresh dicts leading to `v`. */
  function Nest(path: seq<string>, v: Value): (r: Value)
    ensures Lookup(r, path) == Some(v)
    decreases |path|
  {
    if |path| == 0 then v else Dict(map[path[0] := Nest(path[1..], v)])
  }

  /** Python's failure on a container that is not a dict: `key in s` on a
      string is a substring test, and a string then fails the `get` with
      AttributeError; every other failure is a TypeError. */
  function NotADict(c: Value, key: string, last: bool): (e: Error)
    requires !c.Dict?
    ensures e == TypeError || e == AttributeError
  {
    if !last && c.Str? && IsSubstring(key, c.s) then AttributeError else TypeError
  }

  predicate IsSubstring(t: string, s: string) {
    exists i, j :: 0 <= i <= j <= |s| && s[i..j] == t
  }

  /** The walk of `__setitem__`: a missing key on the way gets a fresh dict,
      and the last key is assigned. */
  function SetIn(c: Value, path: seq<string>, value: Value): (r: Result<Value>)
    requires |path| >= 1
    ensures r.Ok? ==> Lookup(r.value, path) == Some(value)
    ensures r.Ok? ==> c.Dict? && r.value.Dict? && r.value.entries.Keys == c.entries.Keys + {path[0]}
    ensures r.Ok? ==> forall k :: k in c.entries && k != path[0] ==> r.value.entries[k] == c.entries[k]
    ensures c.Dict? && path[0] !in c.entries ==> r == Ok(Dict(c.entries[path[0] := Nest(path[1..], value)]))
    ensures r.Ok? <==> Walkable(c, path)
    ensures r.Err? ==> r.error == TypeError || r.error == AttributeError
    decreases |path|
  {
    WalkableCons(c, path);
    if !c.Dict? then Err(NotADict(c, path[0], |path| == 1))
    else if |path| == 1 then Ok(Dict(c.entries[path[0] := value]))
    else
      var child := if path[0] in c.entries then c.entries[path[0]] else Dict(map[]);
      var updated :- SetIn(child, path[1..], value);
      Ok(Dict(c.entries[path[0] := updated]))
  }

  /** `Stats.set` / `__setitem__`. */
  function Set(store: Store, key: string, sep: char, value: Value): (r: Result<Store>)
    ensures r.Ok? ==> Lookup(Dict(r.value), Split(key, sep)) == Some(value)
    ensures Split(key, sep)[0] !in store ==>
      r == Ok(store[Split(key, sep)[0] := Nest(Split(key, sep)[1..], value)])
    ensures r.Ok? ==> forall k :: k in store && k != Split(key, sep)[0] ==> k in r.value && r.value[k] == store[k]
    ensures r.Ok? <==> Walkable(Dict(store), Split(key, sep))
  {
    var t :- SetIn(Dict(store), Split(key, sep), value);
    Ok(t.entries)
  }

  /** Setting a value along a walkable path succeeds; reading it back gives
      the value, reading the parent key gives the dict that holds it, every
      path that parts from it reads as before, and the path stays walkable
      for the next `set`. */
  lemma SetThenGet(store: Store, key: string, sep: char, value: Value, default: Value)
    requires Walkable(Dict(store), Split(key, sep))
    ensures Set(store, key, sep, value).Ok?
    ensures Get(Set(store, key, sep, value).value, key, sep, default) == Ok(value)
    ensures Walkable(Dict(Set(store, key, sep, value).value), Split(key, sep))
    ensures var path := Split(key, sep);
            |path| > 1 ==>
              var parent := Lookup(Dict(Set(store, key, sep, value).value), path[..|path| - 1]);
              parent.Some? && parent.value.Dict? && path[|path| - 1] in parent.value.entries
              && parent.value.entries[path[|path| - 1]] == value
    ensures forall q :: Diverge(Split(key, sep), q) ==>
      Lookup(Dict(Set(store, key, sep, value).value), q) == Lookup(Dict(store), q)
  {
    var path := Split(key, sep);
    var r := Dict(Set(store, key, sep, value).value);
    LookupWalkable(r, path);
    if |path| > 1 {
      LookupPrefix(r, path[..|path| - 1], path[|path| - 1]);
      assert path[..|path| - 1] + [path[|path| - 1]] == path;
    }
    forall q | Diverge(path, q) ensures Lookup(r, q) == Lookup(Dict(store), q) {
      SetKeepsOtherPaths(Dict(store), path, value, q);
    }
  }

  /** Looking a path up one key further is looking that key up in the
      dict at the path. */
  lemma {:induction false} LookupPrefix(c: Value, p: seq<string>, k: string)
    ensures Lookup(c, p + [k]).Some? ==>
      Lookup(c, p).Some? && Lookup(c, p).value.Dict? && k in Lookup(c, p).value.entries
      && Lookup(c, p + [k]).value == Lookup(c, p).value.entries[k]
    decreases |p|
  {
    if |p| > 0 {
      assert (p + [k])[1..] == p[1..] + [k];
      if c.Dict? && p[0] in c.entries {
        LookupPrefix(c.entries[p[0]], p[1..], k);
      }
    }
  }

  /** `set` changes nothing off its path: every path that parts from it
      reads as before. */
  lemma {:induction false} SetKeepsOtherPaths(c: Value, path: seq<string>, value: Value, q: seq<string>)
    requires |path| >= 1 && SetIn(c, path, value).Ok? && Diverge(path, q)
    ensures Lookup(SetIn(c, path, value).value, q) == Lookup(c, q)
    decreases |path|
  {
    if q[0] == path[0] && |path| > 1 {
      var child := if path[0] in c.entries then c.entries[path[0]] else Dict(map[]);
      SetKeepsOtherPaths(child, path[1..], value, q[1..]);
      if path[0] !in c.entries {
        EmptyLooksUpNothing(q[1..]);
      }
    }
  }

  lemma EmptyLooksUpNothing(q: seq<string>)
    requires |q| > 0
    ensures Lookup(Dict(map[]), q) == None
  {
  }

  /** `__contains__` as written: every part of the dotted key is looked for
      in the top-level dict. */
  function ContainsAsWritten(store: Store, key: string, sep: char): (b: bool)
    ensures b <==> forall part :: part in Split(key, sep) ==> part in store
  {
    AllTopLevel(store, Split(key, sep))
  }

  function AllTopLevel(store: Store, parts: seq<string>): (b: bool)
    ensures b <==> forall part :: part in parts ==> part in store
    decreases |parts|
  {
    if |parts| == 0 then true else parts[0] in store && AllTopLevel(store, parts[1..])
  }

  /** `__contains__` as intended: the dotted key names a stored value. */
  function Contains(store: Store, key: string, sep: char): (b: bool)
    ensures b <==> Lookup(Dict(store), Split(key, sep)).Some?
    ensures b ==> forall d :: Get(store, key, sep, d) == Ok(Lookup(Dict(store), Split(key, sep)).value)
  {
    ContainsPath(Dict(store), Split(key, sep))
  }

  function ContainsPath(c: Value, path: seq<string>): (b: bool)
    ensures b <==> Lookup(c, path).Some?
    decreases |path|
  {
    |path| == 0 || (c.Dict? && path[0] in c.entries && ContainsPath(c.entries[path[0]], path[1..]))
  }

  /** The two agree on keys without a separator. */
  lemma ContainsAgreeUndotted(store: Store, key: string, sep: char)
    requires sep !in key
    ensures ContainsAsWritten(store, key, sep) == Contains(store, key, sep)
    ensures Contains(store, key, sep) <==> key in store
  {
    SplitJoin([key], sep);
  }

  /** They disagree on nested keys: a value set under 'a.b' (say
      'dict.key1') is not reported as contained. */
  lemma ContainsMissesNested(a: string, b: string, v: Value, sep: char)
    requires sep !in a && sep !in b && a != b
    ensures var nested := map[a := Dict(map[b := v])];
            !ContainsAsWritten(nested, a + [sep] + b, sep) && Contains(nested, a + [sep] + b, sep)
  {
    var nested := map[a := Dict(map[b := v])];
    var parts := [a, b];
    assert parts[1..] == [b] && parts[1..][1..] == [];
    SplitJoin(parts, sep);
    assert Join(parts, sep) == a + [sep] + b;
    assert b in parts && b !in nested;
    assert Lookup(Dict(map[b := v]), [b]) == Lookup(v, []) == Some(v);
    assert Lookup(Dict(nested), parts) == Lookup(Dict(map[b := v]), [b]);
  }

  /** And 'a.b' is reported for a store holding 'a' and 'b' side by side. */
  lemma ContainsInventsFlat()
    ensures var flat := map["a" := Num(1), "b" := Num(2)];
            ContainsAsWritten(flat, "a.b", '.') && !Contains(flat, "a.b", '.')
  {
    SplitJoin(["a", "b"], '.');
    assert Join(["a", "b"], '.') == "a.b";
  }

  /** The walk of `__delitem__`: a missing key on the way deletes from a
      fresh dict, which raises KeyError like a missing last key. */
  function DelIn(c: Value, path: seq<string>): (r: Result<Value>)
    requires |path| >= 1
    ensures r.Ok? <==> Lookup(c, path).Some?
    ensures r.Ok? ==> Lookup(r.value, path) == None
    ensures r.Ok? ==> c.Dict? && r.value.Dict? && forall k :: k in c.entries && k != path[0] ==>
      k in r.value.entries && r.value.entries[k] == c.entries[k]
    decreases |path|
  {
    if !c.Dict? then Err(if |path| == 1 then TypeError else AttributeError)
    else if path[0] !in c.entries then Err(KeyError)
    else if |path| == 1 then Ok(Dict(c.entries - {path[0]}))
    else
      var updated :- DelIn(c.entries[path[0]], path[1..]);
      Ok(Dict(c.entries[path[0] := updated]))
  }

  /** `__delitem__`: removes exactly a stored key. */
  function Del(store: Store, key: string, sep: char): (r: Result<Store>)
    ensures r.Ok? <==> Contains(store, key, sep)
    ensures r.Ok? ==> !Contains(r.value, key, sep)
  {
    var t :- DelIn(Dict(store), Split(key, sep));
    Ok(t.entries)
  }

  /** After `clear` nothing is contained and every read gives its default. */
  lemma ClearedStoreIsEmpty(key: string, sep: char, default: Value)
    ensures !Contains(map[], key, sep)
    ensures Get(map[], key, sep, default) == Ok(default)
  {
  }

  // ------------------------------------------------------ StatsCollector

  /** Decimal digits of a number, as `f'{n}'` writes them. */
  function NatToString(n: nat): (s: string)
    ensures |s| >= 1
    ensures forall i :: 0 <= i < |s| ==> '0' <= s[i] <= '9'
    ensures n >= 10 ==> |s| >= 2
    decreases n
  {
    if n < 10 then [Digit(n)] else NatToString(n / 10) + [Digit(n % 10)]
  }

  function Digit(d: nat): (c: char)
    requires d < 10
    ensures '0' <= c <= '9'
  {
    "0123456789"[d]
  }

  /** Different numbers have different decimal strings. */
  lemma {:induction false} NatToStringInjective(a: nat, b: nat)
    requires NatToString(a) == NatToString(b)
    ensures a == b
    decreases a
  {
    if a >= 10 && b >= 10 {
      var pa, pb := NatToString(a / 10), NatToString(b / 10);
      assert NatToString(a) == pa + [Digit(a % 10)];
      assert NatToString(b) == pb + [Digit(b % 10)];
      assert |pa| == |pb|;
      assert pa == NatToString(a)[..|pa|] == NatToString(b)[..|pb|] == pb;
      NatToStringInjective(a / 10, b / 10);
      DigitInjective(a % 10, b % 10);
    } else if a < 10 && b < 10 {
      DigitInjective(a, b);
    }
  }

  lemma DigitInjective(x: nat, y: nat)
    requires x < 10 && y < 10 && Digit(x) == Digit(y)
    ensures x == y
  {
  }

  /** The key of a spider's statistics: `spider_<id>`, with the spider's
      identity standing for `id(spider)`. */
  function SpiderKey(spider: nat): (k: string)
    ensures |k| > 7 && k[..7] == "spider_"
  {
    "spider_" + NatToString(spider)
  }

  /** A separator that can never occur in a spider key. */
  predicate SafeSeparator(sep: char) {
    !('0' <= sep <= '9') && sep !in "spider_"
  }

  lemma SpiderKeyAvoids(spider: nat, sep: char)
    requires SafeSeparator(sep)
    ensures sep !in SpiderKey(spider)
  {
    var k := SpiderKey(spider);
    forall i | 0 <= i < |k| ensures k[i] != sep {
      if i >= 7 {
        assert k[i] == NatToString(spider)[i - 7];
      }
    }
  }

  datatype Collector = Collector(stats: Store, spiderStats: Store)

  /** A spider's statistics are read and written under its spider key, the
      global ones under the key itself. */
  function ScopedKey(key: string, spider: Option<nat>, sep: char): string {
    if spider.Some? then SpiderKey(spider.value) + [sep] + key else key
  }

  function Scope(c: Collector, spider: Option<nat>): Store {
    if spider.Some? then c.spiderStats else c.stats
  }

  /** With a safe separator, a spider's dotted key is the spider key
      followed by the parts of the key. */
  lemma ScopedSplit(key: string, spider: nat, sep: char)
    requires SafeSeparator(sep)
    ensures Split(ScopedKey(key, Some(spider), sep), sep) == [SpiderKey(spider)] + Split(key, sep)
  {
    SpiderKeyAvoids(spider, sep);
    var k := SpiderKey(spider);
    assert k + [sep] + key == k + ([sep] + key);
    SplitPrefix(k, [sep] + key, sep);
    assert ([sep] + key)[1..] == key;
    assert k + "" == k;
  }

  /** The walk of a collector key can go on in the store of its scope. */
  predicate ScopeWalkable(c: Collector, key: string, spider: Option<nat>, sep: char) {
    Walkable(Dict(Scope(c, spider)), Split(ScopedKey(key, spider, sep), sep))
  }

  /** `get_value`: a spider's key is read, under its spider key, in the
      spider statistics, and any other key in the global ones. */
  function GetValue(c: Collector, key: string, default: Value, spider: Option<nat>, sep: char): (r: Result<Value>)
    ensures r.Ok? <==> ScopeWalkable(c, key, spider, sep)
    ensures spider.None? ==> r == Get(c.stats, key, sep, default)
    ensures spider.Some? ==> r == Get(c.spiderStats, ScopedKey(key, spider, sep), sep, default)
    ensures spider.Some? && SafeSeparator(sep) && SpiderKey(spider.value) !in c.spiderStats ==> r == Ok(default)
    ensures spider.Some? && SafeSeparator(sep) && SpiderKey(spider.value) in c.spiderStats ==>
      r == GetIn(c.spiderStats[SpiderKey(spider.value)], Split(key, sep), default)
    ensures spider.Some? && SafeSeparator(sep) && SpiderKey(spider.value) in c.spiderStats &&
            c.spiderStats[SpiderKey(spider.value)].Dict? ==>
      r == Get(c.spiderStats[SpiderKey(spider.value)].entries, key, sep, default)
  {
    var k := ScopedKey(key, spider, sep);
    if spider.Some? then
      assert SafeSeparator(sep) ==> Split(k, sep) == [SpiderKey(spider.value)] + Split(key, sep) by {
        if SafeSeparator(sep) { ScopedSplit(key, spider.value, sep); }
      }
      assert SafeSeparator(sep) ==> Split(k, sep)[1..] == Split(key, sep);
      Get(c.spiderStats, k, sep, default)
    else Get(c.stats, k, sep, default)
  }

  /** Everything but the value under `key` is as it was: the other scope is
      untouched, and in the key's own scope every path that leaves the key's
      path reads as before. */
  ghost predicate KeepsOtherStats(c: Collector, r: Collector, key: string, spider: Option<nat>, sep: char) {
    && (spider.Some? ==> r.stats == c.stats)
    && (spider.None? ==> r.spiderStats == c.spiderStats)
    && forall q :: Diverge(Split(ScopedKey(key, spider, sep), sep), q) ==>
         Lookup(Dict(Scope(r, spider)), q) == Lookup(Dict(Scope(c, spider)), q)
  }

  /** `set_value`: only the store of the scope changes. */
  function SetValue(c: Collector, key: string, value: Value, spider: Option<nat>, sep: char): (r: Result<Collector>)
    ensures r.Ok? && spider.Some? ==> r.value.stats == c.stats
    ensures r.Ok? && spider.None? ==> r.value.spiderStats == c.spiderStats
    ensures r.Ok? ==> GetValue(r.value, key, NoneValue, spider, sep) == Ok(value)
    ensures r.Ok? <==> ScopeWalkable(c, key, spider, sep)
    ensures r.Ok? ==> KeepsOtherStats(c, r.value, key, spider, sep)
  {
    var k := ScopedKey(key, spider, sep);
    var s :- Set(Scope(c, spider), k, sep, value);
    SetThenGet(Scope(c, spider), k, sep, value, NoneValue);
    Ok(if spider.Some? then c.(spiderStats := s) else c.(stats := s))
  }

  /** Two spiders' statistics never mix: setting a value for one spider
      leaves every read of another spider as it was. */
  lemma SpidersApart(c: Collector, key: string, value: Value, a: nat, b: nat, key2: string, default: Value, sep: char)
    requires SafeSeparator(sep) && a != b
    requires SetValue(c, key, value, Some(a), sep).Ok?
    ensures GetValue(SetValue(c, key, value, Some(a), sep).value, key2, default, Some(b), sep)
         == GetValue(c, key2, default, Some(b), sep)
  {
    ScopedSplit(key, a, sep);
    ScopedSplit(key2, b, sep);
    if SpiderKey(a) == SpiderKey(b) {
      assert NatToString(a) == SpiderKey(a)[7..] == SpiderKey(b)[7..] == NatToString(b);
      NatToStringInjective(a, b);
    }
  }

  /** `inc_value`: the stored number, or `start` when there is none, plus
      `count`; a stored value that is not a number raises TypeError. */
  function IncValue(c: Collector, key: string, count: int, start: int, spider: Option<nat>, sep: char)
    : (r: Result<Collector>)
    ensures r.Ok? ==> GetValue(c, key, Num(start), spider, sep).Ok?
    ensures r.Ok? ==> var prior := GetValue(c, key, Num(start), spider, sep).value;
                     prior.Num? && GetValue(r.value, key, NoneValue, spider, sep) == Ok(Num(prior.n + count))
    ensures GetValue(c, key, Num(start), spider, sep).Ok? && !GetValue(c, key, Num(start), spider, sep).value.Num? ==>
      r == Err(TypeError)
    ensures r.Ok? <==> ScopeWalkable(c, key, spider, sep) && GetValue(c, key, Num(start), spider, sep).value.Num?
    ensures r.Ok? ==> KeepsOtherStats(c, r.value, key, spider, sep)
  {
    var current :- GetValue(c, key, Num(start), spider, sep);
    if !current.Num? then Err(TypeError)
    else SetValue(c, key, Num(current.n + count), spider, sep)
  }

  /** `max_value`: the larger of the stored number (or `value` when there
      is none) and `value`. */
  function MaxValue(c: Collector, key: string, value: int, spider: Option<nat>, sep: char): (r: Result<Collector>)
    ensures r.Ok? ==> var prior := GetValue(c, key, Num(value), spider, sep);
      && prior.Ok? && prior.value.Num?
      && GetValue(r.value, key, NoneValue, spider, sep).Ok?
      && var now := GetValue(r.value, key, NoneValue, spider, sep).value;
         now.Num? && now.n >= value && now.n >= prior.value.n && (now.n == value || now.n == prior.value.n)
    ensures GetValue(c, key, Num(value), spider, sep).Ok? && !GetValue(c, key, Num(value), spider, sep).value.Num? ==>
      r == Err(TypeError)
    ensures r.Ok? <==> ScopeWalkable(c, key, spider, sep) && GetValue(c, key, Num(value), spider, sep).value.Num?
    ensures r.Ok? ==> KeepsOtherStats(c, r.value, key, spider, sep)
  {
    var current :- GetValue(c, key, Num(value), spider, sep);
    if !current.Num? then Err(TypeError)
    else SetValue(c, key, Num(if current.n >= value then current.n else value), spider, sep)
  }

  /** `min_value`: the smaller of the stored number (or `value`) and
      `value`. */
  function MinValue(c: Collector, key: string, value: int, spider: Option<nat>, sep: char): (r: Result<Collector>)
    ensures r.Ok? ==> var prior := GetValue(c, key, Num(value), spider, sep);
      && prior.Ok? && prior.value.Num?
      && GetValue(r.value, key, NoneValue, spider, sep).Ok?
      && var now := GetValue(r.value, key, NoneValue, spider, sep).value;
         now.Num? && now.n <= value && now.n <= prior.value.n && (now.n == value || now.n == prior.value.n)
    ensures GetValue(c, key, Num(value), spider, sep).Ok? && !GetValue(c, key, Num(value), spider, sep).value.Num? ==>
      r == Err(TypeError)
    ensures r.Ok? <==> ScopeWalkable(c, key, spider, sep) && GetValue(c, key, Num(value), spider, sep).value.Num?
    ensures r.Ok? ==> KeepsOtherStats(c, r.value, key, spider, sep)
  {
    var current :- GetValue(c, key, Num(value), spider, sep);
    if !current.Num? then Err(TypeError)
    else SetValue(c, key, Num(if current.n <= value then current.n else value), spider, sep)
  }

  /** The value a collector key reads, with `d` for a key not stored. */
  function ReadNum(c: Collector, key: string, d: int, spider: Option<nat>, sep: char): Value
    requires ScopeWalkable(c, key, spider, sep)
  {
    GetValue(c, key, Num(d), spider, sep).value
  }

  /** Two `inc_value` calls on a number, or on a key not stored yet, add
      both counts to it, whatever the second call's start. */
  lemma IncValueAccumulates(c: Collector, key: string, a: int, b: int, start: int, start2: int, spider: Option<nat>, sep: char)
    requires ScopeWalkable(c, key, spider, sep) && ReadNum(c, key, start, spider, sep).Num?
    ensures IncValue(c, key, a, start, spider, sep).Ok?
    ensures var c1 := IncValue(c, key, a, start, spider, sep).value;
            IncValue(c1, key, b, start2, spider, sep).Ok?
            && GetValue(IncValue(c1, key, b, start2, spider, sep).value, key, NoneValue, spider, sep)
               == Ok(Num(ReadNum(c, key, start, spider, sep).n + a + b))
  {
    var c1 := IncValue(c, key, a, start, spider, sep).value;
    StoredReadIgnoresDefault(c1, key, Num(start2), spider, sep);
  }

  /** On a fresh collector, `inc_value(key, 1, start=0)` and then
      `inc_value(key, 2)` leave the key reading 3, for a global or a
      spider's key, dotted or not. */
  lemma IncValueFromEmpty(key: string, spider: Option<nat>, sep: char)
    ensures var c := Collector(map[], map[]);
            IncValue(c, key, 1, 0, spider, sep).Ok?
            && IncValue(IncValue(c, key, 1, 0, spider, sep).value, key, 2, 0, spider, sep).Ok?
            && GetValue(IncValue(IncValue(c, key, 1, 0, spider, sep).value, key, 2, 0, spider, sep).value,
                        key, NoneValue, spider, sep) == Ok(Num(3))
  {
    var c := Collector(map[], map[]);
    var path := Split(ScopedKey(key, spider, sep), sep);
    forall i | 0 <= i < |path| ensures Lookup(Dict(map[]), path[..i]).None? || Lookup(Dict(map[]), path[..i]).value.Dict? {
      if i > 0 {
        EmptyLooksUpNothing(path[..i]);
      } else {
        assert path[..i] == [];
      }
    }
    assert ScopeWalkable(c, key, spider, sep);
    EmptyLooksUpNothing(path);
    assert ReadNum(c, key, 0, spider, sep) == Num(0);
    IncValueAccumulates(c, key, 1, 2, 0, 0, spider, sep);
  }

  /** Two `max_value` calls leave the largest of the stored number and both
      values. */
  lemma MaxValueTwice(c: Collector, key: string, v1: int, v2: int, spider: Option<nat>, sep: char)
    requires ScopeWalkable(c, key, spider, sep) && ReadNum(c, key, v1, spider, sep).Num?
    ensures MaxValue(c, key, v1, spider, sep).Ok?
    ensures var c1 := MaxValue(c, key, v1, spider, sep).value;
            var p := ReadNum(c, key, v1, spider, sep).n;
            MaxValue(c1, key, v2, spider, sep).Ok?
            && GetValue(MaxValue(c1, key, v2, spider, sep).value, key, NoneValue, spider, sep)
               == Ok(Num(if p >= v1 && p >= v2 then p else if v1 >= v2 then v1 else v2))
  {
    var c1 := MaxValue(c, key, v1, spider, sep).value;
    StoredReadIgnoresDefault(c1, key, Num(v2), spider, sep);
  }

  /** Two `min_value` calls leave the smallest of the stored number and
      both values. */
  lemma MinValueTwice(c: Collector, key: string, v1: int, v2: int, spider: Option<nat>, sep: char)
    requires ScopeWalkable(c, key, spider, sep) && ReadNum(c, key, v1, spider, sep).Num?
    ensures MinValue(c, key, v1, spider, sep).Ok?
    ensures var c1 := MinValue(c, key, v1, spider, sep).value;
            var p := ReadNum(c, key, v1, spider, sep).n;
            MinValue(c1, key, v2, spider, sep).Ok?
            && GetValue(MinValue(c1, key, v2, spider, sep).value, key, NoneValue, spider, sep)
               == Ok(Num(if p <= v1 && p <= v2 then p else if v1 <= v2 then v1 else v2))
  {
    var c1 := MinValue(c, key, v1, spider, sep).value;
    StoredReadIgnoresDefault(c1, key, Num(v2), spider, sep);
  }

  /** Setting a key twice succeeds both times and the second value wins. */
  lemma SetValueOverwrites(c: Collector, key: string, v1: Value, v2: Value, spider: Option<nat>, sep: char)
    requires ScopeWalkable(c, key, spider, sep)
    ensures SetValue(c, key, v1, spider, sep).Ok?
    ensures var c1 := SetValue(c, key, v1, spider, sep).value;
            SetValue(c1, key, v2, spider, sep).Ok?
            && GetValue(SetValue(c1, key, v2, spider, sep).value, key, NoneValue, spider, sep) == Ok(v2)
  {
  }

  /** A key read as something other than the default is stored, so a read
      with any other default gives the same value. */
  lemma StoredReadIgnoresDefault(c: Collector, key: string, d: Value, spider: Option<nat>, sep: char)
    requires GetValue(c, key, NoneValue, spider, sep).Ok? && GetValue(c, key, NoneValue, spider, sep).value != NoneValue
    ensures GetValue(c, key, d, spider, sep) == GetValue(c, key, NoneValue, spider, sep)
  {
  }

  /** `clear_value`: delete a stored key of the scope; KeyError when there
      is none. `sep` only joins the spider key to the key: the delete
      itself passes no separator, so the key is split on '.'. */
  function ClearValue(c: Collector, key: string, spider: Option<nat>, sep: char): (r: Result<Collector>)
    ensures r.Ok? <==> Contains(Scope(c, spider), ScopedKey(key, spider, sep), '.')
    ensures r.Ok? ==> !Contains(Scope(r.value, spider), ScopedKey(key, spider, sep), '.')
    ensures r.Ok? && spider.Some? ==> r.value.stats == c.stats
    ensures r.Ok? && spider.None? ==> r.value.spiderStats == c.spiderStats
  {
    var s :- Del(Scope(c, spider), ScopedKey(key, spider, sep), '.');
    Ok(if spider.Some? then c.(spiderStats := s) else c.(stats := s))
  }

  /** With another separator, a global `clear_value` still deletes along the
      dotted path: `a.b` removes the nested `b` and leaves a flat `a.b`
      entry alone, and `a/b` finds nothing to delete. */
  lemma ClearValueSplitsOnDot()
    ensures var c := Collector(map["a" := Dict(map["b" := Num(1)]), "a.b" := Num(2)], map[]);
            ClearValue(c, "a.b", None, '/') == Ok(c.(stats := map["a" := Dict(map[]), "a.b" := Num(2)]))
    ensures ClearValue(Collector(map["a" := Dict(map["b" := Num(1)])], map[]), "a/b", None, '/') == Err(KeyError)
  {
    var c := Collector(map["a" := Dict(map["b" := Num(1)]), "a.b" := Num(2)], map[]);
    assert Split("a.b", '.') == ["a", "b"] by { SplitJoin(["a", "b"], '.'); assert Join(["a", "b"], '.') == "a.b"; }
    assert Split("a/b", '.') == ["a/b"] by { SplitJoin(["a/b"], '.'); assert Join(["a/b"], '.') == "a/b"; }
    assert map["b" := Num(1)] - {"b"} == map[];
    assert DelIn(Dict(map["b" := Num(1)]), ["b"]) == Ok(Dict(map[]));
    assert ["a", "b"][1..] == ["b"];
    assert DelIn(Dict(c.stats), ["a", "b"]) == Ok(Dict(c.stats["a" := Dict(map[])]));
    assert c.stats["a" := Dict(map[])] == map["a" := Dict(map[]), "a.b" := Num(2)];
  }

  /** `clear_stats` (and `close_spider`): drop a spider's statistics, with
      KeyError when it has none, or empty the global ones. */
  function ClearStats(c: Collector, spider: Option<nat>): (r: Result<Collector>)
    ensures spider.None? ==> r == Ok(c.(stats := map[]))
    ensures spider.Some? ==> (r.Ok? <==> SpiderKey(spider.value) in c.spiderStats)
    ensures r.Ok? && spider.Some? ==>
      r.value.stats == c.stats && r.value.spiderStats == c.spiderStats - {SpiderKey(spider.value)}
  {
    if spider.None? then Ok(c.(stats := map[]))
    else if SpiderKey(spider.value) in c.spiderStats then
      Ok(c.(spiderStats := c.spiderStats - {SpiderKey(spider.value)}))
    else Err(KeyError)
  }

  /** `get_stats`: a spider's statistics as one dict (an empty one when it
      has none), or the global statistics. */
  function GetStats(c: Collector, spider: Option<nat>): (r: Value)
    ensures spider.None? ==> r == Dict(c.stats)
    ensures spider.Some? && SpiderKey(spider.value) !in c.spiderStats ==> r == Dict(map[])
    ensures spider.Some? && SpiderKey(spider.value) in c.spiderStats ==> r == c.spiderStats[SpiderKey(spider.value)]
  {
    if spider.Some? then
      if SpiderKey(spider.value) in c.spiderStats then c.spiderStats[SpiderKey(spider.value)] else Dict(map[])
    else Dict(c.stats)
  }

  /** `set_stats`: install a spider's statistics, or replace the global
      ones. */
  function SetStats(c: Collector, s: Store, spider: Option<nat>): (r: Collector)
    ensures GetStats(r, spider) == Dict(s)
    ensures spider.Some? ==> r.stats == c.stats
    ensures spider.None? ==> r.spiderStats == c.spiderStats
  {
    if spider.Some? then c.(spiderStats := c.spiderStats[SpiderKey(spider.value) := Dict(s)])
    else c.(stats := s)
  }

  /** A spider's `get_value` reads inside its `get_stats` dict. */
  lemma SpiderValueInSpiderStats(c: Collector, key: string, spider: nat, sep: char)
    requires SafeSeparator(sep)
    ensures Lookup(Dict(c.spiderStats), Split(ScopedKey(key, Some(spider), sep), sep))
         == (if SpiderKey(spider) in c.spiderStats then Lookup(GetStats(c, Some(spider)), Split(key, sep)) else None)
  {
    ScopedSplit(key, spider, sep);
    assert ([SpiderKey(spider)] + Split(key, sep))[1..] == Split(key, sep);
  }
}

=== FILE: stream.dfy ===
/** The channel primitive `Stream` (araneid/core/stream.py) over an asyncio
    `Queue`. The queue is modelled by its buffer and its unfinished-task
    counter: `put` appends and increments, `task_done` decrements and raises
    ValueError when the counter is already zero, and the queue's `_finished`
    event is set exactly when the counter is zero.

    Every read is one atomic step: an `await` on an empty open queue becomes
    the precondition `CanRead`. The reader latch of `close` is kept: a close
    that finds registered readers stops after marking the stream closed
    (`clearPending`) and is finished by `FinishClose` once they have left. */
module Streams {
  import opened Wrappers
  import Latches

  /** A queue slot: a written item or the `STREAM_END` sentinel. */
  datatype Entry<T> = Item(value: T) | End

  /** A `map` function installed on the stream, by installation number; reads
      interpret it with the `run` function they are given. */
  type OpId = nat

  datatype Stream<T> = Stream(
    buffer: seq<Entry<T>>,
    unfinished: nat,            // the queue's `_unfinished_tasks`
    closed: bool,
    confirmAck: bool,
    operators: seq<OpId>,
    exception: Option<string>,  // set by `set_exception`, re-raised by readers
    readers: Latches.Latch,     // readers registered through `async with`
    clearPending: bool)         // a close is waiting for the readers to leave

  /** What one step of `__anext__` produces. */
  datatype ReadOut<T> = Value(v: T) | Stop | Raise(exc: string)

  datatype Step<T> = Step(s: Stream<T>, out: ReadOut<T>)

  /** `Stream.create(confirm_ack=...)`. */
  function New<T>(confirmAck: bool): (s: Stream<T>)
    ensures s.buffer == [] && s.unfinished == 0 && !s.closed
    ensures s.confirmAck == confirmAck && s.operators == [] && s.exception.None?
    ensures Idle(s) && Balanced(s)
  {
    Stream([], 0, false, confirmAck, [], None, Latches.NewLatch(), false)
  }

  // ---------------------------------------------------------------- writing

  /** `write`: appends unless the stream is closed; a write after close is
      silently dropped. */
  function Write<T>(s: Stream<T>, x: T): (r: Stream<T>)
    ensures s.closed ==> r == s
    ensures !s.closed ==> r.buffer == s.buffer + [Item(x)] && r.unfinished == s.unfinished + 1
    ensures !s.closed ==> !Idle(r)
    ensures r.closed == s.closed && r.confirmAck == s.confirmAck && r.operators == s.operators
    ensures r.exception == s.exception && r.readers == s.readers && r.clearPending == s.clearPending
  {
    if s.closed then s
    else s.(buffer := s.buffer + [Item(x)], unfinished := s.unfinished + 1)
  }

  /** The queue entries for a sequence of written items. */
  function Items<T>(xs: seq<T>): (r: seq<Entry<T>>)
    ensures |r| == |xs| && NoEnd(r)
    ensures forall i :: 0 <= i < |xs| ==> r[i] == Item(xs[i])
  {
    seq(|xs|, i requires 0 <= i < |xs| => Item(xs[i]))
  }

  lemma ItemsCons<T>(prefix: seq<Entry<T>>, xs: seq<T>)
    requires |xs| > 0
    ensures (prefix + [Item(xs[0])]) + Items(xs[1..]) == prefix + Items(xs)
  {
    assert Items(xs) == [Item(xs[0])] + Items(xs[1..]);
  }

  /** The reads that return each of `xs` in turn. */
  function Values<T>(xs: seq<T>): (r: seq<ReadOut<T>>)
    ensures |r| == |xs|
    ensures forall i :: 0 <= i < |xs| ==> r[i] == Value(xs[i])
  {
    seq(|xs|, i requires 0 <= i < |xs| => Value(xs[i]))
  }

  /** Items written one after another; on an open stream they are queued in
      write order, each one unfinished task. */
  function WriteAll<T>(s: Stream<T>, xs: seq<T>): (r: Stream<T>)
    ensures s.closed ==> r == s
    ensures !s.closed ==> r.buffer == s.buffer + Items(xs)
    ensures !s.closed ==> r.unfinished == s.unfinished + |xs|
    ensures r.closed == s.closed && r.operators == s.operators && r.confirmAck == s.confirmAck
    ensures r.readers == s.readers && r.exception == s.exception && r.clearPending == s.clearPending
    decreases |xs|
  {
    if |xs| == 0 then s
    else
      var r := WriteAll(Write(s, xs[0]), xs[1..]);
      ItemsCons(s.buffer, xs);
      r
  }

  /** `map`: installs a post-read transform after those already installed. */
  function Map<T>(s: Stream<T>, op: OpId): (r: Stream<T>)
    ensures r.operators == s.operators + [op]
    ensures r.buffer == s.buffer && r.unfinished == s.unfinished && r.closed == s.closed
    ensures r.readers == s.readers && r.exception == s.exception && r.confirmAck == s.confirmAck
  {
    s.(operators := s.operators + [op])
  }

  /** The installed transforms, applied first to last. */
  function ApplyOps<T>(ops: seq<OpId>, x: T, run: (OpId, T) -> T): T
    decreases |ops|
  {
    if |ops| == 0 then x else ApplyOps(ops[1..], run(ops[0], x), run)
  }

  /** A transform installed later is applied after every earlier one. */
  lemma {:induction false} ApplyOpsSnoc<T>(ops: seq<OpId>, op: OpId, x: T, run: (OpId, T) -> T)
    ensures ApplyOps(ops + [op], x, run) == run(op, ApplyOps(ops, x, run))
    decreases |ops|
  {
    if |ops| == 0 {
      assert ops + [op] == [op];
    } else {
      assert (ops + [op])[1..] == ops[1..] + [op];
      ApplyOpsSnoc(ops[1..], op, run(ops[0], x), run);
    }
  }

  // --------------------------------------------------------- acknowledging

  /** `_auto_ack`: after a read, a sentinel is always marked done, an item only
      when the stream is not in confirm-ack mode; never below zero. */
  function AutoAck<T>(s: Stream<T>, e: Entry<T>): (r: Stream<T>)
    ensures r.buffer == s.buffer && r.closed == s.closed
    ensures r.unfinished == if (e.Item? && s.confirmAck) || s.unfinished < 1 then s.unfinished else s.unfinished - 1
  {
    if e.Item? && s.confirmAck then s
    else if s.unfinished < 1 then s
    else s.(unfinished := s.unfinished - 1)
  }

  /** `ack`: only a confirm-ack stream that is not closed counts an explicit
      acknowledgement, and never below zero. */
  function Ack<T>(s: Stream<T>): (r: Stream<T>)
    ensures (s.closed || !s.confirmAck || s.unfinished < 1) ==> r == s
    ensures (!s.closed && s.confirmAck && s.unfinished >= 1) ==> r == s.(unfinished := s.unfinished - 1)
  {
    if s.closed then s
    else if !s.confirmAck then s
    else if s.unfinished < 1 then s
    else s.(unfinished := s.unfinished - 1)
  }

  // ----------------------------------------------------------------- idleness

  /** `idle`: a closed stream is idle; otherwise idle iff the queue's
      `_finished` event is set, i.e. no unfinished task remains. */
  predicate Idle<T>(s: Stream<T>) {
    s.closed || s.unfinished == 0
  }

  /** `join` returns at once on a closed stream, otherwise once the queue's
      unfinished count reaches zero. */
  predicate JoinReady<T>(s: Stream<T>) {
    if s.closed then true else s.unfinished == 0
  }

  lemma JoinReadyIsIdle<T>(s: Stream<T>)
    ensures JoinReady(s) <==> Idle(s)
  {
  }

  // ------------------------------------------------------------------ reading

  /** The `await self._buffer.get()` of `__anext__` can only complete when
      something is buffered, unless the stream is closed and empty. */
  predicate CanRead<T>(s: Stream<T>) {
    s.closed || |s.buffer| > 0
  }

  function EndOut<T>(s: Stream<T>): ReadOut<T> {
    if s.exception.Some? then Raise(s.exception.value) else Stop
  }

  /** `__anext__`: one read by one reader. */
  function Next<T>(s: Stream<T>, run: (OpId, T) -> T): (st: Step<T>)
    requires CanRead(s)
    ensures st.s.closed == s.closed && st.s.confirmAck == s.confirmAck
    ensures st.s.operators == s.operators && st.s.exception == s.exception && st.s.readers == s.readers
    ensures st.s.clearPending == s.clearPending
    ensures |s.buffer| > 0 && s.buffer[0].Item? ==>
      st.out == Value(ApplyOps(s.operators, s.buffer[0].value, run)) && st.s.buffer == s.buffer[1..]
    ensures |s.buffer| > 0 && s.buffer[0].End? ==>
      st.out == EndOut(s) && st.s.buffer == s.buffer[1..] + [End]
    ensures |s.buffer| == 0 ==> st.out == EndOut(s) && st.s == s
  {
    if s.closed && |s.buffer| == 0 then
      Step(s, EndOut(s))
    else
      var head := s.buffer[0];
      var s1 := AutoAck(s.(buffer := s.buffer[1..]), head);
      match head
      case End =>
        // the sentinel is put back for sibling readers
        Step(s1.(buffer := s1.buffer + [End], unfinished := s1.unfinished + 1), EndOut(s))
      case Item(v) =>
        Step(s1, Value(ApplyOps(s.operators, v, run)))
  }

  /** `__aenter__` / `__aexit__`: register and deregister a reader. */
  function Enter<T>(s: Stream<T>): (r: Stream<T>)
    ensures r.readers.count == s.readers.count + 1
    ensures r == s.(readers := r.readers)
  {
    s.(readers := Latches.Increment(s.readers))
  }

  function Exit<T>(s: Stream<T>): (r: Stream<T>)
    requires s.readers.count > 0
    ensures r.readers.count == s.readers.count - 1
    ensures r == s.(readers := r.readers)
  {
    s.(readers := Latches.Decrement(s.readers))
  }

  /** The outcome of `get`: the item read, `None`, or the stored exception. */
  datatype GetOut<T> = Got(v: T) | Nothing | Raised(exc: string)

  datatype GetStep<T> = GetStep(s: Stream<T>, out: GetOut<T>)

  /** `get`: returns None on a closed stream; otherwise reads one item through
      a reader registered for the duration of the read. */
  function Get<T>(s: Stream<T>, run: (OpId, T) -> T): (g: GetStep<T>)
    requires CanRead(s)
    ensures s.closed ==> g == GetStep(s, Nothing)
    ensures !s.closed && s.buffer[0].Item? ==>
      g.out == Got(ApplyOps(s.operators, s.buffer[0].value, run)) && g.s.buffer == s.buffer[1..]
    ensures g.s.closed == s.closed && g.s.confirmAck == s.confirmAck && g.s.clearPending == s.clearPending
    ensures g.s.readers.count == s.readers.count && g.s.operators == s.operators
    ensures !s.closed && s.buffer[0].Item? ==>
      g.s.unfinished == (if s.confirmAck || s.unfinished < 1 then s.unfinished else s.unfinished - 1)
  {
    if s.closed then GetStep(s, Nothing)
    else
      var st := Next(Enter(s), run);
      var out := match st.out
        case Value(v) => Got(v)
        case Stop => Nothing
        case Raise(e) => GetOut.Raised(e);
      GetStep(Exit(st.s), out)
  }

  /** `Get` for a stream with no transform installed. */
  function GetPlain<T>(s: Stream<T>): (g: GetStep<T>)
    requires CanRead(s) && s.operators == []
    ensures !s.closed && s.buffer[0].Item? ==> g.out == Got(s.buffer[0].value) && g.s.buffer == s.buffer[1..]
    ensures g.s.closed == s.closed && g.s.confirmAck == s.confirmAck && g.s.operators == []
    ensures g.s.clearPending == s.clearPending && g.s.readers.count == s.readers.count
    ensures !s.closed && s.buffer[0].Item? ==>
      g.s.unfinished == (if s.confirmAck || s.unfinished < 1 then s.unfinished else s.unfinished - 1)
  {
    Get(s, (op: OpId, x: T) => x)
  }

  // ------------------------------------------------------------------ closing

  /** The first half of `close`: enqueue one `STREAM_END` and mark the stream
      closed. A second close returns immediately. */
  function CloseBegin<T>(s: Stream<T>): (r: Stream<T>)
    ensures s.closed ==> r == s
    ensures !s.closed ==> r.closed && r.clearPending && r.buffer == s.buffer + [End]
    ensures !s.closed ==> r.unfinished == s.unfinished + 1
    ensures r.closed && r.confirmAck == s.confirmAck && r.readers == s.readers && r.exception == s.exception
  {
    if s.closed then s
    else s.(buffer := s.buffer + [End], unfinished := s.unfinished + 1, closed := true, clearPending := true)
  }

  /** The loop of `_clear_buff`: pop and mark done every entry up to the first
      sentinel, which is put back at the tail. `task_done` raises ValueError
      when the count is already zero. */
  function Drain<T>(buf: seq<Entry<T>>, unf: nat): (r: Result<(seq<Entry<T>>, nat)>)
    decreases |buf|
  {
    if |buf| == 0 then Ok(([], unf))
    else if buf[0].End? then Ok((buf[1..] + [End], unf))
    else if unf == 0 then Err(ValueError)
    else Drain(buf[1..], unf - 1)
  }

  /** `_clear_buff`: after the loop, mark done every unfinished task except
      the ones still queued. */
  function ClearBuff<T>(s: Stream<T>): (r: Result<Stream<T>>)
    ensures r.Ok? ==> r.value.closed == s.closed && r.value.readers == s.readers
    ensures r.Ok? ==> r.value.unfinished <= |r.value.buffer|
  {
    var d :- Drain(s.buffer, s.unfinished);
    var (b, u) := d;
    Ok(s.(buffer := b, unfinished := if u < |b| then u else |b|))
  }

  /** The second half of `close`, once every registered reader has left:
      clear the buffer and drop the transforms. */
  function FinishClose<T>(s: Stream<T>): (r: Result<Stream<T>>)
    requires s.clearPending && Latches.WaitReady(s.readers)
    ensures r.Ok? ==> !r.value.clearPending && r.value.operators == [] && r.value.closed == s.closed
  {
    var c :- ClearBuff(s);
    Ok(c.(operators := [], clearPending := false))
  }

  /** `close` as seen by its caller: finished at once when no reader is
      registered, otherwise left waiting for `FinishClose`. */
  function Close<T>(s: Stream<T>): (r: Result<Stream<T>>)
    ensures s.closed ==> r == Ok(s)
    ensures r.Ok? ==> r.value.closed && r.value.confirmAck == s.confirmAck && r.value.exception == s.exception
    ensures r.Ok? ==> r.value.readers == s.readers
    ensures r.Ok? && !s.closed && s.readers.count == 0 ==> !r.value.clearPending && r.value.operators == []
  {
    if s.closed then Ok(s)
    else
      var b := CloseBegin(s);
      if Latches.WaitReady(b.readers) then FinishClose(b) else Ok(b)
  }

  /** `set_exception`: store the exception, wait for the queue to drain, then
      close, so that every reader raises the exception instead of stopping. */
  function SetException<T>(s: Stream<T>, exc: string): (r: Result<Stream<T>>)
    requires JoinReady(s)
    ensures r.Ok? ==> r.value.closed && r.value.exception == Some(exc)
  {
    Close(s.(exception := Some(exc)))
  }

  // --------------------------------------------------------------- invariants

  /** How many items wait before the first sentinel. */
  function ItemsBeforeEnd<T>(buf: seq<Entry<T>>): nat
    decreases |buf|
  {
    if |buf| == 0 || buf[0].End? then 0 else 1 + ItemsBeforeEnd(buf[1..])
  }

  predicate NoEnd<T>(buf: seq<Entry<T>>) {
    forall i :: 0 <= i < |buf| ==> buf[i].Item?
  }

  /** Without confirm-ack, every buffered entry is exactly one unfinished task. */
  predicate Balanced<T>(s: Stream<T>) {
    !s.confirmAck ==> s.unfinished == |s.buffer|
  }

  lemma {:induction false} DrainCounts<T>(buf: seq<Entry<T>>, unf: nat)
    requires ItemsBeforeEnd(buf) <= unf
    ensures Drain(buf, unf).Ok?
    ensures Drain(buf, unf).value.1 == unf - ItemsBeforeEnd(buf)
    ensures |Drain(buf, unf).value.0| == |buf| - ItemsBeforeEnd(buf)
    ensures NoEnd(buf) ==> Drain(buf, unf).value.0 == []
    ensures !NoEnd(buf) ==> |Drain(buf, unf).value.0| > 0 && Drain(buf, unf).value.0[|Drain(buf, unf).value.0| - 1] == End
    decreases |buf|
  {
    if |buf| > 0 && buf[0].Item? {
      DrainCounts(buf[1..], unf - 1);
      if !NoEnd(buf) {
        var i :| 0 <= i < |buf| && buf[i].End?;
        assert buf[1..][i - 1].End?;
      }
    }
  }

  /** Close never raises when the unfinished count covers the items queued
      ahead of the sentinel; this always holds without confirm-ack. */
  lemma ClearBuffSucceeds<T>(s: Stream<T>)
    requires ItemsBeforeEnd(s.buffer) <= s.unfinished
    ensures ClearBuff(s).Ok?
  {
    DrainCounts(s.buffer, s.unfinished);
  }

  lemma {:induction false} ItemsBeforeEndBound<T>(buf: seq<Entry<T>>)
    ensures ItemsBeforeEnd(buf) <= |buf|
    ensures NoEnd(buf) ==> ItemsBeforeEnd(buf) == |buf|
    decreases |buf|
  {
    if |buf| > 0 && buf[0].Item? {
      ItemsBeforeEndBound(buf[1..]);
      if NoEnd(buf) {
        assert NoEnd(buf[1..]) by {
          forall i | 0 <= i < |buf[1..]| ensures buf[1..][i].Item? {
            assert buf[1..][i] == buf[i + 1];
          }
        }
      }
    }
  }

  /** Closing a stream that holds only items, with every item still counted as
      unfinished and no reader registered, succeeds; afterwards the items are
      discarded, the single sentinel is kept, and the transforms are gone. */
  lemma CloseDiscardsItems<T>(s: Stream<T>)
    requires !s.closed && NoEnd(s.buffer) && |s.buffer| <= s.unfinished
    requires s.readers.count == 0
    ensures Close(s).Ok?
    ensures Close(s).value.buffer == [End]
    ensures Close(s).value.closed && Close(s).value.operators == []
    ensures Close(s).value.unfinished == 1 && !Close(s).value.clearPending
  {
    var b := CloseBegin(s);
    ItemsBeforeEndBound(s.buffer);
    ItemsBeforeEndFirstEnd(s.buffer);
    DrainCounts(b.buffer, b.unfinished);
    var d := Drain(b.buffer, b.unfinished).value;
    assert !NoEnd(b.buffer) by { assert b.buffer[|s.buffer|] == End; }
    assert |d.0| == 1;
    assert d.0 == [End];
  }

  lemma {:induction false} ItemsBeforeEndFirstEnd<T>(buf: seq<Entry<T>>)
    requires NoEnd(buf)
    ensures ItemsBeforeEnd(buf + [End]) == |buf|
    decreases |buf|
  {
    if |buf| > 0 {
      assert (buf + [End])[1..] == buf[1..] + [End];
      assert NoEnd(buf[1..]) by {
        forall i | 0 <= i < |buf[1..]| ensures buf[1..][i].Item? {
          assert buf[1..][i] == buf[i + 1];
        }
      }
      ItemsBeforeEndFirstEnd(buf[1..]);
    }
  }

  /** A reader arriving after close finds only the sentinel: it puts it back,
      leaves the stream as it found it, and stops (or raises the stored
      exception). */
  lemma LateReaderStops<T>(s: Stream<T>, run: (OpId, T) -> T)
    requires s.closed && s.buffer == [End] && s.unfinished >= 1
    ensures Next(s, run).s == s
    ensures Next(s, run).out == (if s.exception.Some? then Raise(s.exception.value) else Stop)
  {
  }

  /** Every operation keeps a stream without confirm-ack balanced. */
  lemma BalancedPreserved<T>(s: Stream<T>, x: T, op: OpId, run: (OpId, T) -> T)
    requires Balanced(s)
    ensures Balanced(Write(s, x))
    ensures Balanced(Map(s, op))
    ensures Balanced(Ack(s))
    ensures Balanced(CloseBegin(s))
    ensures CanRead(s) ==> Balanced(Next(s, run).s)
    ensures s.clearPending && Latches.WaitReady(s.readers) && !s.confirmAck ==>
      FinishClose(s).Ok? && Balanced(FinishClose(s).value)
  {
    if s.clearPending && Latches.WaitReady(s.readers) && !s.confirmAck {
      ItemsBeforeEndBound(s.buffer);
      DrainCounts(s.buffer, s.unfinished);
    }
  }

  /** A stream without confirm-ack always closes without error and stays
      balanced, whether or not readers are still registered. */
  lemma BalancedCloseSucceeds<T>(s: Stream<T>)
    requires Balanced(s) && !s.confirmAck
    ensures Close(s).Ok? && Balanced(Close(s).value)
  {
    if !s.closed {
      var b := CloseBegin(s);
      if Latches.WaitReady(b.readers) {
        ItemsBeforeEndBound(b.buffer);
        DrainCounts(b.buffer, b.unfinished);
      }
    }
  }

  /** Without confirm-ack the stream is idle exactly when it is closed or
      nothing is buffered. */
  lemma BalancedIdle<T>(s: Stream<T>)
    requires Balanced(s) && !s.confirmAck
    ensures Idle(s) <==> (s.closed || |s.buffer| == 0)
  {
  }

  /** The stream after a run of reads, and what each read produced. */
  datatype Reads<T> = Reads(after: Stream<T>, outs: seq<ReadOut<T>>)

  /** Reads `n` times in a row, collecting what each read produced. */
  function ReadN<T>(s: Stream<T>, n: nat, run: (OpId, T) -> T): (r: Reads<T>)
    requires n <= |s.buffer| && NoEnd(s.buffer)
    ensures |r.outs| == n
    decreases n
  {
    if n == 0 then Reads(s, [])
    else
      var st := Next(s, run);
      assert NoEnd(st.s.buffer) by {
        forall i | 0 <= i < |st.s.buffer| ensures st.s.buffer[i].Item? {
          assert st.s.buffer[i] == s.buffer[i + 1];
        }
      }
      var rest := ReadN(st.s, n - 1, run);
      Reads(rest.after, [st.out] + rest.outs)
  }

  /** A single reader receives the buffered items in FIFO order, each passed
      through the installed transforms; the stream keeps the rest. */
  lemma {:induction false} ReadNFifo<T>(s: Stream<T>, n: nat, run: (OpId, T) -> T)
    requires n <= |s.buffer| && NoEnd(s.buffer)
    ensures ReadN(s, n, run).after.buffer == s.buffer[n..]
    ensures ReadN(s, n, run).after.closed == s.closed && ReadN(s, n, run).after.operators == s.operators
    ensures forall i :: 0 <= i < n ==>
      ReadN(s, n, run).outs[i] == Value(ApplyOps(s.operators, s.buffer[i].value, run))
    decreases n
  {
    if n > 0 {
      var st := Next(s, run);
      assert NoEnd(st.s.buffer) by {
        forall i | 0 <= i < |st.s.buffer| ensures st.s.buffer[i].Item? {
          assert st.s.buffer[i] == s.buffer[i + 1];
        }
      }
      ReadNFifo(st.s, n - 1, run);
      var rest := ReadN(st.s, n - 1, run);
      assert st.s.buffer[n - 1..] == s.buffer[n..];
      forall i | 0 <= i < n
        ensures ReadN(s, n, run).outs[i] == Value(ApplyOps(s.operators, s.buffer[i].value, run))
      {
        if i > 0 {
          assert ReadN(s, n, run).outs[i] == rest.outs[i - 1];
          assert st.s.buffer[i - 1] == s.buffer[i];
        }
      }
    }
  }

  /** The publisher/consumer scenario: items written to a fresh stream are
      read back in write order, after which the stream is idle, so `join`
      returns and `close` succeeds, and a further read stops. */
  lemma SingleReaderSeesWritesInOrder<T>(xs: seq<T>, run: (OpId, T) -> T)
    ensures NoEnd(WriteAll(New<T>(false), xs).buffer)
    ensures ReadN(WriteAll(New<T>(false), xs), |xs|, run).outs == Values(xs)
    ensures DrainedAndClosable(ReadN(WriteAll(New<T>(false), xs), |xs|, run).after, run)
  {
    var s := WriteAll(New<T>(false), xs);
    FreshWrites(xs);
    ReaderDrainsAll(s, run);
    var outs := ReadN(s, |xs|, run).outs;
    forall i | 0 <= i < |xs| ensures outs[i] == Values(xs)[i] {
      assert s.buffer[i] == Item(xs[i]);
    }
  }

  /** Items written to a fresh stream without confirm-ack are all buffered,
      each one unfinished task. */
  lemma FreshWrites<T>(xs: seq<T>)
    ensures var s := WriteAll(New<T>(false), xs);
            && s.buffer == Items(xs) && |s.buffer| == |xs| && Balanced(s)
            && !s.closed && !s.confirmAck && s.operators == []
            && s.readers.count == 0 && s.exception.None?
  {
    var s0 := New<T>(false);
    assert s0.buffer + Items(xs) == Items(xs);
  }

  /** A lone reader of an open stream without confirm-ack reads every buffered
      item in order, after which the stream can be joined and closed. */
  lemma ReaderDrainsAll<T>(s: Stream<T>, run: (OpId, T) -> T)
    requires !s.closed && NoEnd(s.buffer) && !s.confirmAck && Balanced(s)
    requires s.readers.count == 0 && s.exception.None?
    ensures forall i :: 0 <= i < |s.buffer| ==>
      ReadN(s, |s.buffer|, run).outs[i] == Value(ApplyOps(s.operators, s.buffer[i].value, run))
    ensures s.operators == [] ==> forall i :: 0 <= i < |s.buffer| ==>
      ReadN(s, |s.buffer|, run).outs[i] == Value(s.buffer[i].value)
    ensures DrainedAndClosable(ReadN(s, |s.buffer|, run).after, run)
  {
    ReadNFifo(s, |s.buffer|, run);
    ReadNBalanced(s, |s.buffer|, run);
    DrainedStreamCloses(ReadN(s, |s.buffer|, run).after, run);
  }

  /** `join` returns, `close` succeeds, and a read after the close stops. */
  predicate DrainedAndClosable<T>(s: Stream<T>, run: (OpId, T) -> T) {
    JoinReady(s) && Close(s).Ok? && Next(Close(s).value, run).out == Stop
  }

  /** An open stream without confirm-ack whose buffer is empty can be joined
      and closed, and a read after the close stops. */
  lemma DrainedStreamCloses<T>(s: Stream<T>, run: (OpId, T) -> T)
    requires !s.closed && s.buffer == [] && !s.confirmAck && Balanced(s)
    requires s.readers.count == 0 && s.exception.None?
    ensures DrainedAndClosable(s, run)
  {
    CloseDiscardsItems(s);
    LateReaderStops(Close(s).value, run);
  }

  lemma {:induction false} ReadNBalanced<T>(s: Stream<T>, n: nat, run: (OpId, T) -> T)
    requires n <= |s.buffer| && NoEnd(s.buffer) && Balanced(s)
    ensures Balanced(ReadN(s, n, run).after)
    ensures ReadN(s, n, run).after.confirmAck == s.confirmAck && ReadN(s, n, run).after.readers == s.readers
    ensures ReadN(s, n, run).after.exception == s.exception
    decreases n
  {
    if n > 0 {
      var st := Next(s, run);
      assert NoEnd(st.s.buffer) by {
        forall i | 0 <= i < |st.s.buffer| ensures st.s.buffer[i].Item? {
          assert st.s.buffer[i] == s.buffer[i + 1];
        }
      }
      ReadNBalanced(st.s, n - 1, run);
    }
  }

  /** In confirm-ack mode a read does not mark its queue task done: `join` keeps
      waiting until the reader acknowledges the item. */
  lemma ConfirmAckHoldsJoin<T>(x: T, run: (OpId, T) -> T)
    ensures var s := Write(New<T>(true), x);
            var r := Next(s, run).s;
            && r.buffer == []
            && !JoinReady(r)
            && JoinReady(Ack(r))
  {
  }

  /** Without confirm-ack, `ack` changes nothing and the read itself marks its
      queue task done. */
  lemma AutoAckWithoutConfirm<T>(x: T, run: (OpId, T) -> T)
    ensures var s := Write(New<T>(false), x);
            var r := Next(s, run).s;
            && JoinReady(r)
            && Ack(r) == r
  {
  }
}

=== FILE: workunit.dfy ===
/** Requests and responses as the pipeline sees them (araneid/core/__init__.py
    `Slotable`, with the state enums of araneid/core/request.py and
    araneid/core/response.py): each unit carries its phase flags, the slot it
    is bound to, its completion mark, whether its context names a spider, and
    for requests the downloader argument. Units are kept in a store keyed by
    object identity, so that every component sees the same unit. */
module Units {
  import opened Wrappers
  import States

  datatype Kind = RequestKind | ResponseKind

  /** The members of `RequestStates` and `ResponseStates`. */
  datatype Phase = Start | SlotPhase | Schedule | Download | Parse | Complete

  /** A response has no download phase. */
  function Members(k: Kind): (ms: set<Phase>)
    ensures Start in ms && SlotPhase in ms && Schedule in ms && Parse in ms && Complete in ms
    ensures Download in ms <==> k == RequestKind
  {
    if k == RequestKind then {Start, SlotPhase, Schedule, Download, Parse, Complete}
    else {Start, SlotPhase, Schedule, Parse, Complete}
  }

  /** The `downloader` constructor argument: `None`, a list of names (the
      default is `[]`), or a name (the HTTP request class passes "Http"). */
  datatype DownloaderArg = ArgNone | ArgList(names: seq<string>) | ArgName(name: string)

  datatype Unit = Unit(
    kind: Kind,
    state: States.FlagState<Phase>,
    slot: Option<nat>,          // identity of the bound slot
    completed: bool,
    spider: bool,               // the context's spider is a `Spider` instance
    downloader: DownloaderArg)

  predicate WellFormed(u: Unit) {
    u.state.members == Members(u.kind) && States.Valid(u.state)
  }

  /** Every unit of a store is well formed. */
  predicate Store(units: map<nat, Unit>) {
    forall k :: k in units ==> WellFormed(units[k])
  }

  /** A fresh request or response: unbound, not completed, no phase set. */
  function NewUnit(kind: Kind, spider: bool, downloader: DownloaderArg): (u: Unit)
    ensures u.kind == kind && WellFormed(u) && u.slot.None? && !u.completed
    ensures u.spider == spider && u.downloader == downloader
    ensures forall p :: p in Members(kind) ==> !InPhase(u, p)
  {
    Unit(kind, States.NewState(Members(kind)), None, false, spider, downloader)
  }

  predicate InPhase(u: Unit, p: Phase)
    requires WellFormed(u) && p in Members(u.kind)
  {
    States.InState(u.state, p)
  }

  /** `set_state` on the unit. */
  function SetPhase(u: Unit, p: Phase): (r: Unit)
    requires WellFormed(u) && p in Members(u.kind)
    ensures r == u.(state := r.state)
    ensures WellFormed(r) && InPhase(r, p)
    ensures forall q :: q in Members(u.kind) && q != p ==> (InPhase(r, q) <==> InPhase(u, q))
  {
    u.(state := States.SetState(u.state, p))
  }

  /** `Slotable.complete`. */
  function MarkComplete(u: Unit): (r: Unit)
    ensures r.completed && r == u.(completed := true)
  {
    u.(completed := true)
  }

  /** `Slotable.set_completed`: the flag is a boolean by assertion, so the
      model's type already enforces it. */
  function SetCompleted(u: Unit, completed: bool): (r: Unit)
    ensures r.completed == completed && r == u.(completed := completed)
  {
    u.(completed := completed)
  }

  /** `Slotable.bind`: a unit already bound refuses another slot unless the
      binding is forced. */
  function Bind(u: Unit, slot: nat, force: bool): (r: Result<Unit>)
    ensures r.Err? <==> (u.slot.Some? && !force)
    ensures r.Err? ==> r.error == SlotError
    ensures r.Ok? ==> r.value == u.(slot := Some(slot))
  {
    if u.slot.Some? && !force then Err(SlotError)
    else Ok(u.(slot := Some(slot)))
  }

  /** Binding once succeeds, binding again fails unless forced, and a forced
      rebind moves the unit to the new slot. */
  lemma BindOnce(u: Unit, a: nat, b: nat)
    requires u.slot.None?
    ensures Bind(u, a, false).Ok?
    ensures Bind(Bind(u, a, false).value, b, false) == Err(SlotError)
    ensures Bind(Bind(u, a, false).value, b, true).value.slot == Some(b)
  {
  }
}

=== FILE: wrappers.dfy ===
/** Failure-compatible result types and the error vocabulary shared by the
    whole model: every exception the framework raises on a path the model
    covers is one constructor of `Error`. */
module Wrappers {

  /** The conventional Some/None datatype, used where the source uses `None`. */
  datatype Option<+T> = None | Some(value: T) {

    predicate IsFailure() {
      None?
    }

    function PropagateFailure<U>(): Option<U>
      requires None?
    {
      None
    }

    function Extract(): T
      requires Some?
    {
      value
    }

    /** The encapsulated value, or `default` when there is none. */
    function GetOr(default: T): T {
      match this
      case Some(v) => v
      case None => default
    }
  }

  /** Exceptions raised by the modelled code, named after the source's classes. */
  datatype Error =
    | SlotUnbound          // a Slot used before both its scraper and engine are bound
    | SlotError            // rebinding a unit, or routing a unit that is not bound to a slot
    | SchedulerError       // no scheduler plugin could be loaded
    | DownloaderNotFound   // the named downloader is not loaded
    | TypeError            // Python's TypeError (string concatenation with a non-string, ...)
    | AttributeError       // Python's AttributeError (attribute lookup on a non-dict)
    | KeyError             // a missing dictionary key
    | ValueError           // Python's ValueError (empty tuple key, released semaphore, ...)
    | AssertionFailed      // an `assert` of the source that its own tests exercise
    | FieldNotFound        // an item has no field of that name
    | Raised(name: string) // an exception raised by a collaborator outside the model

  /** A value or the exception raised instead of producing it. */
  datatype Result<+R> = Ok(value: R) | Err(error: Error) {

    predicate IsFailure() {
      Err?
    }

    function PropagateFailure<U>(): Result<U>
      requires Err?
    {
      Err(error)
    }

    function Extract(): R
      requires Ok?
    {
      value
    }
  }
}
